=== FILE: README.md ===
# SwordSong in Dafny

SwordSong is a Discord role-playing bot. A player creates a character and
fights monsters in text commands or on a button screen. Skills cost mana and
have cooldowns. Victories bring xp, coins, loot and level-ups. The player can
also explore a small grid dungeon room by room and buy items from a paged
guild shop.

This project models the game's core in Dafny and proves what it promises:

- `store.dfy` (`Store`) is the character store of `database.py`. Its SQLite
  tables (characters, inventory stacks, equipment, fight statistics and skill
  cooldowns) become map fields of the class `CharacterStore`, and each query
  becomes a method that reassigns them.
- `combat.dfy` (`Combat`) is the combat engine of `services/combadsys.py`,
  the class `CombatSystem`. It covers:
  - the rarity-weighted spawn pool and the boss forced after 15 fights;
  - the session registry;
  - the damage formula;
  - the player's turn (attack, the four catalog skills, mana and cooldowns);
  - the monster's turn (defensive stance, cooldown tick);
  - the rewards (coins, at most one level-up per victory, loot);
  - the skill menu.

  Each turn is a pure step function, `ResolvePlayerAction` or
  `ResolveMonsterTurn`. The methods of `CombatSystem` are proved to write
  back exactly what those functions compute.
- `combat_cog.dfy` (`CombatCommands`) holds the `fight` and `attack` text
  commands of `cogs/combat.py`.
- `combat_view.dfy` (`CombatScreen`) is the button screen of
  `view/combatView.py`: attack, skills, flee, the monster's answer, victory
  and timeout.
- `dungeon_models.dfy` (`DungeonModels`) holds the rooms and grid positions
  of `services/dungeon/models.py`.
- `mini_dungeon.dfy` (`MiniDungeons`) is the dungeon of
  `services/dungeon/miniTest.py`. It covers grid generation (entrance,
  treasure, weighted interior kinds, passages), player movement and the map.
- `dungeon_view.dfy` (`DungeonScreen`) is the exploration screen of
  `view/dungeonView.py`. It covers the four-entry action log and the room
  handlers (treasure, trap, healing spring, puzzle, combat, merchant).
- `shop.dfy` (`Shop`) covers two source files:
  - `cogs/shop.py`: the `shop` command, which cuts the catalogue into pages
    of six and turns them with wrap-around arrow reactions;
  - `view/shopView.py`: the paged shop screen and the purchase form.
- `basics.dfy` (`Basics`) holds the shared pieces: `Option`, truncation of
  a real, and the random draws.

Randomness is a parameter. Every `random.randint(lo, hi)` becomes
`Draw(lo, hi, roll)` with an arbitrary natural `roll`, and every
`random.choice` becomes `Choose`. The damage variance of
`random.uniform(0.8, 1.2)` is a real parameter. The proofs therefore hold for
every outcome of the dice.

## Model

| member | source | states |
|---|---|---|
| Basics.Trunc | SwordSong/services/combadsys.py:126 | `int(x)` truncates toward zero: for x ≥ 0 the result is the floor, for x < 0 the ceiling |
| Basics.Draw | SwordSong/services/combadsys.py:269 | a `randint(lo, hi)` draw always lies in the inclusive range [lo, hi] |
| Basics.DrawReaches | SwordSong/view/dungeonView.py:201 | every value of the range is drawn by some roll, so no outcome of a `randint` is lost by the oracle |
| Basics.Choose | SwordSong/services/combadsys.py:82 | `random.choice` returns an element of the non-empty sequence |
| Store.ApplyPatch | SwordSong/database.py:135-150 | an update keeps the user id, and empty updates leave the row as it is |
| Store.ApplyPatchIdempotent | SwordSong/database.py:135-150 | applying the same column updates twice equals applying them once |
| Store.AddStack | SwordSong/database.py:187-194 | the user's stack of the item grows by exactly the quantity (a new row when there was none); every other row is unchanged |
| Store.TakeStack | SwordSong/database.py:219-226 | the stack shrinks by the quantity; the row is deleted exactly when nothing is left; every other row is unchanged |
| Store.TakeUndoesAdd | SwordSong/database.py:175-233 | removing a positive quantity just added restores the inventory exactly, given positive stacks |
| Store.InventoryOf | SwordSong/database.py:166-173 | the user's inventory holds exactly the user's rows, with their quantities |
| Store.WithoutUser | SwordSong/database.py:152-163 | the per-user delete leaves exactly the other users' rows, unchanged |
| Store.AddItemRowAsWritten | SwordSong/database.py:193 | as written, the insert binds (quantity, userID, itemName) to (userID, itemName, quantity): a first potion for user "42" lands under user "1"; the intended row is keyed by the user |
| Store.GetFightStatsAsWritten | SwordSong/database.py:276-292 | as written, the query names `lastFightTimestamp`, which the schema spells `lastFightTimestap` (line 82), so it answers None for every user |
| Store.GetFightStatsCorrected | SwordSong/database.py:276-292 | with the schema's column name, the query returns exactly the stored row, or None when there is none |
| Store.TickCooldowns | SwordSong/database.py:337-347 | every cooldown of the user loses one turn, never going below 0; only positive entries remain; other users' rows are untouched |
| Store.CooldownAfterTicks | SwordSong/database.py:337-347 | after n ticks a cooldown c reads max(c − n, 0) |
| Store.CooldownExpiresAfterItsTurns | SwordSong/database.py:313-347 | a cooldown set to n turns reads n − j after j < n ticks and 0 after exactly n |
| Store.CharacterStore.constructor | SwordSong/database.py:5-10 | a new store has empty tables |
| Store.CharacterStore.CreateCharacter | SwordSong/database.py:106-119 | succeeds exactly for a new user id, inserting the row with the default columns; a duplicate changes nothing |
| Store.CharacterStore.GetCharacter | SwordSong/database.py:122-132 | None exactly when the user has no row, otherwise that row |
| Store.CharacterStore.UpdateCharacter | SwordSong/database.py:135-150 | empty updates succeed without change; otherwise the result says whether the row exists, and only that row's named columns change |
| Store.CharacterStore.DeleteCharacter | SwordSong/database.py:152-163 | deletes the user's character, inventory and equipment rows and nothing else |
| Store.CharacterStore.GetInventory | SwordSong/database.py:166-173 | the items and quantities of exactly the user's inventory rows |
| Store.CharacterStore.AddItem | SwordSong/database.py:175-200 | succeeds exactly when the quantity is positive and the character exists, and then adds it to the user's own stack; otherwise nothing changes |
| Store.CharacterStore.RemoveItem | SwordSong/database.py:202-233 | succeeds exactly when the quantity is positive and the stack holds at least that much, then subtracts it (deleting an emptied row); otherwise nothing changes |
| Store.CharacterStore.EquipItem | SwordSong/database.py:236-243 | the slot holds exactly the new item, replacing any earlier one |
| Store.CharacterStore.UnequipItem | SwordSong/database.py:255-262 | the slot is emptied and nothing else changes |
| Store.CharacterStore.GetEquipment | SwordSong/database.py:246-252 | slot to item for exactly the user's equipment rows |
| Store.CharacterStore.InitializeFightStats | SwordSong/database.py:266-273 | creates the zero row only when missing; an existing row is never overwritten |
| Store.CharacterStore.GetFightStats | SwordSong/database.py:276-292 | the user's statistics row, or None exactly when there is none |
| Store.CharacterStore.UpdateFightStats | SwordSong/database.py:294-310 | empty updates change nothing; otherwise the row is created if missing and only the named columns change |
| Store.CharacterStore.SetSkillCooldown | SwordSong/database.py:313-320 | the (user, skill) cooldown holds exactly the new number of turns |
| Store.CharacterStore.GetSkillCooldown | SwordSong/database.py:323-330 | the stored turns, or 0 without a row |
| Store.CharacterStore.IsSkillOnCooldown | SwordSong/database.py:333-334 | true exactly when a row with turns above 0 exists |
| Store.CharacterStore.UpdateSkillCooldown | SwordSong/database.py:337-347 | the table after one tick of the user's cooldowns (`TickCooldowns`) |
| Store.CharacterStore.GetAllSkillCooldowns | SwordSong/database.py:349-355 | exactly the user's skills that are on cooldown, each with its positive number of turns |
| Combat.RarityWeight | SwordSong/services/combadsys.py:13-18 | every rarity of the table has a positive weight (common 60, uncommon 25, rare 12, legendary 3); a boss has no weight and never enters the pool |
| Combat.CreateMonsterInstance | SwordSong/services/combadsys.py:50-54 | the instance is the template with its health full |
| Combat.CalculateDamage | SwordSong/services/combadsys.py:115-126 | damage is at least 1; when the raw damage is at least 1 it is its whole part, otherwise exactly 1 |
| Combat.TruncationAgreesWithFloor | SwordSong/services/combadsys.py:126 | max(1, int(x)) equals max(1, ⌊x⌋) for every real x |
| Combat.HalvedDamage | SwordSong/services/combadsys.py:239-240 | `int(damage * 0.5)` under a stance is exactly damage div 2 for every non-negative blow |
| Combat.Repeat | SwordSong/services/combadsys.py:78 | `[monster] * weight` has length weight and every entry is that monster |
| Combat.RepeatCount | SwordSong/services/combadsys.py:78 | `[monster] * weight` contains a monster weight times if it is that monster, else 0 times |
| Combat.PoolCounts | SwordSong/services/combadsys.py:73-80 | in the spawn pool, each non-boss template appears its rarity weight times per listing; a boss never appears |
| Combat.PoolMembers | SwordSong/services/combadsys.py:73-80 | the pool holds exactly the area's non-boss templates, so it is empty exactly when the area has only bosses |
| Combat.BuildPool | SwordSong/services/combadsys.py:73-80 | the loop builds exactly the weighted pool |
| Combat.Bosses | SwordSong/services/combadsys.py:65-67 | the boss list holds exactly the area's boss templates, in order |
| Combat.SpawnFrom | SwordSong/services/combadsys.py:64-84 | a due boss is drawn from the bosses; otherwise the monster is drawn from the pool and is never a boss; with an empty pool there is no monster |
| Combat.BossAfterFifteenFights | SwordSong/services/combadsys.py:57-89 | from fresh statistics, 15 spawns give regular monsters counted in both counters, and the 16th gives a boss, which resets the boss counter |
| Combat.HealingPulseAsWritten | SwordSong/services/combadsys.py:165-172 | as written, "Healing Pulse" takes the attack branch at multiplier 1.0, and "Heal Pulse" reads a missing skill and fails |
| Combat.BranchFollowsCatalog | SwordSong/services/combadsys.py:144-179 | corrected: the heal branch is taken exactly for the catalog skill with a heal percent, the stance branch exactly for the one with a duration |
| Combat.PlayerActionOutcome | SwordSong/services/combadsys.py:129-209 | checks run in order (cooldown, then mana); on success the mana cost is paid, the cooldown set, heal is capped at max health, the stance lasts 3 turns, an attack lowers the monster's health by the damage, the monster is defeated iff its health is ≤ 0, and otherwise the turn passes to the monster |
| Combat.PlainAttackNeverRefused | SwordSong/services/combadsys.py:140-141 | a plain attack has no skill check and always acts |
| Combat.MonsterTurnOutcome | SwordSong/services/combadsys.py:212-262 | the monster's blow is halved under a stance whose counter then drops (removed at 0); health drops by the damage; the player is defeated iff health ≤ 0; otherwise the turn returns to the player and the cooldowns tick |
| Combat.StanceLastsThreeTurns | SwordSong/services/combadsys.py:175-179 | a stance taken now halves the next three monster blows and is gone after the third |
| Combat.Rewarded | SwordSong/services/combadsys.py:265-310 | xp and coins are added; on reaching the threshold the level rises by one, the threshold is spent from the xp and grows by 50 × the new level, max health +20, attack +4, defense +2, max mana +10, health and mana refill, and name, id and area are kept |
| Combat.RewardKeepsCharacterSound | SwordSong/services/combadsys.py:280-310 | rewards keep level ≥ 1 and health and mana within their maxima; xp stays below the next threshold when the reward is at most one level's worth |
| Combat.OneLevelPerReward | SwordSong/services/combadsys.py:280-310 | at most one level per victory, for any character and any xp: the level rises by one exactly when the xp reaches the threshold, so a fresh character given 1000 xp reaches level 2 only and keeps xp above its new threshold |
| Combat.LootDrops | SwordSong/services/combadsys.py:313-321 | at most one drop per loot entry |
| Combat.RolledEntryDrops | SwordSong/services/combadsys.py:313-321 | every entry whose roll of 1 to 100 is within its chance drops, with its quantity |
| Combat.DropOrigin | SwordSong/services/combadsys.py:313-321 | every drop comes from an entry whose roll was within its chance, with a quantity from its range |
| Combat.SessionsValidUpdate | SwordSong/services/combadsys.py:92-103 | filing a valid session under its own user keeps the registry valid |
| Combat.CombatSystem.constructor | SwordSong/services/combadsys.py:7-47 | a new engine has no sessions and holds the given store and area data |
| Combat.CombatSystem.SpawnMonster | SwordSong/services/combadsys.py:57-89 | an unknown area raises; otherwise the result is `SpawnFrom` of the stored (or created) statistics, which are updated by `StatsAfterSpawn` |
| Combat.CombatSystem.SpawnIn | SwordSong/services/combadsys.py:64-89 | the draw in a known area and the statistics row it leaves |
| Combat.CombatSystem.ReadFightStats | SwordSong/services/combadsys.py:59-62 | the stored statistics, or a new zero row created when missing |
| Combat.CombatSystem.StartCombat | SwordSong/services/combadsys.py:92-103 | the user's session becomes a fresh one on the player's turn with no effects, replacing any other |
| Combat.CombatSystem.GetCombatState | SwordSong/services/combadsys.py:106-107 | the user's session, or None exactly when there is none |
| Combat.CombatSystem.EndCombat | SwordSong/services/combadsys.py:110-112 | removes exactly the user's session |
| Combat.CombatSystem.ProcessPlayerAttack | SwordSong/services/combadsys.py:129-209 | no session, then no character, fail without change; otherwise session, character and cooldowns become what `ResolvePlayerAction` computes |
| Combat.CombatSystem.ApplyPlayerEffect | SwordSong/services/combadsys.py:164-209 | the heal, stance or attack is written back, then the handover to the monster unless it is defeated |
| Combat.CombatSystem.ProcessMonsterTurn | SwordSong/services/combadsys.py:212-262 | no session fails without change, a missing character fails; otherwise the state becomes what `ResolveMonsterTurn` computes |
| Combat.CombatSystem.MonsterStrikes | SwordSong/services/combadsys.py:225-262 | the monster turn written back once session and character are found |
| Combat.RewardsFor | SwordSong/services/combadsys.py:265-310 | the xp is the monster's, the coins lie in [xp // 2, xp], and a level-up to the next level comes exactly when the xp reaches the threshold |
| Combat.CombatSystem.DistributeRewards | SwordSong/services/combadsys.py:265-325 | for an existing character the rewards are `RewardsFor` of that character, the monster and the rolls; the row becomes `Rewarded` and the dropped loot is added to the inventory; without a character nothing changes |
| Combat.CombatSystem.GetAvailableSkills | SwordSong/services/combadsys.py:328-343 | one entry per catalog skill, in order, with its cooldown; usable exactly when the cooldown is 0 and the mana covers the cost |
| CombatCommands.CombatCog.constructor | SwordSong/cogs/combat.py:8-12 | the cog holds the engine |
| CombatCommands.CombatCog.Fight | SwordSong/cogs/combat.py:14-84 | guards in order: no character, a session already open, health ≤ 0; then the spawn, and only a spawned monster opens a session; an open session is never replaced; a spawn attempt writes the fight statistics: `StatsAfterSpawn` in a known area, the read or created row otherwise; a new session starts without effects |
| CombatCommands.CombatCog.Attack | SwordSong/cogs/combat.py:87-146 | a missing session raises before any check; then no character, then not your turn, each changing nothing; otherwise one exchange of blows with the new state of `Exchange` |
| CombatCommands.CombatCog.Exchange | SwordSong/cogs/combat.py:118-146 | the blow resolves as `ResolvePlayerAction`, and the fight is won exactly when that defeats the monster; a win pays `Rewarded` on the character the blow left and `GrantLoot`, keeps the blow's cooldowns and ends the session; otherwise the character, cooldowns and session become those of `ResolveMonsterTurn` on the state the blow left, and the session stays open even when the player falls; a win's rewards are `RewardsFor` of the character the blow left |
| CombatCommands.CombatCog.HandleCombatVictory | SwordSong/cogs/combat.py:150-171 | for an existing character the rewards are exactly `RewardsFor` of the character before the reward and the monster's template, with the dice's coin, chance and quantity rolls, the row becomes `Rewarded` and the loot is granted; none and no change otherwise |
| CombatCommands.CombatCog.ProcessMonsterTurn | SwordSong/cogs/combat.py:173-195 | one monster turn: the session, character row and cooldown table become those of `ResolveMonsterTurn`, and the session stays open whatever its outcome |
| CombatScreen.CombatView.constructor | SwordSong/view/combatView.py:7-12 | a new screen for the user, live and not timed out |
| CombatScreen.CombatView.OnTimeout | SwordSong/view/combatView.py:20-33 | the user's session ends and every button is disabled |
| CombatScreen.CombatView.ProcessMonsterTurn | SwordSong/view/combatView.py:124-165 | an engine failure is only shown; a defeated player's session ends and the screen stops; otherwise the fight goes on |
| CombatScreen.CombatView.HandleVictory | SwordSong/view/combatView.py:210-234 | the rewards are exactly `RewardsFor` of the character before the reward and the monster's template, with the dice's coin, chance and quantity rolls; the row becomes `Rewarded` and the loot is granted, then the session ends and the screen stops |
| CombatScreen.CombatView.HandleVictoryAsWritten | SwordSong/view/combatView.py:210-234 | the rewards are exactly `RewardsFor` of the character before the reward and the monster's template, with the dice's coin, chance and quantity rolls and are paid; when any loot dropped the session stays open and the screen keeps running, otherwise the session ends and the screen stops |
| CombatScreen.DefeatedMonsterFallsAgain | SwordSong/services/combadsys.py:193-205 | an action that defeats the monster leaves the player's turn and a monster at or below zero health, so the next plain attack is accepted and defeats it again |
| CombatScreen.CombatView.TakeTurn | SwordSong/view/combatView.py:91-122 | refused exactly when `ResolvePlayerAction` fails, with nothing changed; won exactly when it defeats the monster: `Rewarded` on the character the action left, `GrantLoot`, the action's cooldowns, the fight ended and the screen stopped, with no monster turn; otherwise the character, cooldowns and session become those of `ResolveMonsterTurn` on the state the action left, and a defeated player's fight ends; a win's rewards are `RewardsFor` of the character the action left |
| CombatScreen.CombatView.AttackButton | SwordSong/view/combatView.py:72-79 | acts only on the player's turn of a running fight, otherwise changes nothing; a plain attack is refused only without a character; once it acts, the new state is that of `TakeTurn` |
| CombatScreen.CombatView.UseSkill | SwordSong/view/combatView.py:274-318 | the same turn check, then the player's action with the chosen skill, refused exactly when `ResolvePlayerAction` fails; once it acts, the new state is that of `TakeTurn` |
| CombatScreen.CombatView.ProcessFlee | SwordSong/view/combatView.py:167-185 | a roll of 1 to 70 ends the fight with no monster turn and no other change; otherwise the monster's turn: the character, cooldowns and session become those of `ResolveMonsterTurn`, a defeated player's fight ends, and otherwise the turn returns to the player |
| DungeonModels.DirectionIndex | SwordSong/services/dungeon/models.py:22-28 | each direction name has its place among north, south, east, west |
| DungeonModels.Neighbors | SwordSong/services/dungeon/models.py:22-28 | exactly the four direction names, each one step away |
| DungeonModels.Opposite | SwordSong/services/dungeon/models.py:22-28 | the opposite of a direction is another direction |
| DungeonModels.NeighborRoundTrip | SwordSong/services/dungeon/models.py:22-28 | a step and the opposite step lead back |
| DungeonModels.NeighborsDistinct | SwordSong/services/dungeon/models.py:22-28 | the four neighbours are four different cells, none of them the cell itself |
| DungeonModels.Room.constructor | SwordSong/services/dungeon/models.py:31-37 | a new room is unvisited, uncleared and closed in all four directions |
| DungeonModels.Room.Visit | SwordSong/services/dungeon/models.py:39-40 | the room is visited and nothing else changes |
| DungeonModels.Room.Clear | SwordSong/services/dungeon/models.py:42-43 | the room is cleared and nothing else changes |
| DungeonModels.Room.SetConnection | SwordSong/services/dungeon/models.py:45-47 | one known direction is set; an unknown name changes nothing |
| DungeonModels.Room.GetEmoji | SwordSong/services/dungeon/models.py:49-55 | unvisited shows the hidden glyph (even when cleared); visited shows the cleared or the visited glyph |
| MiniDungeons.RoomKind | SwordSong/services/dungeon/miniTest.py:38-41 | the interior kind is combat, trap, puzzle or empty |
| MiniDungeons.RoomKindWeights | SwordSong/services/dungeon/miniTest.py:38-41 | combat, trap, puzzle and empty take runs of 40, 15, 10 and 35 of every 100 rolls |
| MiniDungeons.Passages | SwordSong/services/dungeon/miniTest.py:45-48 | a room's passage is open exactly toward an occupied neighbour cell |
| MiniDungeons.MiniDungeon.constructor | SwordSong/services/dungeon/miniTest.py:16-21 | a new dungeon of size at least 3 is the generated layout, with passages open exactly between neighbouring rooms |
| MiniDungeons.MiniDungeon.GenerateGrid | SwordSong/services/dungeon/miniTest.py:23-48 | entrance on the west edge and treasure on the east edge, away from the corners; the player stands in the visited entrance; every interior cell holds a room of its rolled kind; passages open exactly between neighbouring rooms |
| MiniDungeons.MiniDungeon.PlaceEnds | SwordSong/services/dungeon/miniTest.py:24-33 | a new grid holds only the entrance and the treasure room, and the player stands in the visited entrance |
| MiniDungeons.MiniDungeon.LaidOut | SwordSong/services/dungeon/miniTest.py:25-43 | the rooms placed by the first two steps form the generated layout |
| MiniDungeons.MiniDungeon.PlaceInterior | SwordSong/services/dungeon/miniTest.py:35-43 | each interior cell gets one new unvisited room of its rolled kind; rooms already placed stay |
| MiniDungeons.MiniDungeon.ConnectRooms | SwordSong/services/dungeon/miniTest.py:45-48 | afterwards every passage is open exactly toward a neighbouring room |
| MiniDungeons.MiniDungeon.PassagesWired | SwordSong/services/dungeon/miniTest.py:45-48 | rooms whose passages all follow the occupied cells form a wired dungeon |
| MiniDungeons.MiniDungeon.OpenPassages | SwordSong/services/dungeon/miniTest.py:46-48 | one room's passages open exactly toward its occupied neighbours |
| MiniDungeons.MiniDungeon.ConnectionsSymmetric | SwordSong/services/dungeon/miniTest.py:45-48 | an open passage leads to a room whose opposite passage is open too |
| MiniDungeons.MiniDungeon.MovePlayerAsWritten | SwordSong/services/dungeon/miniTest.py:50-61 | as written, the inverted test refuses a target that holds a room, so in a wired dungeon the player never moves |
| MiniDungeons.MiniDungeon.MovePlayer | SwordSong/services/dungeon/miniTest.py:50-61 | corrected: the player moves exactly through an open passage into a room and visits it; otherwise nothing changes |
| MiniDungeons.MiniDungeon.FreshMapShowsOnlyPlayer | SwordSong/services/dungeon/miniTest.py:64-77 | right after generation the map shows the player at the entrance and hides every other cell |
| MiniDungeons.MiniDungeon.CurrentRoom | SwordSong/services/dungeon/miniTest.py:64-77 | a size × size map, north to south and west to east: the player's glyph at the player's cell, a visited room's glyph, otherwise the hidden glyph |
| DungeonScreen.Newest | SwordSong/view/dungeonView.py:38-41 | the last n entries, or all of them when there are fewer |
| DungeonScreen.Bulleted | SwordSong/view/dungeonView.py:39 | each entry is the message behind a bullet and a space |
| DungeonScreen.NewestAppend | SwordSong/view/dungeonView.py:38-41 | trimming before appending keeps the same newest entries as appending to the whole log |
| DungeonScreen.LogKeepsNewest | SwordSong/view/dungeonView.py:38-41 | after any number of actions the log holds exactly the bulleted messages of the four latest, oldest first |
| DungeonScreen.RoomEffects | SwordSong/view/dungeonView.py:200-313 | a failing handler changes nothing; treasure, trap, healing and puzzle rooms are cleared whenever the handler succeeds; treasure pays 20 to 100 coins; a trap is avoided on 1 to 30, otherwise it deals 5 to 15 but leaves at least 1 health; the spring heals up to 30 without passing the maximum; a right puzzle guess pays 10 to 30 |
| DungeonScreen.DungeonView.constructor | SwordSong/view/dungeonView.py:9-16 | a new screen with an empty log |
| DungeonScreen.DungeonView.AddToActionLog | SwordSong/view/dungeonView.py:38-41 | the log is the bulleted message appended, trimmed to the newest four |
| DungeonScreen.DungeonView.UpdateAndLog | SwordSong/view/dungeonView.py:243-244 | the character's columns are updated, then one line is logged |
| DungeonScreen.DungeonView.InteractWithRoom | SwordSong/view/dungeonView.py:158-198 | a room without a player or already cleared changes nothing; otherwise the handler's effect (`ResolveRoom`) reaches the store, the room and the log |
| DungeonScreen.DungeonView.RunHandler | SwordSong/view/dungeonView.py:173-198 | the handler of the room's kind is dispatched and its effect applied |
| DungeonScreen.DungeonView.HandleTreasureRoom | SwordSong/view/dungeonView.py:200-213 | coins from the chest, the room cleared and the find logged |
| DungeonScreen.DungeonView.HandleTrapRoom | SwordSong/view/dungeonView.py:232-255 | avoided or damaging as `TrapEffect` says; the room is cleared either way |
| DungeonScreen.DungeonView.HandleHealingRoom | SwordSong/view/dungeonView.py:257-279 | healing capped at the maximum, and the room cleared |
| DungeonScreen.DungeonView.HandlePuzzleRoom | SwordSong/view/dungeonView.py:289-313 | a right guess pays its reward; the room is cleared either way |
| Shop.PageCount | SwordSong/view/shopView.py:79 | the page count is ⌈n / 6⌉: enough pages for every item, and not one page more |
| Shop.SliceBound | SwordSong/view/shopView.py:94 | a slice bound is clamped into [0, n], counting a negative bound from the end |
| Shop.Slice | SwordSong/view/shopView.py:94 | `s[start:end]` never fails; it is the clamped range, and empty when the bounds cross |
| Shop.ChunksFlatten | SwordSong/cogs/shop.py:28-37 | putting the pages back together gives the catalogue: nothing lost, repeated or reordered |
| Shop.ChunkSizes | SwordSong/cogs/shop.py:28-37 | there are ⌈n / 6⌉ pages, each holding one to six items, and only the last may be shorter |
| Shop.ChunkIsSlice | SwordSong/cogs/shop.py:28-30 | page k is the slice [6k : 6k + 6] of the catalogue |
| Shop.Turn | SwordSong/cogs/shop.py:52-55 | the page after one arrow stays in range |
| Shop.TurnRight | SwordSong/cogs/shop.py:52-53 | the right arrow goes to the next page and wraps from the last page to the first |
| Shop.TurnLeft | SwordSong/cogs/shop.py:54-55 | the left arrow goes to the previous page and wraps from the first page to the last |
| Shop.TurnBack | SwordSong/cogs/shop.py:52-55 | turning one way and then back returns to the same page |
| Shop.RightsAdvance | SwordSong/cogs/shop.py:49-55 | k ≤ n right arrows move k pages on, wrapping past the last; n of them come back to the start |
| Shop.Browse | SwordSong/cogs/shop.py:49-60 | the reaction loop ends on the page `PageAfter` gives for the reactions, which is in range |
| Shop.BuildPages | SwordSong/cogs/shop.py:28-37 | the pages loop builds exactly the catalogue cut into pages of six |
| Shop.ShopCog.constructor | SwordSong/cogs/shop.py:6-9 | the cog holds the store and the catalogue |
| Shop.ShopCog.ShopCommand | SwordSong/cogs/shop.py:12-60 | a non-member is refused; an empty catalogue fails on the first page; otherwise the pages are the catalogue cut into six, the arrows are offered exactly when there is more than one page, and the page shown is the one the reactions lead to |
| Shop.ListedAsWritten | SwordSong/view/shopView.py:116-121 | as written, the line's price is read under the key `butPrice`, so it is always 0 |
| Shop.Listed | SwordSong/view/shopView.py:116-121 | corrected: the line shows the item's name, buying price and description |
| Shop.PageBack | SwordSong/view/shopView.py:140-145 | the previous page, but only above the first page |
| Shop.PageForward | SwordSong/view/shopView.py:148-153 | the next page, but only below the last page |
| Shop.NextWalksToLastPage | SwordSong/view/shopView.py:148-153 | pressing Next k times from a valid page reaches page + k, stopping at the last page |
| Shop.PreviousWalksToFirstPage | SwordSong/view/shopView.py:140-145 | pressing Previous k times reaches page - k, stopping at page 1 |
| Shop.ShopView.constructor | SwordSong/view/shopView.py:73-80 | the screen opens on page 1, with ⌈n / 6⌉ pages |
| Shop.ShopView.GetCurrentItems | SwordSong/view/shopView.py:91-94 | on a page in range, exactly that catalogue page (one to six items); past the last page, nothing |
| Shop.ShopView.CreateEmbedAsWritten | SwordSong/view/shopView.py:96-128 | as written, every listed price is 0 |
| Shop.ShopView.CreateEmbed | SwordSong/view/shopView.py:96-128 | a non-member gets the refusal; a member sees the page number, the page count, their coins and the current page's items with their prices, in catalogue order |
| Shop.ShopView.PreviousPage | SwordSong/view/shopView.py:140-145 | the page moves back one, never below 1 |
| Shop.ShopView.NextPage | SwordSong/view/shopView.py:148-153 | the page moves on one, never past the last |
| Shop.ListedPriceAsWritten | SwordSong/view/shopView.py:118 | a catalogue item priced at 25 coins is listed at 0 as written, and at 25 by the corrected line |
| Shop.LowerChar | SwordSong/view/shopView.py:31 | upper-case ASCII letters fold to lower case; every other character is kept |
| Shop.Lower | SwordSong/view/shopView.py:31 | folding keeps the length and folds each character |
| Shop.LowerIdempotent | SwordSong/view/shopView.py:31 | folding twice is folding once |
| Shop.FindItem | SwordSong/view/shopView.py:31 | the index of the first catalogue entry whose name matches ignoring case, or None exactly when no entry matches |
| Shop.LookupIgnoresCase | SwordSong/view/shopView.py:31 | a name typed in another case finds the same entry |
| Shop.FindSameMatches | SwordSong/view/shopView.py:31 | two names that fold the same find the same entry |
| Shop.BuyItemModal.constructor | SwordSong/view/shopView.py:7-11 | the form holds the user, the store and the catalogue |
| Shop.BuyItemModal.Submit | SwordSong/view/shopView.py:20-69 | a non-member, an item not sold and a price above the coins change nothing; otherwise exactly one unit is added to the buyer's stack and exactly the price is taken from the coins |

## Left out

- Discord itself is not modelled: embeds, messages, ephemeral replies, the `asyncio.sleep` pauses and button rendering. The model keeps only the state the screens change and the outcome each one reports.
- SQLite errors are not modelled. Every `except sqlite3.Error` branch is left out, because the maps here cannot fail. The purchase-failed branch of `on_submit` (view/shopView.py:63-69) is left out for the same reason: `addItem` fails only on a database error once the character is known to exist.
- Python floats: damage variance, healing percentages and mana are exact reals, so float rounding is not modelled.
- `Combat.CombatSystem.SpawnMonster`: the loading of the area and monster data from JSON files is not modelled. The area data is a parameter of the engine.
- `Combat.RewardKeepsCharacterSound`: `Sound` requires 0 ≤ health ≤ maximum health, so the lemma covers only characters with such health. The source can store negative health after a lethal monster turn that the cog leaves open; a reward without a level-up keeps that negative health, and the lemma says nothing about it.
- `Combat.CombatSystem.DistributeRewards`: the reward draws assume the area data can be drawn (`RewardDrawable`: xp reward ≥ 0 and ordered quantity ranges). On other data `randint` raises, and that failure is not modelled.
- The reward's loot quantity is modelled only for the two forms the data uses, a number and a `[min, max]` list.
- A rarity string outside the five of the table raises a KeyError in the source. The model's rarity is a datatype, so such data cannot be written.
- Session aliasing is not modelled. The source hands out the session dictionary itself, so a caller that mutates it mutates the engine's copy. The model returns session values.
- `cogs/combat.py` calls members that do not exist: `self.combat.attack` (line 118), `self.combat.monsterAttack` (line 174) and `combatSystem.handleVictory` (line 151). The model follows the evident intent: `processPlayerAttack`, `processMonsterTurn` and `distributeRewards`.
- `cogs/combat.py` line 142 calls `combatSystem.endCombat(userID)` on the class `combatSystem` rather than on the engine. `endCombat` exists (services/combadsys.py:110), but `userID` takes the place of `self` and the user argument is missing, so the call raises a TypeError. The model follows the evident intent, `self.combat.endCombat(userID)`.
- `cogs/combat.py`'s `fight` raises on two of its report paths: `discord.color.red()` (line 39) when the character is too weak, and `ctx.send(ebmed = embed)` (line 52) when no monster is found. Both raise after the state the model gives for that outcome is reached, so `TooWeak` and `NoMonsterFound` report what the evident intent would show.
- `cogs/combat.py` line 150 defines `handleCombatVictory` without `self`, while line 141 calls it as `self.handleCombatVictory(ctx, userID, monster)`, which raises a TypeError. The model follows the evident intent, a method that receives those three arguments.
- `cogs/combat.py` reads the monster of a missing session (line 92) before its guards. The model reports this as `Crashed`, so "not in combat" is unreachable.
- `cogs/combat.py` has no defeat branch: after a lethal monster turn the cog leaves the session open. The model keeps this.
- `view/combatView.py` line 218 reads each loot item's `quanity`, which raises before the fight is ended. `CombatScreen.CombatView.HandleVictoryAsWritten` models this (see Findings). `TakeTurn`, `AttackButton` and `UseSkill` call the corrected `HandleVictory`, so they promise that every victory ends the fight and stops the screen.
- `view/combatView.py` lines 71, 81 and 86 decorate the three buttons with `discord.ui.view`, which is not a decorator, so the class cannot be defined as written. The model follows the evident intent, `discord.ui.button`.
- `view/combatView.py` line 250 passes `emojo=` when `SkillSelectionView` builds its options, which raises a TypeError. The model follows the evident intent, `emoji=`; the menu itself is display only.
- `view/combatView.py`: `skillCallback` calls `useSkill` while the method is named `userSkill`, and `updateEmbed` is display only. The model's `UseSkill` is the intended handler. `showSkillMenu` and `SkillSelectionView` only display `getAvailableSkills`, which is modelled.
- `interaction_check` filters other users' presses. It becomes the screen being built for one user.
- `services/dungeon/miniTest.py` lines 30-31 call the `roomData` dictionary as if it were a function. The model uses the intended lookup `roomData[kind]`.
- MiniDungeons.MiniDungeon.constructor: a size below 3 makes `randint(1, size - 2)` raise; the model requires a size of at least 3 instead of modelling that failure.
- `MiniDungeons.MiniDungeon.CurrentRoom` returns the grid of glyphs rather than the newline-joined string.
- The player and hidden-cell glyphs of services/dungeon/miniTest.py (lines 71 and 75) are stored in the file as the UTF-8 bytes of 👤 and 🟫 read back as Windows-1252, so the map as written shows the four-character strings "ðŸ‘¤" and "ðŸŸ«". `PlayerGlyph` and `BlankGlyph` are those strings, not the emoji.
- `services/dungeon/randomProvider.py` and `config.py` are not part of this model. The random provider becomes roll parameters, and the display configuration is a parameter `roomData`.
- `view/dungeonView.py`:
  - `movePlayer`, `leaveDungeon`, `on_timeout` and the embed builder are not modelled; they only display state and call the modelled dungeon.
  - Its `currentRoom` is the map string, so the lookups at line 162 fail as written. The model uses the room at the player's position.
  - The Interact button does not await `interactWithRoom`. The model runs the handler.
  - The `hasattr` test for the combat system becomes the `inCombat` parameter. As written, `handleCombatRoom` (line 216) calls `isInCombat`, which is no member of `combatSystem`. When the bot has a combat system the call raises, and otherwise the test is false, so `AlreadyFighting` is never reported. The model follows the evident intent: a session is open for the user.
  - `handlePuzzleRoom` (line 289) annotates its argument with `discord.Interactions`, a name that does not exist, so the module cannot be loaded as written. The model follows the evident intent, `discord.Interaction`.
- `view/shopView.py`:
  - `updateButtons` looks up buttons by a `customID` keyword that matches nothing, so it never disables a button. It is not modelled.
  - `interaction_check` (line 131) reads `self.user`, which the view lacks, so every press raises before its callback runs. The model follows the evident intent and runs the button callbacks, which the source as written never reaches.
  - The class header subclasses `discord.ui.modal` and `buyItem` constructs `buyItemModal`. Both are wrong spellings of existing names; the model follows the evident intent.
- `Shop.ShopView.constructor`: the `page` argument of the source defaults to 1 and is kept as a parameter, but no caller passes another value.
- `Shop.Lower`: case folding covers ASCII letters only. Python's `str.lower` also folds other alphabets.
- `cogs/shop.py` line 29 builds its embed with `discord.Embed(name=...)`, a keyword the constructor rejects. The model follows the evident intent, a titled embed.
- `cogs/shop.py` line 16 reads `self.shopitem` while line 9 sets `self.shopItem`. The model reads the catalogue that line 9 stores.
- `cogs/shop.py`'s wait for reactions and its 60-second timeout become the `reactions` parameter: the arrows the author pressed before a minute of silence. Reactions by other users or with other emoji are filtered out in the source and do not appear in it.

## Findings

| source | as written | input that shows it | evidently intended | confidence | as-written member | corrected member |
|---|---|---|---|---|---|---|
| SwordSong/database.py:276-292 | the SELECT names `lastFightTimestamp`, but the schema (line 82) spells the column `lastFightTimestap`, so the query raises and `getFightStats` answers None | any user, any table | return the stored row, so the boss counter is read back | not executed | Store.GetFightStatsAsWritten | Store.GetFightStatsCorrected |
| SwordSong/database.py:193 | the new-row INSERT binds (quantity, userID, itemName) to the columns (userID, itemName, quantity) | user "42" adds 1 "Health Potion": the row is ("1", "42", "Health Potion") | insert (userID, itemName, quantity) | not executed | Store.AddItemRowAsWritten | Store.CharacterStore.AddItem |
| SwordSong/services/combadsys.py:165 | the heal branch tests the name "Heal Pulse", which the catalog lacks | skill "Healing Pulse" deals damage at multiplier 1.0 instead of healing | test "Healing Pulse", the catalog's healing skill | not executed | Combat.HealingPulseAsWritten | Combat.BranchFollowsCatalog |
| SwordSong/services/dungeon/miniTest.py:57 | `if not target in self.rooms` refuses every target that holds a room | any open passage of a generated dungeon: the player stays | move when the target holds a room | not executed | MiniDungeons.MiniDungeon.MovePlayerAsWritten | MiniDungeons.MiniDungeon.MovePlayer |
| SwordSong/view/combatView.py:218 | the loot line reads `item['quanity']`, while reward items carry `quantity` (services/combadsys.py:321), so the handler raises after paying and before `endCombat` and `stop` | any victory in which a loot entry drops: the session stays open on the player's turn with the monster at or below zero health, and the next Attack pays the rewards again | read `item['quantity']`, so the fight ends after one payment | not executed | CombatScreen.CombatView.HandleVictoryAsWritten, CombatScreen.DefeatedMonsterFallsAgain | CombatScreen.CombatView.HandleVictory |
| SwordSong/view/shopView.py:118 | the price is read with `item.get('butPrice', 0)` | an item priced 25 coins is listed at 0 coins | read `buyPrice` | not executed | Shop.ListedPriceAsWritten | Shop.ShopView.CreateEmbed |

=== FILE: basics.dfy ===
/** Shared building blocks: an optional value, Python's integer truncation of
    a real, and the random draws of the game expressed as oracle values. */
module Basics {

  datatype Option<+T> = None | Some(value: T) {
    function GetOr(default: T): T {
      match this
      case Some(v) => v
      case None => default
    }
  }

  function Max(a: int, b: int): int { if a < b then b else a }

  function Min(a: int, b: int): int { if a < b then a else b }

  /** Python's `int(x)` on a float: the integer part, truncated toward zero. */
  function Trunc(x: real): (r: int)
    ensures 0.0 <= x ==> r as real <= x < r as real + 1.0
    ensures x < 0.0 ==> r as real - 1.0 < x <= r as real
  {
    if x >= 0.0 then x.Floor else -((-x).Floor)
  }

  /** `random.randint(lo, hi)`: the oracle supplies any natural number and the
      draw reduces it into the inclusive range, so every value is reachable. */
  function Draw(lo: int, hi: int, roll: nat): (r: int)
    requires lo <= hi
    ensures lo <= r <= hi
  {
    lo + roll % (hi - lo + 1)
  }

  lemma DrawReaches(lo: int, hi: int, v: int)
    requires lo <= v <= hi
    ensures Draw(lo, hi, v - lo) == v
  {
  }

  /** `random.choice(s)`: an element of `s` picked by the oracle. */
  function Choose<T>(s: seq<T>, roll: nat): (r: T)
    requires |s| > 0
    ensures r in s
  {
    s[roll % |s|]
  }
}

=== FILE: combat.dfy ===
/** The combat engine of SwordSong/services/combadsys.py: monster spawning
    with rarity weights and a forced boss, the per-user session registry, the
    damage formula, player and monster turns, rewards and level-up. Turn
    resolution is given twice: as pure step functions over a session and a
    character row, and as the methods of CombatSystem that apply a step to the
    registry and the store. */
module Combat {
  import opened Basics
  import opened Store

  // ---------------------------------------------------------------------
  // Monster data

  datatype Rarity = Common | Uncommon | Rare | Legendary | Boss

  /** `rarityWeight`: the number of copies of a template in the spawn pool.
      The table has no entry for bosses, which never enter the pool. */
  function RarityWeight(r: Rarity): (w: nat)
    requires r != Boss
    ensures w > 0
  {
    match r
    case Common => 60
    case Uncommon => 25
    case Rare => 12
    case Legendary => 3
  }

  /** A loot quantity is a number or a [min, max] list drawn with randint. */
  datatype LootQuantity = Exactly(n: int) | Between(lo: int, hi: int)

  datatype LootEntry = LootEntry(item: ItemName, chance: int, quantity: LootQuantity)

  /** A monster of the area data; an absent loot table is the empty one. */
  datatype MonsterTemplate = MonsterTemplate(
    name: string, description: string,
    health: int, attack: int, defense: int,
    rarity: Rarity, xpReward: int, lootTable: seq<LootEntry>)

  /** Data on which the reward draws are defined: randint raises on an empty
      range, so the xp reward is not negative and every quantity range is
      ordered. */
  predicate RewardDrawable(t: MonsterTemplate)
  {
    t.xpReward >= 0 && LootRanges(t.lootTable)
  }

  /** A copy of a template with its health tracked. */
  datatype Monster = Monster(template: MonsterTemplate, currentHealth: int, maxHealth: int)

  function CreateMonsterInstance(t: MonsterTemplate): (m: Monster)
    ensures m.template == t
    ensures m.currentHealth == m.maxHealth == t.health
  {
    Monster(t, t.health, t.health)
  }

  // ---------------------------------------------------------------------
  // The skill catalog (`defaultSkills`)

  datatype Skill = Skill(
    damageMultiplier: Option<real>, healPercent: Option<real>, defenseBoost: Option<real>,
    duration: Option<int>, cooldown: int, manaCost: real, description: string)

  const HealName: SkillName := "Healing Pulse"
  const StanceName: SkillName := "Defensive Stance"

  /** The catalog's names in their dictionary order. */
  const SkillNames: seq<SkillName> := ["Power Strike", "Fire Ball", HealName, StanceName]

  const DefaultSkills: map<SkillName, Skill> := map[
    "Power Strike" := Skill(Some(1.5), None, None, None, 3, 10.0, "A powerful strike that deals 150% damage"),
    "Fire Ball" := Skill(Some(2.0), None, None, None, 4, 20.0, "A magical ball of fire dealing 2x damage"),
    HealName := Skill(None, Some(0.4), None, None, 4, 1.5, "A magical pulse that heals 30% of your maximum health"),
    StanceName := Skill(Some(0.5), None, Some(2.0), Some(3), 5, 20.0,
                        "Take 50% for 3 turns but at a cost of dealing less damage")
  ]

  /** The catalog entry of a requested skill; no name, an empty name and an
      unknown name all mean a plain attack. */
  function SkillFor(skillName: Option<SkillName>): Option<Skill>
  {
    if skillName.Some? && skillName.value in DefaultSkills then Some(DefaultSkills[skillName.value]) else None
  }

  // ---------------------------------------------------------------------
  // Damage

  /** The damage before truncation: attack times the multiplier, less half
      the defender's defense, scaled by the variance factor (the source draws
      it from uniform(0.8, 1.2)). */
  function RawDamage(attack: int, defense: int, multiplier: real, variance: real): real
  {
    (attack as real * multiplier - defense as real * 0.5) * variance
  }

  /** `calculateDamage`: the whole part of the raw damage, but never below 1. */
  function CalculateDamage(attack: int, defense: int, multiplier: real, variance: real): (r: int)
    ensures r >= 1
    ensures var x := RawDamage(attack, defense, multiplier, variance);
      (x >= 1.0 ==> r as real <= x < r as real + 1.0) && (x < 1.0 ==> r == 1)
  {
    Max(1, Trunc(RawDamage(attack, defense, multiplier, variance)))
  }

  /** Because of the floor of 1, truncation and rounding down agree here. */
  lemma TruncationAgreesWithFloor(x: real)
    ensures Max(1, Trunc(x)) == Max(1, x.Floor)
  {
  }

  /** The multiplier of a skill, 1.0 for a plain attack or a skill without one. */
  function DamageMultiplier(skill: Option<Skill>): real
  {
    if skill.Some? && skill.value.damageMultiplier.Some? then skill.value.damageMultiplier.value else 1.0
  }

  /** `int(damage * 0.5)` under a defensive stance: half, rounded down. */
  lemma HalvedDamage(d: int)
    requires d >= 0
    ensures Trunc(d as real * 0.5) == d / 2
  {
    var q := d / 2;
    assert d as real * 0.5 == q as real + (d % 2) as real * 0.5;
  }

  // ---------------------------------------------------------------------
  // Spawning

  /** `[monster] * weight`. */
  function Repeat<T>(x: T, n: nat): (r: seq<T>)
    ensures |r| == n
    ensures forall i | 0 <= i < n :: r[i] == x
  {
    if n == 0 then [] else Repeat(x, n - 1) + [x]
  }

  lemma {:induction false} RepeatCount<T>(x: T, n: nat, y: T)
    ensures multiset(Repeat(x, n))[y] == if y == x then n else 0
  {
    if n > 0 {
      RepeatCount(x, n - 1, y);
      assert Repeat(x, n) == Repeat(x, n - 1) + [x];
    }
  }

  /** What one template adds to the pool. */
  function PoolShare(t: MonsterTemplate): seq<MonsterTemplate>
  {
    if t.rarity == Boss then [] else Repeat(t, RarityWeight(t.rarity))
  }

  /** The spawn pool of an area, extended template by template. */
  function WeightedPool(ts: seq<MonsterTemplate>): seq<MonsterTemplate>
  {
    if ts == [] then [] else WeightedPool(ts[..|ts| - 1]) + PoolShare(ts[|ts| - 1])
  }

  /** Every non-boss template is in the pool exactly its rarity weight times
      for each time it is listed; a boss is never in it. */
  lemma {:induction false} PoolCounts(ts: seq<MonsterTemplate>, t: MonsterTemplate)
    ensures multiset(WeightedPool(ts))[t] == if t.rarity == Boss then 0 else multiset(ts)[t] * RarityWeight(t.rarity)
  {
    if ts == [] {
      assert WeightedPool(ts) == [];
    } else {
      var init := ts[..|ts| - 1];
      PoolCounts(init, t);
      PoolStep(ts, t);
      if t.rarity != Boss {
        var c, w := multiset(init)[t], RarityWeight(t.rarity);
        ScaleStep(c, w);
        if ts[|ts| - 1] == t {
          assert multiset(ts)[t] == c + 1;
          assert multiset(WeightedPool(ts))[t] == c * w + w;
        } else {
          assert multiset(ts)[t] == c;
          assert multiset(WeightedPool(ts))[t] == c * w;
        }
      }
    }
  }

  /** What the last template of the list adds, to the list's and to the
      pool's count of `t`. */
  lemma PoolStep(ts: seq<MonsterTemplate>, t: MonsterTemplate)
    requires ts != []
    ensures var init, last := ts[..|ts| - 1], ts[|ts| - 1];
      multiset(ts)[t] == multiset(init)[t] + (if t == last then 1 else 0) &&
      multiset(WeightedPool(ts))[t] ==
        multiset(WeightedPool(init))[t] + (if t == last && t.rarity != Boss then RarityWeight(t.rarity) else 0)
  {
    var init, last := ts[..|ts| - 1], ts[|ts| - 1];
    assert ts == init + [last];
    assert WeightedPool(ts) == WeightedPool(init) + PoolShare(last);
    if last.rarity != Boss {
      RepeatCount(last, RarityWeight(last.rarity), t);
    }
  }

  lemma ScaleStep(c: nat, w: nat)
    ensures (c + 1) * w == c * w + w
    ensures w > 0 ==> (c * w > 0 <==> c > 0)
  {
    if c > 0 && w > 0 {
      assert c * w >= w;
    }
  }

  /** The pool holds exactly the area's non-boss templates, so it is empty
      exactly when the area has nothing but bosses. */
  lemma PoolMembers(ts: seq<MonsterTemplate>)
    ensures forall t :: t in WeightedPool(ts) <==> t in ts && t.rarity != Boss
    ensures WeightedPool(ts) == [] <==> forall t | t in ts :: t.rarity == Boss
  {
    forall t
      ensures t in WeightedPool(ts) <==> t in ts && t.rarity != Boss
    {
      PoolCounts(ts, t);
      if t.rarity != Boss {
        ScaleStep(multiset(ts)[t], RarityWeight(t.rarity));
      }
    }
    if WeightedPool(ts) != [] {
      assert WeightedPool(ts)[0] in WeightedPool(ts);
    }
  }

  /** The pool built with a loop, as `spawnMonster` does. */
  method BuildPool(monsters: seq<MonsterTemplate>) returns (pool: seq<MonsterTemplate>)
    ensures pool == WeightedPool(monsters)
  {
    pool := [];
    var i := 0;
    while i < |monsters|
      invariant 0 <= i <= |monsters|
      invariant pool == WeightedPool(monsters[..i])
    {
      var monster := monsters[i];
      if monster.rarity != Boss {
        var weight := RarityWeight(monster.rarity);
        pool := pool + Repeat(monster, weight);
      }
      assert monsters[..i + 1][..i] == monsters[..i];
      i := i + 1;
    }
    assert monsters[..|monsters|] == monsters;
  }

  /** The boss templates of an area, in order. */
  function Bosses(ts: seq<MonsterTemplate>): (r: seq<MonsterTemplate>)
    ensures forall t | t in r :: t in ts && t.rarity == Boss
    ensures forall t | t in ts && t.rarity == Boss :: t in r
  {
    if ts == [] then []
    else (if ts[0].rarity == Boss then [ts[0]] else []) + Bosses(ts[1..])
  }

  /** `spawnMonster` either finds a monster or returns None; the KeyError of
      an unknown area is UnknownArea. */
  datatype SpawnResult = Spawned(monster: Monster) | NoMonsters | UnknownArea

  /** A boss is due after more than 14 fights since the last one, provided
      the area has a boss. */
  predicate BossDue(stats: FightStats, monsters: seq<MonsterTemplate>)
  {
    stats.fightsSinceBoss > 14 && Bosses(monsters) != []
  }

  /** The monster `spawnMonster` picks in a known area. */
  function SpawnFrom(stats: FightStats, monsters: seq<MonsterTemplate>, bossRoll: nat, pick: nat): (r: SpawnResult)
    ensures r != UnknownArea
    ensures r.Spawned? ==> r.monster == CreateMonsterInstance(r.monster.template) && r.monster.template in monsters
    ensures r.Spawned? ==> (r.monster.template.rarity == Boss <==> BossDue(stats, monsters))
    ensures r == NoMonsters <==> !BossDue(stats, monsters) && forall t | t in monsters :: t.rarity == Boss
  {
    PoolMembers(monsters);
    if BossDue(stats, monsters) then Spawned(CreateMonsterInstance(Choose(Bosses(monsters), bossRoll)))
    else if WeightedPool(monsters) == [] then NoMonsters
    else Spawned(CreateMonsterInstance(Choose(WeightedPool(monsters), pick)))
  }

  /** The statistics after a spawn in a known area: a boss resets the count,
      a regular monster adds one fight to both counters, no monster changes
      nothing. */
  function StatsAfterSpawn(stats: FightStats, monsters: seq<MonsterTemplate>): FightStats
  {
    if BossDue(stats, monsters) then stats.(fightsSinceBoss := 0)
    else if WeightedPool(monsters) == [] then stats
    else stats.(totalFights := stats.totalFights + 1, fightsSinceBoss := stats.fightsSinceBoss + 1)
  }

  function StatsAfterSpawns(stats: FightStats, monsters: seq<MonsterTemplate>, n: nat): FightStats
  {
    if n == 0 then stats else StatsAfterSpawn(StatsAfterSpawns(stats, monsters, n - 1), monsters)
  }

  /** In an area with a boss and a regular monster, a new player meets 15
      regular monsters, counted in both counters, and then a boss, which
      starts the count again. */
  lemma {:induction false} BossAfterFifteenFights(monsters: seq<MonsterTemplate>, boss: MonsterTemplate,
                                                  regular: MonsterTemplate, n: nat)
    requires boss in monsters && boss.rarity == Boss
    requires regular in monsters && regular.rarity != Boss
    requires n <= 15
    ensures StatsAfterSpawns(DefaultFightStats, monsters, n) == FightStats(n, n, 0)
    ensures n < 15 ==> !BossDue(StatsAfterSpawns(DefaultFightStats, monsters, n), monsters)
    ensures n == 15 ==> BossDue(StatsAfterSpawns(DefaultFightStats, monsters, n), monsters)
    ensures n == 15 ==> StatsAfterSpawns(DefaultFightStats, monsters, n + 1) == FightStats(15, 0, 0)
  {
    PoolMembers(monsters);
    assert regular in WeightedPool(monsters);
    if n > 0 {
      BossAfterFifteenFights(monsters, boss, regular, n - 1);
    }
  }

  // ---------------------------------------------------------------------
  // Sessions

  datatype Turn = PlayerTurn | MonsterTurn

  datatype Session = Session(
    userID: UserId, monster: Monster, turn: Turn, turnCount: int,
    playerEffects: map<string, int>, monsterEffects: map<string, int>)

  const StanceEffect := "defensiveStance"

  // ---------------------------------------------------------------------
  // The player's action

  datatype Action = AttackAction | HealAction | StanceAction

  /** The effect branch `processPlayerAttack` takes for a skill name. */
  datatype Branch = HealBranch | StanceBranch | AttackBranch

  /** The heal test as written at line 165 compares with "Heal Pulse", a name
      the catalog lacks: "Healing Pulse" falls through to the attack branch,
      and "Heal Pulse" reads the heal percent of a missing skill and raises
      (None here). */
  function BranchAsWritten(skillName: Option<SkillName>): Option<Branch>
  {
    if skillName == Some("Heal Pulse") then
      (if SkillFor(skillName).Some? then Some(HealBranch) else None)
    else if skillName == Some(StanceName) then Some(StanceBranch)
    else Some(AttackBranch)
  }

  /** The heal test as intended: the catalog's healing skill. */
  function SkillBranch(skillName: Option<SkillName>): Branch
  {
    if skillName == Some(HealName) then HealBranch
    else if skillName == Some(StanceName) then StanceBranch
    else AttackBranch
  }

  lemma HealingPulseAsWritten()
    ensures BranchAsWritten(Some(HealName)) == Some(AttackBranch)
    ensures DamageMultiplier(SkillFor(Some(HealName))) == 1.0
    ensures BranchAsWritten(Some("Heal Pulse")) == None
  {
  }

  /** The corrected branch heals exactly for the catalog skill that has a heal
      percent, and takes the stance exactly for the one with a duration. */
  lemma BranchFollowsCatalog(skillName: Option<SkillName>)
    ensures SkillBranch(skillName) == HealBranch <==> SkillFor(skillName).Some? && SkillFor(skillName).value.healPercent.Some?
    ensures SkillBranch(skillName) == StanceBranch <==> SkillFor(skillName).Some? && SkillFor(skillName).value.duration.Some?
  {
    if skillName.Some? && skillName.value in DefaultSkills {
      var n := skillName.value;
      assert n == "Power Strike" || n == "Fire Ball" || n == HealName || n == StanceName;
    }
  }

  datatype AttackError =
    | NoActiveCombat
    | CharacterNotFound
    | SkillOnCooldown(skill: SkillName, turnsLeft: int)
    | NotEnoughMana

  datatype AttackResult =
    | AttackFailed(error: AttackError)
    | Acted(action: Action, damage: int, healAmount: int, monsterDefeated: bool)

  /** A resolved player action: the result and the new session, character row
      and cooldown table. */
  datatype PlayerStep = PlayerStep(result: AttackResult, session: Session, character: Character, cooldowns: Cooldowns)

  /** The effect of a player action once its skill checks pass: the action,
      the damage dealt, the health healed, and the new session and character. */
  datatype Effect = Effect(action: Action, damage: int, healAmount: int, session: Session, character: Character)

  function PlayerEffect(s: Session, c: Character, skillName: Option<SkillName>, variance: real): Effect
  {
    BranchFollowsCatalog(skillName);
    var skill := SkillFor(skillName);
    match SkillBranch(skillName)
    case HealBranch =>
      var heal := Trunc(c.maxHealth as real * skill.value.healPercent.value);
      Effect(HealAction, 0, heal, s, c.(health := Min(c.maxHealth, c.health + heal)))
    case StanceBranch =>
      Effect(StanceAction, 0, 0, s.(playerEffects := s.playerEffects[StanceEffect := skill.value.duration.value]), c)
    case AttackBranch =>
      var damage := CalculateDamage(c.attack, s.monster.template.defense, DamageMultiplier(skill), variance);
      Effect(AttackAction, damage, 0, s.(monster := s.monster.(currentHealth := s.monster.currentHealth - damage)), c)
  }

  /** After a player action the monster moves, unless it was defeated. */
  function Handover(s: Session): Session
  {
    if s.monster.currentHealth <= 0 then s else s.(turn := MonsterTurn)
  }

  /** `processPlayerAttack` for user `u` once the session and the character
      are found. */
  function ResolvePlayerAction(u: UserId, s: Session, c: Character, cooldowns: Cooldowns,
                               skillName: Option<SkillName>, variance: real): PlayerStep
  {
    var skill := SkillFor(skillName);
    if skill.Some? && CooldownOf(cooldowns, u, skillName.value) > 0 then
      PlayerStep(AttackFailed(SkillOnCooldown(skillName.value, CooldownOf(cooldowns, u, skillName.value))), s, c, cooldowns)
    else if skill.Some? && c.mana < skill.value.manaCost then
      PlayerStep(AttackFailed(NotEnoughMana), s, c, cooldowns)
    else
      var paid := if skill.Some? then c.(mana := c.mana - skill.value.manaCost) else c;
      var started := if skill.Some? then cooldowns[(u, skillName.value) := skill.value.cooldown] else cooldowns;
      var e := PlayerEffect(s, paid, skillName, variance);
      PlayerStep(Acted(e.action, e.damage, e.healAmount, e.session.monster.currentHealth <= 0),
                 Handover(e.session), e.character, started)
  }

  /** What a player action does: the checks in order, the cost, the effect of
      each branch, and the turn handover. */
  lemma PlayerActionOutcome(u: UserId, s: Session, c: Character, cooldowns: Cooldowns,
                             skillName: Option<SkillName>, variance: real)
    ensures var st := ResolvePlayerAction(u, s, c, cooldowns, skillName, variance);
      st.result.AttackFailed? <==>
        SkillFor(skillName).Some? &&
        (CooldownOf(cooldowns, u, skillName.value) > 0 || c.mana < SkillFor(skillName).value.manaCost)
    ensures var st := ResolvePlayerAction(u, s, c, cooldowns, skillName, variance);
      SkillFor(skillName).Some? && CooldownOf(cooldowns, u, skillName.value) > 0 ==>
        st.result == AttackFailed(SkillOnCooldown(skillName.value, CooldownOf(cooldowns, u, skillName.value)))
    ensures var st := ResolvePlayerAction(u, s, c, cooldowns, skillName, variance);
      st.result.AttackFailed? ==> st.session == s && st.character == c && st.cooldowns == cooldowns
    // a usable skill costs exactly its mana and starts its cooldown; a plain attack costs nothing
    ensures var st := ResolvePlayerAction(u, s, c, cooldowns, skillName, variance);
      st.result.Acted? && SkillFor(skillName).Some? ==>
        st.character.mana == c.mana - SkillFor(skillName).value.manaCost &&
        st.cooldowns == cooldowns[(u, skillName.value) := SkillFor(skillName).value.cooldown]
    ensures var st := ResolvePlayerAction(u, s, c, cooldowns, skillName, variance);
      st.result.Acted? && SkillFor(skillName).None? ==> st.character.mana == c.mana && st.cooldowns == cooldowns
    // the action taken
    ensures var st := ResolvePlayerAction(u, s, c, cooldowns, skillName, variance);
      st.result.Acted? ==>
        (st.result.action == HealAction <==> skillName == Some(HealName)) &&
        (st.result.action == StanceAction <==> skillName == Some(StanceName))
    ensures var st := ResolvePlayerAction(u, s, c, cooldowns, skillName, variance);
      st.result.Acted? && st.result.action == StanceAction ==>
        st.result.damage == 0 && st.session.monster == s.monster &&
        st.session.playerEffects == s.playerEffects[StanceEffect := 3]
    ensures var st := ResolvePlayerAction(u, s, c, cooldowns, skillName, variance);
      st.result.Acted? && st.result.action == AttackAction ==>
        st.result.damage >= 1 && st.character.health == c.health &&
        st.session.monster.currentHealth == s.monster.currentHealth - st.result.damage &&
        st.session.playerEffects == s.playerEffects
    ensures var st := ResolvePlayerAction(u, s, c, cooldowns, skillName, variance);
      st.result.Acted? && st.result.action == HealAction ==>
        st.result.damage == 0 && st.session.monster == s.monster &&
        st.result.healAmount == Trunc(c.maxHealth as real * 0.4) &&
        st.character.health == Min(c.maxHealth, c.health + st.result.healAmount)
    // victory leaves the turn alone; otherwise the monster moves next
    ensures var st := ResolvePlayerAction(u, s, c, cooldowns, skillName, variance);
      st.result.Acted? ==> (st.result.monsterDefeated <==> st.session.monster.currentHealth <= 0)
    ensures var st := ResolvePlayerAction(u, s, c, cooldowns, skillName, variance);
      st.result.Acted? ==> st.session.turn == if st.result.monsterDefeated then s.turn else MonsterTurn
    // nothing else changes
    ensures var st := ResolvePlayerAction(u, s, c, cooldowns, skillName, variance);
      st.session.userID == s.userID && st.session.turnCount == s.turnCount
    ensures var st := ResolvePlayerAction(u, s, c, cooldowns, skillName, variance);
      st.session.monsterEffects == s.monsterEffects && st.session.monster.template == s.monster.template
    ensures var st := ResolvePlayerAction(u, s, c, cooldowns, skillName, variance);
      st.session.monster.maxHealth == s.monster.maxHealth
    ensures var st := ResolvePlayerAction(u, s, c, cooldowns, skillName, variance);
      st.character.(mana := c.mana, health := c.health) == c
  {
  }

  /** A plain attack has no skill to check: it always acts. */
  lemma PlainAttackNeverRefused(u: UserId, s: Session, c: Character, cooldowns: Cooldowns, variance: real)
    ensures ResolvePlayerAction(u, s, c, cooldowns, None, variance).result.Acted?
  {
  }

  // ---------------------------------------------------------------------
  // The monster's turn

  /** A resolved monster turn: the damage dealt, the player's new health,
      whether the player fell, and the new session, character and cooldowns. */
  datatype MonsterStep = MonsterStep(
    damage: int, playerHealth: int, playerDefeated: bool,
    session: Session, character: Character, cooldowns: Cooldowns)

  /** The effects after a monster turn: an active stance loses one turn and
      is removed once it reaches zero. */
  function StanceAfterTurn(effects: map<string, int>): map<string, int>
  {
    if StanceEffect !in effects then effects
    else if effects[StanceEffect] - 1 <= 0 then effects - {StanceEffect}
    else effects[StanceEffect := effects[StanceEffect] - 1]
  }

  /** The monster's damage before any stance. */
  function MonsterDamage(s: Session, c: Character, variance: real): int
  {
    CalculateDamage(s.monster.template.attack, c.defense, 1.0, variance)
  }

  /** `processMonsterTurn` for user `u` once the session and the character
      are found. */
  function ResolveMonsterTurn(u: UserId, s: Session, c: Character, cooldowns: Cooldowns, variance: real): MonsterStep
  {
    var stance := StanceEffect in s.playerEffects;
    var reduction := if stance then 0.5 else 1.0;
    var raw := MonsterDamage(s, c, variance);
    var damage := Trunc(raw as real * reduction);
    var newHealth := c.health - damage;
    var s1 := s.(playerEffects := StanceAfterTurn(s.playerEffects));
    if newHealth <= 0 then
      MonsterStep(damage, newHealth, true, s1, c.(health := newHealth), cooldowns)
    else
      MonsterStep(damage, newHealth, false, s1.(turnCount := s1.turnCount + 1, turn := PlayerTurn),
                  c.(health := newHealth), TickCooldowns(cooldowns, u))
  }

  /** What a monster turn does: the stance halving and countdown, the damage,
      defeat, and the handover with the cooldown tick. */
  lemma MonsterTurnOutcome(u: UserId, s: Session, c: Character, cooldowns: Cooldowns, variance: real)
    ensures var st := ResolveMonsterTurn(u, s, c, cooldowns, variance);
      StanceEffect in s.playerEffects ==> st.damage == MonsterDamage(s, c, variance) / 2
    ensures var st := ResolveMonsterTurn(u, s, c, cooldowns, variance);
      StanceEffect !in s.playerEffects ==> st.damage == MonsterDamage(s, c, variance) >= 1
    ensures var st := ResolveMonsterTurn(u, s, c, cooldowns, variance);
      st.session.playerEffects == StanceAfterTurn(s.playerEffects)
    ensures var st := ResolveMonsterTurn(u, s, c, cooldowns, variance);
      st.playerHealth == c.health - st.damage
    ensures var st := ResolveMonsterTurn(u, s, c, cooldowns, variance);
      st.character == c.(health := st.playerHealth)
    ensures var st := ResolveMonsterTurn(u, s, c, cooldowns, variance);
      st.playerDefeated <==> st.playerHealth <= 0
    // a defeat changes nothing else; otherwise the player moves next and cooldowns tick
    ensures var st := ResolveMonsterTurn(u, s, c, cooldowns, variance);
      st.playerDefeated ==>
        st.session.turn == s.turn && st.session.turnCount == s.turnCount && st.cooldowns == cooldowns
    ensures var st := ResolveMonsterTurn(u, s, c, cooldowns, variance);
      !st.playerDefeated ==>
        st.session.turn == PlayerTurn && st.session.turnCount == s.turnCount + 1 &&
        st.cooldowns == TickCooldowns(cooldowns, u)
    ensures var st := ResolveMonsterTurn(u, s, c, cooldowns, variance);
      st.session.monster == s.monster && st.session.userID == s.userID
    ensures var st := ResolveMonsterTurn(u, s, c, cooldowns, variance);
      st.session.monsterEffects == s.monsterEffects
  {
    HalvedDamage(MonsterDamage(s, c, variance));
  }

  /** A stance taken before the monster's turn halves the blow of each of
      the next three monster turns and is gone after the third. */
  lemma StanceLastsThreeTurns(effects: map<string, int>)
    ensures StanceEffect in StanceAfterTurn(effects[StanceEffect := 3])
    ensures StanceEffect in StanceAfterTurn(StanceAfterTurn(effects[StanceEffect := 3]))
    ensures StanceEffect !in StanceAfterTurn(StanceAfterTurn(StanceAfterTurn(effects[StanceEffect := 3])))
  {
  }

  // ---------------------------------------------------------------------
  // Rewards

  /** The `updates` of `distributeRewards`: new xp and coins, and when the
      threshold is reached exactly one level-up step. */
  function RewardPatch(c: Character, xp: int, coins: int): CharacterPatch
  {
    var newXP := c.xp + xp;
    var newCoins := c.coins + coins;
    if newXP >= c.xpToLevel then
      var newLevel := c.level + 1;
      var newMaxHealth := c.maxHealth + 20;
      var newMana := c.maxMana + 10;
      CharacterPatch(
        xp := Some(newXP - c.xpToLevel), coins := Some(newCoins), level := Some(newLevel),
        xpToLevel := Some(c.xpToLevel + newLevel * 50), maxHealth := Some(newMaxHealth),
        health := Some(newMaxHealth), attack := Some(c.attack + 4), defense := Some(c.defense + 2),
        maxMana := Some(newMana), mana := Some(newMana as real))
    else
      CharacterPatch(xp := Some(newXP), coins := Some(newCoins))
  }

  function Rewarded(c: Character, xp: int, coins: int): (r: Character)
    ensures r.coins == c.coins + coins
    ensures c.xp + xp < c.xpToLevel ==> r == c.(xp := c.xp + xp, coins := c.coins + coins)
    ensures c.xp + xp >= c.xpToLevel ==>
      r.level == c.level + 1 && r.xp == c.xp + xp - c.xpToLevel &&
      r.xpToLevel == c.xpToLevel + r.level * 50 &&
      r.maxHealth == c.maxHealth + 20 && r.health == r.maxHealth &&
      r.attack == c.attack + 4 && r.defense == c.defense + 2 &&
      r.maxMana == c.maxMana + 10 && r.mana == r.maxMana as real &&
      r.userID == c.userID && r.name == c.name && r.currentArea == c.currentArea
  {
    ApplyPatch(c, RewardPatch(c, xp, coins))
  }

  /** A sound character row: at least level 1, health and mana within their
      maxima, xp below the next threshold. */
  predicate Sound(c: Character)
  {
    c.level >= 1 && 0 <= c.health <= c.maxHealth && 0.0 <= c.mana <= c.maxMana as real &&
    0 <= c.xp < c.xpToLevel
  }

  /** Rewards keep level, health and mana sound, and when the reward is at
      most one level's worth the xp stays below the next threshold. */
  lemma RewardKeepsCharacterSound(c: Character, xp: int, coins: int)
    requires Sound(c) && 0 <= xp
    ensures var r := Rewarded(c, xp, coins);
      r.level >= 1 && 0 <= r.health <= r.maxHealth && 0.0 <= r.mana <= r.maxMana as real && r.xp >= 0
    ensures xp <= c.xpToLevel + (c.level + 1) * 50 ==> Sound(Rewarded(c, xp, coins))
  {
  }

  /** At most one level per victory, however much xp it brings: the level
      rises by one exactly when the threshold is reached, and the xp left
      over may still exceed the new threshold (a fresh character given 1000
      xp reaches level 2 only, with 900 xp against a threshold of 200). */
  lemma OneLevelPerReward(c: Character, xp: int, coins: int)
    ensures Rewarded(c, xp, coins).level == c.level + (if c.xp + xp >= c.xpToLevel then 1 else 0)
    ensures var r := Rewarded(NewCharacter("42", "Ayla"), 1000, 0);
      r.level == 2 && r.xp == 900 && r.xpToLevel == 200 && r.xp >= r.xpToLevel
  {
  }

  datatype LevelUp = LevelUp(newLevel: int, healthIncrease: int, attackIncrease: int, defenseIncrease: int, manaIncrease: int)

  datatype Rewards = Rewards(xp: int, coins: int, items: seq<(ItemName, int)>, levelUp: Option<LevelUp>)

  /** The rewards of beating a monster of template `t` with character `c`:
      the template's xp, coins drawn from [xp / 2, xp], the loot entries whose
      rolls fall within their chance, and a level-up exactly when the xp
      reaches the threshold. */
  function RewardsFor(c: Character, t: MonsterTemplate, coinRoll: nat,
                      chanceRoll: nat -> nat, quantityRoll: nat -> nat): (r: Rewards)
    requires RewardDrawable(t)
    ensures r.xp == t.xpReward && r.xp / 2 <= r.coins <= r.xp
    ensures r.levelUp.Some? <==> c.xp + r.xp >= c.xpToLevel
    ensures r.levelUp.Some? ==> r.levelUp.value.newLevel == c.level + 1 == Rewarded(c, r.xp, r.coins).level
  {
    var xp := t.xpReward;
    Rewards(xp, Draw(xp / 2, xp, coinRoll), LootDrops(t.lootTable, chanceRoll, quantityRoll, |t.lootTable|),
            if c.xp + xp >= c.xpToLevel then Some(LevelUp(c.level + 1, 20, 4, 2, 10)) else None)
  }

  /** Every quantity range of a loot table is ordered. */
  predicate LootRanges(table: seq<LootEntry>)
  {
    forall e | e in table :: e.quantity.Between? ==> e.quantity.lo <= e.quantity.hi
  }

  /** The quantity of a drop: the number itself, or a draw from the range. */
  function DropQuantity(q: LootQuantity, roll: nat): int
    requires q.Between? ==> q.lo <= q.hi
  {
    match q
    case Exactly(n) => n
    case Between(lo, hi) => Draw(lo, hi, roll)
  }

  /** The drops of the first `n` loot entries: an entry drops when its roll
      of 1 to 100 is at most its chance. */
  function LootDrops(table: seq<LootEntry>, chanceRoll: nat -> nat, quantityRoll: nat -> nat, n: nat): (r: seq<(ItemName, int)>)
    requires LootRanges(table) && n <= |table|
    ensures |r| <= n
  {
    if n == 0 then []
    else
      var e := table[n - 1];
      LootDrops(table, chanceRoll, quantityRoll, n - 1) +
      (if Draw(1, 100, chanceRoll(n - 1)) <= e.chance
       then [(e.item, DropQuantity(e.quantity, quantityRoll(n - 1)))] else [])
  }

  /** Every entry whose roll is within its chance drops, with its quantity. */
  lemma {:induction false} RolledEntryDrops(table: seq<LootEntry>, chanceRoll: nat -> nat, quantityRoll: nat -> nat, n: nat, i: nat)
    requires LootRanges(table) && i < n <= |table|
    requires Draw(1, 100, chanceRoll(i)) <= table[i].chance
    ensures (table[i].item, DropQuantity(table[i].quantity, quantityRoll(i))) in LootDrops(table, chanceRoll, quantityRoll, n)
  {
    if i < n - 1 {
      RolledEntryDrops(table, chanceRoll, quantityRoll, n - 1, i);
    }
  }

  /** Every drop comes from an entry whose roll is within its chance. */
  lemma {:induction false} DropOrigin(table: seq<LootEntry>, chanceRoll: nat -> nat, quantityRoll: nat -> nat, n: nat,
                                      d: (ItemName, int)) returns (i: nat)
    requires LootRanges(table) && n <= |table|
    requires d in LootDrops(table, chanceRoll, quantityRoll, n)
    ensures i < n && Draw(1, 100, chanceRoll(i)) <= table[i].chance
    ensures d == (table[i].item, DropQuantity(table[i].quantity, quantityRoll(i)))
  {
    if d in LootDrops(table, chanceRoll, quantityRoll, n - 1) {
      i := DropOrigin(table, chanceRoll, quantityRoll, n - 1, d);
    } else {
      i := n - 1;
    }
  }

  /** The inventory after `addItem` of each drop for a known character;
      `addItem` turns down non-positive quantities. */
  function GrantLoot(inv: Inventory, u: UserId, drops: seq<(ItemName, int)>): Inventory
  {
    if drops == [] then inv
    else
      var before := GrantLoot(inv, u, drops[..|drops| - 1]);
      var d := drops[|drops| - 1];
      if d.1 > 0 then AddStack(before, u, d.0, d.1) else before
  }

  /** The random draws one exchange of blows may use: the variance of the
      player's and of the monster's damage, the flee roll, and the reward
      draws (coins, then a chance and a quantity roll per loot entry). */
  datatype Dice = Dice(
    playerVariance: real, monsterVariance: real, fleeRoll: nat,
    coinRoll: nat, chanceRoll: nat -> nat, quantityRoll: nat -> nat)

  // ---------------------------------------------------------------------
  // The skill menu

  datatype SkillStatus = SkillStatus(name: SkillName, skill: Skill, cooldownRemaining: int, canUse: bool)

  // ---------------------------------------------------------------------
  // The engine

  datatype MonsterTurnError = NoCombatFound | CharacterMissing

  datatype MonsterTurnResult =
    | MonsterTurnFailed(error: MonsterTurnError)
    | MonsterAttacked(damage: int, playerHealth: int, playerDefeated: bool)

  /** The rewards of every monster of the game data can be drawn. */
  predicate AreasDrawable(areas: map<string, seq<MonsterTemplate>>)
  {
    forall a | a in areas :: forall t | t in areas[a] :: RewardDrawable(t)
  }

  /** Each session is filed under its own user, and its monster's rewards can
      be drawn. */
  predicate SessionsValid(sessions: map<UserId, Session>)
  {
    forall u | u in sessions :: sessions[u].userID == u && RewardDrawable(sessions[u].monster.template)
  }

  lemma SessionsValidUpdate(sessions: map<UserId, Session>, u: UserId, s: Session)
    requires SessionsValid(sessions) && s.userID == u && RewardDrawable(s.monster.template)
    ensures SessionsValid(sessions[u := s])
  {
  }

  class CombatSystem {
    const db: CharacterStore
    const areas: map<string, seq<MonsterTemplate>>
    var activeCombats: map<UserId, Session>
    /** How many monster turns and reward distributions have run. */
    ghost var monsterTurnsResolved: nat
    ghost var rewardsDistributed: nat

    ghost predicate Valid()
      reads this, db
    {
      db.Valid() && AreasDrawable(areas) && SessionsValid(activeCombats)
    }

    /** No session, store row or counter of the game has changed. */
    twostate predicate Untouched()
      reads this, db
    {
      activeCombats == old(activeCombats) &&
      db.characters == old(db.characters) && db.inventory == old(db.inventory) &&
      db.skillCooldowns == old(db.skillCooldowns) && db.fightStats == old(db.fightStats) &&
      monsterTurnsResolved == old(monsterTurnsResolved) && rewardsDistributed == old(rewardsDistributed)
    }

    constructor(db: CharacterStore, areas: map<string, seq<MonsterTemplate>>)
      requires db.Valid()
      requires AreasDrawable(areas)
      ensures Valid()
      ensures this.db == db && this.areas == areas && activeCombats == map[]
      ensures monsterTurnsResolved == 0 && rewardsDistributed == 0
    {
      this.db := db;
      this.areas := areas;
      activeCombats := map[];
      monsterTurnsResolved, rewardsDistributed := 0, 0;
    }

    /** Statistics are read (created when missing), a due boss overrides the
        draw, otherwise the weighted pool is drawn from. */
    method SpawnMonster(userID: UserId, area: string, bossRoll: nat, pick: nat) returns (r: SpawnResult)
      requires Valid()
      modifies db`fightStats
      ensures Valid()
      ensures var stats := StatsOrDefault(old(db.fightStats), userID);
        if area in areas then
          r == SpawnFrom(stats, areas[area], bossRoll, pick) &&
          db.fightStats == old(db.fightStats)[userID := StatsAfterSpawn(stats, areas[area])]
        else
          r == UnknownArea && db.fightStats == old(db.fightStats)[userID := stats]
    {
      var stats := ReadFightStats(userID);
      if area !in areas {
        return UnknownArea;
      }
      r := SpawnIn(userID, stats, areas[area], bossRoll, pick);
    }

    /** The draw in a known area, and the statistics it leaves behind. */
    method SpawnIn(userID: UserId, stats: FightStats, monsters: seq<MonsterTemplate>, bossRoll: nat, pick: nat)
      returns (r: SpawnResult)
      requires Valid() && userID in db.fightStats && db.fightStats[userID] == stats
      modifies db`fightStats
      ensures Valid()
      ensures r == SpawnFrom(stats, monsters, bossRoll, pick)
      ensures db.fightStats == old(db.fightStats)[userID := StatsAfterSpawn(stats, monsters)]
    {
      PoolMembers(monsters);
      if stats.fightsSinceBoss > 14 {
        var bosses := Bosses(monsters);
        if bosses != [] {
          var selected := Choose(bosses, bossRoll);
          var _ := db.UpdateFightStats(userID, FightStatsPatch(fightsSinceBoss := Some(0)));
          return Spawned(CreateMonsterInstance(selected));
        }
      }
      assert !BossDue(stats, monsters);
      var pool := BuildPool(monsters);
      if pool == [] {
        assert StatsAfterSpawn(stats, monsters) == stats;
        return NoMonsters;
      }
      assert SpawnFrom(stats, monsters, bossRoll, pick) == Spawned(CreateMonsterInstance(Choose(pool, pick)));
      var selected := Choose(pool, pick);
      var _ := db.UpdateFightStats(userID, FightStatsPatch(
        totalFights := Some(stats.totalFights + 1), fightsSinceBoss := Some(stats.fightsSinceBoss + 1)));
      return Spawned(CreateMonsterInstance(selected));
    }

    /** The statistics row of the user, created with zeros when missing. */
    method ReadFightStats(userID: UserId) returns (stats: FightStats)
      requires Valid()
      modifies db`fightStats
      ensures Valid()
      ensures stats == StatsOrDefault(old(db.fightStats), userID)
      ensures db.fightStats == old(db.fightStats)[userID := stats]
    {
      var found := db.GetFightStats(userID);
      if found.None? {
        var _ := db.InitializeFightStats(userID);
        stats := DefaultFightStats;
      } else {
        stats := found.value;
      }
    }

    /** Stores a fresh session for the user, replacing any session already
        there. */
    method StartCombat(userID: UserId, monster: Monster) returns (s: Session)
      requires Valid() && RewardDrawable(monster.template)
      modifies this`activeCombats
      ensures Valid()
      ensures s.userID == userID && s.monster == monster && s.turn == PlayerTurn && s.turnCount == 1
      ensures s.playerEffects == map[] && s.monsterEffects == map[]
      ensures activeCombats == old(activeCombats)[userID := s]
    {
      s := Session(userID, monster, PlayerTurn, 1, map[], map[]);
      activeCombats := activeCombats[userID := s];
    }

    function GetCombatState(userID: UserId): (r: Option<Session>)
      reads this
      ensures r == None <==> userID !in activeCombats
      ensures r.Some? ==> r.value == activeCombats[userID]
    {
      if userID in activeCombats then Some(activeCombats[userID]) else None
    }

    /** Removes the user's session; without one nothing happens. */
    method EndCombat(userID: UserId)
      requires Valid()
      modifies this`activeCombats
      ensures Valid()
      ensures activeCombats == old(activeCombats) - {userID}
      ensures userID !in old(activeCombats) ==> activeCombats == old(activeCombats)
    {
      if userID in activeCombats {
        activeCombats := activeCombats - {userID};
      }
    }

    /** No session, then no character, fail without change; otherwise the
        action is resolved as ResolvePlayerAction says and written back. */
    method ProcessPlayerAttack(userID: UserId, skillName: Option<SkillName>, variance: real) returns (r: AttackResult)
      requires Valid()
      modifies this`activeCombats, db`characters, db`skillCooldowns
      ensures Valid()
      ensures userID !in old(activeCombats) ==> r == AttackFailed(NoActiveCombat)
      ensures userID in old(activeCombats) && userID !in old(db.characters) ==> r == AttackFailed(CharacterNotFound)
      ensures userID !in old(activeCombats) || userID !in old(db.characters) ==>
        activeCombats == old(activeCombats) && db.characters == old(db.characters) &&
        db.skillCooldowns == old(db.skillCooldowns)
      ensures userID in old(activeCombats) && userID in old(db.characters) ==>
        var st := ResolvePlayerAction(userID, old(activeCombats[userID]), old(db.characters[userID]),
                                      old(db.skillCooldowns), skillName, variance);
        r == st.result && activeCombats == old(activeCombats)[userID := st.session] &&
        db.characters == old(db.characters)[userID := st.character] && db.skillCooldowns == st.cooldowns
    {
      if userID !in activeCombats {
        return AttackFailed(NoActiveCombat);
      }
      var found := db.GetCharacter(userID);
      if found.None? {
        return AttackFailed(CharacterNotFound);
      }
      var character := found.value;
      var session := activeCombats[userID];
      var skill := SkillFor(skillName);
      if skill.Some? {
        var name := skillName.value;
        if db.IsSkillOnCooldown(userID, name) {
          return AttackFailed(SkillOnCooldown(name, db.GetSkillCooldown(userID, name)));
        }
        if character.mana < skill.value.manaCost {
          return AttackFailed(NotEnoughMana);
        }
        var _ := db.UpdateCharacter(userID, CharacterPatch(mana := Some(character.mana - skill.value.manaCost)));
        var _ := db.SetSkillCooldown(userID, name, skill.value.cooldown);
      }
      r := ApplyPlayerEffect(userID, character, session, skillName, variance);
    }

    /** The effect half of `processPlayerAttack`, once any skill is paid for:
        heal, stance or attack on the character as read before the payment,
        then the handover to the monster unless it is defeated. */
    method ApplyPlayerEffect(userID: UserId, character: Character, session: Session,
                             skillName: Option<SkillName>, variance: real) returns (r: AttackResult)
      requires Valid()
      requires userID in db.characters && db.characters[userID].(mana := character.mana) == character
      requires session.userID == userID && RewardDrawable(session.monster.template)
      modifies this`activeCombats, db`characters
      ensures Valid()
      ensures var e := PlayerEffect(session, old(db.characters[userID]), skillName, variance);
        r == Acted(e.action, e.damage, e.healAmount, e.session.monster.currentHealth <= 0) &&
        activeCombats == old(activeCombats)[userID := Handover(e.session)] &&
        db.characters == old(db.characters)[userID := e.character]
    {
      var session := session;
      var skill := SkillFor(skillName);
      BranchFollowsCatalog(skillName);
      var action, damage, healAmount := AttackAction, 0, 0;
      match SkillBranch(skillName) {
        case HealBranch =>
          healAmount := Trunc(character.maxHealth as real * skill.value.healPercent.value);
          var newHealth := Min(character.maxHealth, character.health + healAmount);
          var _ := db.UpdateCharacter(userID, CharacterPatch(health := Some(newHealth)));
          action := HealAction;
        case StanceBranch =>
          session := session.(playerEffects := session.playerEffects[StanceEffect := skill.value.duration.value]);
          action := StanceAction;
        case AttackBranch =>
          damage := CalculateDamage(character.attack, session.monster.template.defense, DamageMultiplier(skill), variance);
          session := session.(monster := session.monster.(currentHealth := session.monster.currentHealth - damage));
      }
      var defeated := session.monster.currentHealth <= 0;
      if !defeated {
        session := session.(turn := MonsterTurn);
      }
      SessionsValidUpdate(activeCombats, userID, session);
      activeCombats := activeCombats[userID := session];
      r := Acted(action, damage, healAmount, defeated);
    }

    /** No session fails without change; a missing character raises (here:
        fails) before any change; otherwise the turn is resolved as
        ResolveMonsterTurn says and written back. */
    method ProcessMonsterTurn(userID: UserId, variance: real) returns (r: MonsterTurnResult)
      requires Valid()
      modifies this`activeCombats, this`monsterTurnsResolved, db`characters, db`skillCooldowns
      ensures Valid()
      ensures userID !in old(activeCombats) ==> r == MonsterTurnFailed(NoCombatFound)
      ensures userID in old(activeCombats) && userID !in old(db.characters) ==> r == MonsterTurnFailed(CharacterMissing)
      ensures r.MonsterTurnFailed? ==>
        activeCombats == old(activeCombats) && db.characters == old(db.characters) &&
        db.skillCooldowns == old(db.skillCooldowns) && monsterTurnsResolved == old(monsterTurnsResolved)
      ensures userID in old(activeCombats) && userID in old(db.characters) ==>
        var st := ResolveMonsterTurn(userID, old(activeCombats[userID]), old(db.characters[userID]),
                                     old(db.skillCooldowns), variance);
        r == MonsterAttacked(st.damage, st.playerHealth, st.playerDefeated) &&
        activeCombats == old(activeCombats)[userID := st.session] &&
        db.characters == old(db.characters)[userID := st.character] &&
        db.skillCooldowns == st.cooldowns && monsterTurnsResolved == old(monsterTurnsResolved) + 1
    {
      if userID !in activeCombats {
        return MonsterTurnFailed(NoCombatFound);
      }
      var found := db.GetCharacter(userID);
      if found.None? {
        return MonsterTurnFailed(CharacterMissing);
      }
      r := MonsterStrikes(userID, found.value, variance);
    }

    /** The monster turn once the session and the character are found. */
    method MonsterStrikes(userID: UserId, character: Character, variance: real) returns (r: MonsterTurnResult)
      requires Valid() && userID in activeCombats && userID in db.characters && db.characters[userID] == character
      modifies this`activeCombats, this`monsterTurnsResolved, db`characters, db`skillCooldowns
      ensures Valid()
      ensures var st := ResolveMonsterTurn(userID, old(activeCombats[userID]), character, old(db.skillCooldowns), variance);
        r == MonsterAttacked(st.damage, st.playerHealth, st.playerDefeated) &&
        activeCombats == old(activeCombats)[userID := st.session] &&
        db.characters == old(db.characters)[userID := st.character] &&
        db.skillCooldowns == st.cooldowns && monsterTurnsResolved == old(monsterTurnsResolved) + 1
    {
      var session := activeCombats[userID];
      ghost var st := ResolveMonsterTurn(userID, session, character, db.skillCooldowns, variance);
      var reduction := 1.0;
      if StanceEffect in session.playerEffects {
        reduction := 0.5;
        session := session.(playerEffects := StanceAfterTurn(session.playerEffects));
      }
      var damage := CalculateDamage(session.monster.template.attack, character.defense, 1.0, variance);
      damage := Trunc(damage as real * reduction);
      var newHealth := character.health - damage;
      assert damage == st.damage && newHealth == st.playerHealth;
      var _ := db.UpdateCharacter(userID, CharacterPatch(health := Some(newHealth)));
      monsterTurnsResolved := monsterTurnsResolved + 1;
      if newHealth <= 0 {
        assert session == st.session;
        activeCombats := activeCombats[userID := session];
        return MonsterAttacked(damage, newHealth, true);
      }
      session := session.(turnCount := session.turnCount + 1, turn := PlayerTurn);
      assert session == st.session;
      activeCombats := activeCombats[userID := session];
      var _ := db.UpdateSkillCooldown(userID);
      return MonsterAttacked(damage, newHealth, false);
    }

    /** xp is the monster's reward, coins a draw from [xpReward / 2, xpReward]
        (see `RewardsFor`),
        at most one level-up, and each loot entry whose roll is within its
        chance is added to the inventory. A missing character raises (None
        here) before any change. */
    method DistributeRewards(userID: UserId, monster: Monster, coinRoll: nat,
                             chanceRoll: nat -> nat, quantityRoll: nat -> nat) returns (r: Option<Rewards>)
      requires Valid()
      requires RewardDrawable(monster.template)
      modifies this`rewardsDistributed, db`characters, db`inventory
      ensures Valid()
      ensures userID !in old(db.characters) ==>
        r == None && db.characters == old(db.characters) && db.inventory == old(db.inventory) &&
        rewardsDistributed == old(rewardsDistributed)
      ensures userID in old(db.characters) ==>
        r == Some(RewardsFor(old(db.characters[userID]), monster.template, coinRoll, chanceRoll, quantityRoll))
      ensures userID in old(db.characters) ==>
        db.characters == old(db.characters)[userID := Rewarded(old(db.characters[userID]), r.value.xp, r.value.coins)]
      ensures userID in old(db.characters) ==>
        db.inventory == GrantLoot(old(db.inventory), userID, r.value.items)
      ensures userID in old(db.characters) ==> rewardsDistributed == old(rewardsDistributed) + 1
    {
      var found := db.GetCharacter(userID);
      if found.None? {
        return None;
      }
      var character := found.value;
      var xp := monster.template.xpReward;
      var coins := Draw(xp / 2, xp, coinRoll);
      var updates := RewardPatch(character, xp, coins);
      var levelUp: Option<LevelUp> := None;
      if character.xp + xp >= character.xpToLevel {
        levelUp := Some(LevelUp(character.level + 1, 20, 4, 2, 10));
      }
      var table := monster.template.lootTable;
      var items: seq<(ItemName, int)> := [];
      var i := 0;
      while i < |table|
        invariant 0 <= i <= |table|
        invariant items == LootDrops(table, chanceRoll, quantityRoll, i)
        invariant db.inventory == GrantLoot(old(db.inventory), userID, items)
        invariant db.characters == old(db.characters) && db.Valid()
        invariant rewardsDistributed == old(rewardsDistributed)
      {
        var entry := table[i];
        if Draw(1, 100, chanceRoll(i)) <= entry.chance {
          var quantity := DropQuantity(entry.quantity, quantityRoll(i));
          var _ := db.AddItem(userID, entry.item, quantity);
          assert (items + [(entry.item, quantity)])[..|items|] == items;
          items := items + [(entry.item, quantity)];
        }
        i := i + 1;
      }
      var _ := db.UpdateCharacter(userID, updates);
      rewardsDistributed := rewardsDistributed + 1;
      return Some(Rewards(xp, coins, items, levelUp));
    }

    /** For every catalog skill in order: its cooldown and whether it can be
        used now, which is exactly when the cooldown is 0 and the mana covers
        its cost. A missing character raises (None here). */
    method GetAvailableSkills(userID: UserId) returns (r: Option<seq<SkillStatus>>)
      ensures r.None? <==> userID !in db.characters
      ensures r.Some? ==> |r.value| == |SkillNames|
      ensures r.Some? ==> forall i | 0 <= i < |r.value| ::
        r.value[i].name == SkillNames[i] && r.value[i].skill == DefaultSkills[SkillNames[i]] &&
        r.value[i].cooldownRemaining == CooldownOf(db.skillCooldowns, userID, SkillNames[i]) &&
        (r.value[i].canUse <==>
          r.value[i].cooldownRemaining == 0 && db.characters[userID].mana >= r.value[i].skill.manaCost)
    {
      var found := db.GetCharacter(userID);
      if found.None? {
        return None;
      }
      var character := found.value;
      var available: seq<SkillStatus> := [];
      var i := 0;
      while i < |SkillNames|
        invariant 0 <= i <= |SkillNames|
        invariant |available| == i
        invariant forall j | 0 <= j < i ::
          available[j].name == SkillNames[j] && available[j].skill == DefaultSkills[SkillNames[j]] &&
          available[j].cooldownRemaining == CooldownOf(db.skillCooldowns, userID, SkillNames[j]) &&
          (available[j].canUse <==>
            available[j].cooldownRemaining == 0 && character.mana >= available[j].skill.manaCost)
      {
        var name := SkillNames[i];
        var skill := DefaultSkills[name];
        var cooldownRemaining := db.GetSkillCooldown(userID, name);
        var canUse := cooldownRemaining == 0 && character.mana >= skill.manaCost;
        available := available + [SkillStatus(name, skill, cooldownRemaining, canUse)];
        i := i + 1;
      }
      return Some(available);
    }
  }
}

=== FILE: combat_cog.dfy ===
/** The text commands of SwordSong/cogs/combat.py: `fight`, which walks a
    chain of guards before it spawns a monster and opens a session, and
    `attack`, the command form of one exchange of blows. */
module CombatCommands {
  import opened Basics
  import opened Store
  import opened Combat

  datatype FightOutcome =
    | NotInGuild                 // the user has no character
    | AlreadyInCombat            // a session is already open
    | TooWeak                    // health 0 or below
    | AreaUnknown                // the character's area is not in the game data: the lookup raises
    | NoMonsterFound             // the area has nothing to spawn
    | Started(session: Session)

  /** How the `attack` command ends. Reading the monster of a missing
      session raises before any other check, so "not in combat" is never
      reported: it is Crashed. A plain attack has no skill to refuse, so once
      the guards pass the engine never answers with an error. */
  datatype AttackOutcome =
    | Crashed
    | NoCharacter
    | NotYourTurn
    | Won(rewards: Rewards)
    | Fought(monsterTurn: MonsterTurnResult)

  class CombatCog {
    const combat: CombatSystem

    ghost predicate Valid()
      reads this, combat, combat.db
    {
      combat.Valid()
    }

    constructor(combat: CombatSystem)
      requires combat.Valid()
      ensures Valid() && this.combat == combat
    {
      this.combat := combat;
    }

    /** The guards run in order: no character, a session already open, no
        health left; then a monster is spawned in the character's area and
        only a spawned monster opens a session. An open session is never
        replaced. */
    method Fight(userID: UserId, bossRoll: nat, pick: nat) returns (out: FightOutcome)
      requires Valid()
      modifies combat`activeCombats, combat.db`fightStats
      ensures Valid()
      ensures out == NotInGuild <==> userID !in old(combat.db.characters)
      ensures out == AlreadyInCombat <==> userID in old(combat.db.characters) && userID in old(combat.activeCombats)
      ensures out == TooWeak <==>
        userID in old(combat.db.characters) && userID !in old(combat.activeCombats) &&
        old(combat.db.characters[userID]).health <= 0
      ensures out.NotInGuild? || out.AlreadyInCombat? || out.TooWeak? ==> combat.Untouched()
      ensures !out.Started? ==> combat.activeCombats == old(combat.activeCombats)
      ensures out.Started? ==>
        userID !in old(combat.activeCombats) &&
        combat.activeCombats == old(combat.activeCombats)[userID := out.session] &&
        out.session.userID == userID && out.session.turn == PlayerTurn && out.session.turnCount == 1 &&
        out.session.playerEffects == map[] && out.session.monsterEffects == map[]
      ensures out.Started? || out == NoMonsterFound || out == AreaUnknown ==>
        var c := old(combat.db.characters[userID]);
        var stats := StatsOrDefault(old(combat.db.fightStats), userID);
        (out == AreaUnknown <==> c.currentArea !in combat.areas) &&
        combat.db.fightStats == old(combat.db.fightStats)[userID :=
          if c.currentArea in combat.areas then StatsAfterSpawn(stats, combat.areas[c.currentArea]) else stats] &&
        (c.currentArea in combat.areas ==>
          (out == NoMonsterFound <==> SpawnFrom(stats, combat.areas[c.currentArea], bossRoll, pick) == NoMonsters) &&
          (out.Started? ==> out.session.monster == SpawnFrom(stats, combat.areas[c.currentArea], bossRoll, pick).monster))
    {
      var found := combat.db.GetCharacter(userID);
      if found.None? {
        return NotInGuild;
      }
      var character := found.value;
      if combat.GetCombatState(userID).Some? {
        return AlreadyInCombat;
      }
      if character.health <= 0 {
        return TooWeak;
      }
      var spawned := combat.SpawnMonster(userID, character.currentArea, bossRoll, pick);
      match spawned {
        case UnknownArea =>
          return AreaUnknown;
        case NoMonsters =>
          return NoMonsterFound;
        case Spawned(monster) =>
          var session := combat.StartCombat(userID, monster);
          return Started(session);
      }
    }

    /** One plain attack that passed the guards, and what followed it. The
        blow resolves as `ResolvePlayerAction` on the state before it and
        leaves the sessions `combats1` and rows `characters1`. A defeated
        monster then pays `Rewarded` and `GrantLoot` on the character the blow
        left and ends the session, with no monster turn. Otherwise the
        monster's turn resolves as `ResolveMonsterTurn` on the state the blow
        left, and the session stays open even when the player falls. */
    twostate predicate Exchanged(userID: UserId, dice: Dice, out: AttackOutcome)
      reads this, combat, combat.db
    {
      userID in old(combat.activeCombats) && userID in old(combat.db.characters) &&
      var ps := ResolvePlayerAction(userID, old(combat.activeCombats[userID]), old(combat.db.characters[userID]),
                                    old(combat.db.skillCooldowns), None, dice.playerVariance);
      var combats1 := old(combat.activeCombats)[userID := ps.session];
      var characters1 := old(combat.db.characters)[userID := ps.character];
      ps.result.Acted? && (out.Won? || out.Fought?) && (out.Won? <==> ps.result.monsterDefeated) &&
      (out.Won? ==>
        RewardDrawable(ps.session.monster.template) &&
        out.rewards == RewardsFor(ps.character, ps.session.monster.template,
                                  dice.coinRoll, dice.chanceRoll, dice.quantityRoll) &&
        combat.db.characters == characters1[userID := Rewarded(ps.character, out.rewards.xp, out.rewards.coins)] &&
        combat.db.skillCooldowns == ps.cooldowns &&
        combat.db.inventory == GrantLoot(old(combat.db.inventory), userID, out.rewards.items) &&
        combat.activeCombats == combats1 - {userID} &&
        combat.rewardsDistributed == old(combat.rewardsDistributed) + 1 &&
        combat.monsterTurnsResolved == old(combat.monsterTurnsResolved)) &&
      (out.Fought? ==>
        var ms := ResolveMonsterTurn(userID, ps.session, ps.character, ps.cooldowns, dice.monsterVariance);
        out.monsterTurn == MonsterAttacked(ms.damage, ms.playerHealth, ms.playerDefeated) &&
        combat.db.characters == characters1[userID := ms.character] &&
        combat.db.skillCooldowns == ms.cooldowns &&
        combat.db.inventory == old(combat.db.inventory) &&
        combat.activeCombats == combats1[userID := ms.session] &&
        combat.rewardsDistributed == old(combat.rewardsDistributed) &&
        combat.monsterTurnsResolved == old(combat.monsterTurnsResolved) + 1)
    }

    /** The `attack` command: the character and the session are looked up,
        the session's monster is read (raising when there is no session),
        then the character and turn checks follow. A won fight hands out the
        rewards and ends the session; otherwise the monster answers, and the
        session stays open even when the player falls. */
    method Attack(userID: UserId, dice: Dice) returns (out: AttackOutcome)
      requires Valid()
      modifies combat`activeCombats, combat`monsterTurnsResolved, combat`rewardsDistributed,
               combat.db`characters, combat.db`skillCooldowns, combat.db`inventory
      ensures Valid()
      ensures out == Crashed <==> userID !in old(combat.activeCombats)
      ensures out == NoCharacter <==> userID in old(combat.activeCombats) && userID !in old(combat.db.characters)
      ensures out == NotYourTurn <==>
        userID in old(combat.activeCombats) && userID in old(combat.db.characters) &&
        old(combat.activeCombats[userID]).turn != PlayerTurn
      ensures out.Crashed? || out.NoCharacter? || out.NotYourTurn? ==> combat.Untouched()
      ensures out.Won? || out.Fought? ==> Exchanged(userID, dice, out)
    {
      var found := combat.db.GetCharacter(userID);
      var state := combat.GetCombatState(userID);
      if state.None? {
        return Crashed;
      }
      if found.None? {
        return NoCharacter;
      }
      if state.value.turn != PlayerTurn {
        return NotYourTurn;
      }
      out := Exchange(userID, dice);
    }

    /** Once the guards pass: the player's blow, then either the victory or
        the monster's answer. */
    method Exchange(userID: UserId, dice: Dice) returns (out: AttackOutcome)
      requires Valid()
      requires userID in combat.activeCombats && userID in combat.db.characters
      requires combat.activeCombats[userID].turn == PlayerTurn
      modifies combat`activeCombats, combat`monsterTurnsResolved, combat`rewardsDistributed,
               combat.db`characters, combat.db`skillCooldowns, combat.db`inventory
      ensures Valid()
      ensures Exchanged(userID, dice, out)
    {
      PlainAttackNeverRefused(userID, combat.activeCombats[userID], combat.db.characters[userID],
                              combat.db.skillCooldowns, dice.playerVariance);
      var result := combat.ProcessPlayerAttack(userID, None, dice.playerVariance);
      var monster := combat.activeCombats[userID].monster;
      if result.monsterDefeated {
        var rewards := HandleCombatVictory(userID, monster, dice);
        combat.EndCombat(userID);
        return Won(rewards.value);
      }
      var monsterTurn := ProcessMonsterTurn(userID, dice.monsterVariance);
      return Fought(monsterTurn);
    }

    /** The victory helper: the rewards are handed out (for a user without a
        character the lookup raises before anything changes). */
    method HandleCombatVictory(userID: UserId, monster: Monster, dice: Dice) returns (rewards: Option<Rewards>)
      requires Valid() && RewardDrawable(monster.template)
      modifies combat`rewardsDistributed, combat.db`characters, combat.db`inventory
      ensures Valid()
      ensures rewards.Some? <==> userID in old(combat.db.characters)
      ensures rewards.None? ==> combat.Untouched()
      ensures rewards.Some? ==>
        rewards.value == RewardsFor(old(combat.db.characters[userID]), monster.template,
                                    dice.coinRoll, dice.chanceRoll, dice.quantityRoll) &&
        combat.db.characters == old(combat.db.characters)[userID :=
          Rewarded(old(combat.db.characters[userID]), rewards.value.xp, rewards.value.coins)] &&
        combat.db.inventory == GrantLoot(old(combat.db.inventory), userID, rewards.value.items) &&
        combat.rewardsDistributed == old(combat.rewardsDistributed) + 1
    {
      rewards := combat.DistributeRewards(userID, monster, dice.coinRoll, dice.chanceRoll, dice.quantityRoll);
    }

    /** The monster-turn helper: one monster turn, after which the session
        stays open whatever the outcome. */
    method ProcessMonsterTurn(userID: UserId, variance: real) returns (result: MonsterTurnResult)
      requires Valid()
      modifies combat`activeCombats, combat`monsterTurnsResolved, combat.db`characters, combat.db`skillCooldowns
      ensures Valid()
      ensures userID !in old(combat.activeCombats) || userID !in old(combat.db.characters) ==>
        result.MonsterTurnFailed? && combat.Untouched()
      ensures userID in old(combat.activeCombats) && userID in old(combat.db.characters) ==>
        var st := ResolveMonsterTurn(userID, old(combat.activeCombats[userID]), old(combat.db.characters[userID]),
                                     old(combat.db.skillCooldowns), variance);
        result == MonsterAttacked(st.damage, st.playerHealth, st.playerDefeated) &&
        combat.activeCombats == old(combat.activeCombats)[userID := st.session] &&
        combat.db.characters == old(combat.db.characters)[userID := st.character] &&
        combat.db.skillCooldowns == st.cooldowns &&
        combat.monsterTurnsResolved == old(combat.monsterTurnsResolved) + 1
    {
      result := combat.ProcessMonsterTurn(userID, variance);
    }
  }
}

=== FILE: combat_view.dfy ===
/** The combat screen of SwordSong/view/combatView.py: the buttons of one
    player's fight and what each press does to the session registry, the
    character store and the screen itself. Embeds, messages and pauses are
    not part of the model; only the state they follow is. */
module CombatScreen {
  import opened Basics
  import opened Store
  import opened Combat

  /** How a player's turn on the screen ends. */
  datatype TurnOutcome =
    | NotYourTurn                             // no session, or the monster's turn: the press is ignored
    | Refused(error: AttackError)             // the engine's error is shown and nothing else happens
    | Won(rewards: Rewards)                   // rewards are handed out and the fight ends (see HandleVictory)
    | Fought(monsterTurn: MonsterTurnResult)  // the monster answers

  datatype FleeOutcome = Escaped | Caught(monsterTurn: MonsterTurnResult)

  /** What the as-written victory leaves behind can be won again: a player
      action that defeats the monster keeps the turn with the player and the
      monster at or below zero health, so the next plain attack passes the
      turn check, defeats it once more and hands out a second reward. */
  lemma DefeatedMonsterFallsAgain(u: UserId, s: Session, c: Character, cooldowns: Cooldowns,
                                  skillName: Option<SkillName>, variance: real, nextVariance: real)
    requires s.turn == PlayerTurn
    requires ResolvePlayerAction(u, s, c, cooldowns, skillName, variance).result.Acted?
    requires ResolvePlayerAction(u, s, c, cooldowns, skillName, variance).result.monsterDefeated
    ensures var st := ResolvePlayerAction(u, s, c, cooldowns, skillName, variance);
      st.session.turn == PlayerTurn && st.session.monster.currentHealth <= 0
    ensures var st := ResolvePlayerAction(u, s, c, cooldowns, skillName, variance);
      var again := ResolvePlayerAction(u, st.session, st.character, st.cooldowns, None, nextVariance);
      again.result.Acted? && again.result.monsterDefeated && again.session.turn == PlayerTurn
  {
    PlayerActionOutcome(u, s, c, cooldowns, skillName, variance);
    var st := ResolvePlayerAction(u, s, c, cooldowns, skillName, variance);
    PlayerActionOutcome(u, st.session, st.character, st.cooldowns, None, nextVariance);
  }

  class CombatView {
    const combat: CombatSystem
    const userID: UserId
    /** `self.stop()` was called: the screen takes no more presses. */
    var stopped: bool
    /** Every button was disabled by a timeout. */
    var buttonsDisabled: bool

    ghost predicate Valid()
      reads this, combat, combat.db
    {
      combat.Valid()
    }

    /** Neither the game nor the screen has changed. */
    twostate predicate Untouched()
      reads this, combat, combat.db
    {
      combat.Untouched() && stopped == old(stopped)
    }

    constructor(combat: CombatSystem, userID: UserId)
      requires combat.Valid()
      ensures Valid()
      ensures this.combat == combat && this.userID == userID
      ensures !stopped && !buttonsDisabled
    {
      this.combat := combat;
      this.userID := userID;
      stopped, buttonsDisabled := false, false;
    }

    /** The fight times out: the session ends and the buttons go dead. */
    method OnTimeout()
      requires Valid()
      modifies combat`activeCombats, this`buttonsDisabled
      ensures Valid()
      ensures combat.activeCombats == old(combat.activeCombats) - {userID}
      ensures buttonsDisabled
    {
      combat.EndCombat(userID);
      buttonsDisabled := true;
    }

    /** The monster's turn on the screen: an engine failure is only shown; a
        defeated player's fight ends and the screen stops; otherwise the
        session goes on. */
    method ProcessMonsterTurn(variance: real) returns (result: MonsterTurnResult)
      requires Valid()
      modifies combat`activeCombats, combat`monsterTurnsResolved, combat.db`characters, combat.db`skillCooldowns,
               this`stopped
      ensures Valid()
      ensures userID !in old(combat.activeCombats) || userID !in old(combat.db.characters) ==>
        result.MonsterTurnFailed? && Untouched()
      ensures userID in old(combat.activeCombats) && userID in old(combat.db.characters) ==>
        var st := ResolveMonsterTurn(userID, old(combat.activeCombats[userID]), old(combat.db.characters[userID]),
                                     old(combat.db.skillCooldowns), variance);
        result == MonsterAttacked(st.damage, st.playerHealth, st.playerDefeated) &&
        combat.db.characters == old(combat.db.characters)[userID := st.character] &&
        combat.db.skillCooldowns == st.cooldowns &&
        combat.monsterTurnsResolved == old(combat.monsterTurnsResolved) + 1 &&
        (st.playerDefeated ==> combat.activeCombats == old(combat.activeCombats) - {userID} && stopped) &&
        (!st.playerDefeated ==> combat.activeCombats == old(combat.activeCombats)[userID := st.session] &&
                                stopped == old(stopped))
    {
      result := combat.ProcessMonsterTurn(userID, variance);
      if result.MonsterAttacked? && result.playerDefeated {
        combat.EndCombat(userID);
        stopped := true;
      }
    }

    /** Victory: the rewards are handed out, then the fight ends and the
        screen stops. Without a character the reward lookup raises before
        anything changes. */
    method HandleVictory(monster: Monster, dice: Dice) returns (rewards: Option<Rewards>)
      requires Valid() && RewardDrawable(monster.template)
      modifies combat`rewardsDistributed, combat`activeCombats, combat.db`characters, combat.db`inventory,
               this`stopped
      ensures Valid()
      ensures rewards.None? <==> userID !in old(combat.db.characters)
      ensures rewards.None? ==> Untouched()
      ensures rewards.Some? ==>
        rewards.value == RewardsFor(old(combat.db.characters[userID]), monster.template,
                                    dice.coinRoll, dice.chanceRoll, dice.quantityRoll) &&
        combat.db.characters == old(combat.db.characters)[userID :=
          Rewarded(old(combat.db.characters[userID]), rewards.value.xp, rewards.value.coins)] &&
        combat.db.inventory == GrantLoot(old(combat.db.inventory), userID, rewards.value.items) &&
        combat.rewardsDistributed == old(combat.rewardsDistributed) + 1 &&
        combat.activeCombats == old(combat.activeCombats) - {userID} && stopped
    {
      rewards := combat.DistributeRewards(userID, monster, dice.coinRoll, dice.chanceRoll, dice.quantityRoll);
      if rewards.None? {
        return;
      }
      combat.EndCombat(userID);
      stopped := true;
    }

    /** `handleVictory` as written: the loot lines read each item's
        `quanity`, a key the reward items do not have, so as soon as one item
        drops the method raises after the rewards are paid and before the
        fight is ended or the screen stopped. Without loot it completes. */
    method HandleVictoryAsWritten(monster: Monster, dice: Dice) returns (rewards: Option<Rewards>)
      requires Valid() && RewardDrawable(monster.template)
      modifies combat`rewardsDistributed, combat`activeCombats, combat.db`characters, combat.db`inventory,
               this`stopped
      ensures Valid()
      ensures rewards.None? <==> userID !in old(combat.db.characters)
      ensures rewards.None? ==> Untouched()
      ensures rewards.Some? ==>
        rewards.value == RewardsFor(old(combat.db.characters[userID]), monster.template,
                                    dice.coinRoll, dice.chanceRoll, dice.quantityRoll) &&
        combat.db.characters == old(combat.db.characters)[userID :=
          Rewarded(old(combat.db.characters[userID]), rewards.value.xp, rewards.value.coins)] &&
        combat.db.inventory == GrantLoot(old(combat.db.inventory), userID, rewards.value.items) &&
        combat.rewardsDistributed == old(combat.rewardsDistributed) + 1
      ensures rewards.Some? && rewards.value.items != [] ==>
        combat.activeCombats == old(combat.activeCombats) && stopped == old(stopped)
      ensures rewards.Some? && rewards.value.items == [] ==>
        combat.activeCombats == old(combat.activeCombats) - {userID} && stopped
    {
      rewards := combat.DistributeRewards(userID, monster, dice.coinRoll, dice.chanceRoll, dice.quantityRoll);
      if rewards.None? || rewards.value.items != [] {
        return;
      }
      combat.EndCombat(userID);
      stopped := true;
    }


    /** A player action the engine accepted, and what followed it. The
        action resolves as `ResolvePlayerAction` on the state before it and
        leaves the sessions `combats1` and rows `characters1`. A defeated
        monster then pays `Rewarded` and `GrantLoot` on the character the
        action left, ends the fight and stops the screen, with no monster
        turn. Otherwise the monster's turn resolves as `ResolveMonsterTurn`
        on the state the action left, and a defeated player's fight ends. */
    twostate predicate TurnTaken(skillName: Option<SkillName>, dice: Dice, out: TurnOutcome)
      reads this, combat, combat.db
    {
      userID in old(combat.activeCombats) && userID in old(combat.db.characters) &&
      var ps := ResolvePlayerAction(userID, old(combat.activeCombats[userID]), old(combat.db.characters[userID]),
                                    old(combat.db.skillCooldowns), skillName, dice.playerVariance);
      var combats1 := old(combat.activeCombats)[userID := ps.session];
      var characters1 := old(combat.db.characters)[userID := ps.character];
      ps.result.Acted? && (out.Won? || out.Fought?) && (out.Won? <==> ps.result.monsterDefeated) &&
      (out.Won? ==>
        RewardDrawable(ps.session.monster.template) &&
        out.rewards == RewardsFor(ps.character, ps.session.monster.template,
                                  dice.coinRoll, dice.chanceRoll, dice.quantityRoll) &&
        combat.db.characters == characters1[userID := Rewarded(ps.character, out.rewards.xp, out.rewards.coins)] &&
        combat.db.skillCooldowns == ps.cooldowns &&
        combat.db.inventory == GrantLoot(old(combat.db.inventory), userID, out.rewards.items) &&
        combat.activeCombats == combats1 - {userID} && stopped &&
        combat.rewardsDistributed == old(combat.rewardsDistributed) + 1 &&
        combat.monsterTurnsResolved == old(combat.monsterTurnsResolved)) &&
      (out.Fought? ==>
        var ms := ResolveMonsterTurn(userID, ps.session, ps.character, ps.cooldowns, dice.monsterVariance);
        out.monsterTurn == MonsterAttacked(ms.damage, ms.playerHealth, ms.playerDefeated) &&
        combat.db.characters == characters1[userID := ms.character] &&
        combat.db.skillCooldowns == ms.cooldowns &&
        combat.db.inventory == old(combat.db.inventory) &&
        combat.rewardsDistributed == old(combat.rewardsDistributed) &&
        combat.monsterTurnsResolved == old(combat.monsterTurnsResolved) + 1 &&
        (ms.playerDefeated ==> combat.activeCombats == combats1 - {userID} && stopped) &&
        (!ms.playerDefeated ==> combat.activeCombats == combats1[userID := ms.session] && stopped == old(stopped)))
    }

    /** A player action (a plain attack, or a skill) and what follows it: an
        error is only shown; a defeated monster brings exactly one reward and
        the end of the fight, with no monster turn; otherwise the monster
        answers with exactly one turn. */
    method TakeTurn(skillName: Option<SkillName>, dice: Dice) returns (out: TurnOutcome)
      requires Valid()
      modifies combat`activeCombats, combat`monsterTurnsResolved, combat`rewardsDistributed,
               combat.db`characters, combat.db`skillCooldowns, combat.db`inventory, this`stopped
      ensures Valid()
      ensures out != NotYourTurn
      ensures out.Refused? <==>
        userID !in old(combat.activeCombats) || userID !in old(combat.db.characters) ||
        ResolvePlayerAction(userID, old(combat.activeCombats[userID]), old(combat.db.characters[userID]),
                            old(combat.db.skillCooldowns), skillName, dice.playerVariance).result.AttackFailed?
      ensures out.Refused? ==> Untouched()
      ensures !out.Refused? ==> TurnTaken(skillName, dice, out)
    {
      var result := combat.ProcessPlayerAttack(userID, skillName, dice.playerVariance);
      if result.AttackFailed? {
        return Refused(result.error);
      }
      ghost var ps := ResolvePlayerAction(userID, old(combat.activeCombats[userID]), old(combat.db.characters[userID]),
                                          old(combat.db.skillCooldowns), skillName, dice.playerVariance);
      assert combat.activeCombats[userID] == ps.session && combat.db.characters[userID] == ps.character;
      var monster := combat.activeCombats[userID].monster;
      if result.monsterDefeated {
        var rewards := HandleVictory(monster, dice);
        return Won(rewards.value);
      }
      var monsterTurn := ProcessMonsterTurn(dice.monsterVariance);
      return Fought(monsterTurn);
    }

    /** The attack button acts only on the player's turn of a running fight. */
    method AttackButton(dice: Dice) returns (out: TurnOutcome)
      requires Valid()
      modifies combat`activeCombats, combat`monsterTurnsResolved, combat`rewardsDistributed,
               combat.db`characters, combat.db`skillCooldowns, combat.db`inventory, this`stopped
      ensures Valid()
      ensures out == NotYourTurn <==>
        userID !in old(combat.activeCombats) || old(combat.activeCombats[userID]).turn != PlayerTurn
      ensures out == NotYourTurn || out.Refused? ==> Untouched()
      ensures out.Refused? ==> userID !in old(combat.db.characters)
      ensures out.Won? || out.Fought? ==> TurnTaken(None, dice, out)
    {
      var state := combat.GetCombatState(userID);
      if state.None? || state.value.turn != PlayerTurn {
        return NotYourTurn;
      }
      if userID in combat.db.characters {
        PlainAttackNeverRefused(userID, combat.activeCombats[userID], combat.db.characters[userID],
                                combat.db.skillCooldowns, dice.playerVariance);
      }
      out := TakeTurn(None, dice);
    }

    /** A skill button of the skill menu: the same turn check, then the
        action with the chosen skill. */
    method UseSkill(skillName: SkillName, dice: Dice) returns (out: TurnOutcome)
      requires Valid()
      modifies combat`activeCombats, combat`monsterTurnsResolved, combat`rewardsDistributed,
               combat.db`characters, combat.db`skillCooldowns, combat.db`inventory, this`stopped
      ensures Valid()
      ensures out == NotYourTurn <==>
        userID !in old(combat.activeCombats) || old(combat.activeCombats[userID]).turn != PlayerTurn
      ensures out == NotYourTurn || out.Refused? ==> Untouched()
      ensures out.Refused? ==>
        userID in old(combat.activeCombats) &&
        (userID !in old(combat.db.characters) ||
         ResolvePlayerAction(userID, old(combat.activeCombats[userID]), old(combat.db.characters[userID]),
                             old(combat.db.skillCooldowns), Some(skillName), dice.playerVariance).result.AttackFailed?)
      ensures out.Won? || out.Fought? ==> TurnTaken(Some(skillName), dice, out)
    {
      var state := combat.GetCombatState(userID);
      if state.None? || state.value.turn != PlayerTurn {
        return NotYourTurn;
      }
      out := TakeTurn(Some(skillName), dice);
    }

    /** Fleeing succeeds on a roll of 1 to 70: the fight ends with no monster
        turn. Otherwise the session stays and the monster gets exactly one
        turn. Whose turn it is is not checked. */
    method ProcessFlee(dice: Dice) returns (out: FleeOutcome)
      requires Valid()
      modifies combat`activeCombats, combat`monsterTurnsResolved, combat.db`characters, combat.db`skillCooldowns,
               this`stopped
      ensures Valid()
      ensures out.Escaped? <==> Draw(1, 100, dice.fleeRoll) <= 70
      ensures out.Escaped? ==>
        combat.activeCombats == old(combat.activeCombats) - {userID} && stopped &&
        combat.db.characters == old(combat.db.characters) &&
        combat.db.skillCooldowns == old(combat.db.skillCooldowns) &&
        combat.monsterTurnsResolved == old(combat.monsterTurnsResolved)
      ensures out.Caught? && (userID !in old(combat.activeCombats) || userID !in old(combat.db.characters)) ==>
        out.monsterTurn.MonsterTurnFailed? && Untouched()
      ensures out.Caught? && userID in old(combat.activeCombats) && userID in old(combat.db.characters) ==>
        var st := ResolveMonsterTurn(userID, old(combat.activeCombats[userID]), old(combat.db.characters[userID]),
                                     old(combat.db.skillCooldowns), dice.monsterVariance);
        out.monsterTurn == MonsterAttacked(st.damage, st.playerHealth, st.playerDefeated) &&
        combat.db.characters == old(combat.db.characters)[userID := st.character] &&
        combat.db.skillCooldowns == st.cooldowns &&
        combat.monsterTurnsResolved == old(combat.monsterTurnsResolved) + 1 &&
        (st.playerDefeated ==> combat.activeCombats == old(combat.activeCombats) - {userID} && stopped) &&
        (!st.playerDefeated ==>
          combat.activeCombats == old(combat.activeCombats)[userID := st.session] && stopped == old(stopped) &&
          combat.activeCombats[userID].turn == PlayerTurn)
    {
      if userID in combat.activeCombats && userID in combat.db.characters {
        MonsterTurnOutcome(userID, combat.activeCombats[userID], combat.db.characters[userID],
                           combat.db.skillCooldowns, dice.monsterVariance);
      }
      if Draw(1, 100, dice.fleeRoll) <= 70 {
        combat.EndCombat(userID);
        stopped := true;
        return Escaped;
      }
      var monsterTurn := ProcessMonsterTurn(dice.monsterVariance);
      return Caught(monsterTurn);
    }
  }
}

=== FILE: dungeon_models.dfy ===
/** The grid vocabulary of SwordSong/services/dungeon/models.py: room kinds,
    grid positions and their four neighbours, and the rooms themselves, whose
    visited and cleared flags and open passages change as the player explores. */
module DungeonModels {

  datatype RoomType =
    | Entrance | CombatRoom | Treasure | Trap | BossRoom | Shop | Healing | Puzzle | Empty

  /** The per-kind display data of the dungeon configuration. */
  datatype RoomData = RoomData(
    emojiUnvisited: string,
    emojiVisited: string,
    emojiCleared: string,
    generationWeight: real,
    canBeBranch: bool,
    canBeReplaced: bool)

  /** A grid cell; x grows to the east and y to the south. */
  datatype Position = Position(x: int, y: int)

  const North := "north"
  const South := "south"
  const East := "east"
  const West := "west"

  /** The four direction names, in the order the source lists them. */
  const Directions: seq<string> := [North, South, East, West]

  const DirectionSet: set<string> := {North, South, East, West}

  /** Where a direction stands in `Directions`. */
  function DirectionIndex(d: string): (i: nat)
    requires d in DirectionSet
    ensures i < |Directions| && Directions[i] == d
  {
    if d == North then 0 else if d == South then 1 else if d == East then 2 else 3
  }

  /** The four cells one step away, by direction name. */
  function Neighbors(p: Position): (r: map<string, Position>)
    ensures r.Keys == DirectionSet
    ensures forall d | d in r :: Distance(p, r[d]) == 1
  {
    map[North := Position(p.x, p.y - 1),
        South := Position(p.x, p.y + 1),
        East := Position(p.x + 1, p.y),
        West := Position(p.x - 1, p.y)]
  }

  function Abs(n: int): nat { if n < 0 then -n else n }

  /** Grid (Manhattan) distance. */
  function Distance(p: Position, q: Position): nat
  {
    Abs(p.x - q.x) + Abs(p.y - q.y)
  }

  function Opposite(d: string): (r: string)
    requires d in DirectionSet
    ensures r in DirectionSet && r != d
  {
    if d == North then South
    else if d == South then North
    else if d == East then West
    else East
  }

  /** Stepping in a direction and then in the opposite one leads back. */
  lemma NeighborRoundTrip(p: Position, d: string)
    requires d in DirectionSet
    ensures Neighbors(Neighbors(p)[d])[Opposite(d)] == p
  {
  }

  /** The four neighbours are four different cells, none of them `p`. */
  lemma NeighborsDistinct(p: Position, d: string, e: string)
    requires d in DirectionSet && e in DirectionSet
    ensures Neighbors(p)[d] != p
    ensures Neighbors(p)[d] == Neighbors(p)[e] <==> d == e
  {
  }

  /** The passages a new room starts with: every direction closed. */
  const Closed: map<string, bool> := map[North := false, South := false, East := false, West := false]

  class Room {
    const roomType: RoomType
    const position: Position
    const config: RoomData
    var visited: bool
    var cleared: bool
    /** Whether the player may leave the room in each direction. */
    var connections: map<string, bool>

    /** A room always knows exactly the four directions. */
    ghost predicate Valid()
      reads this`connections
    {
      connections.Keys == DirectionSet
    }

    constructor(roomType: RoomType, position: Position, config: RoomData)
      ensures Valid()
      ensures this.roomType == roomType && this.position == position && this.config == config
      ensures !visited && !cleared
      ensures forall d | d in DirectionSet :: !connections[d]
      ensures connections == Closed
    {
      this.roomType := roomType;
      this.position := position;
      this.config := config;
      visited := false;
      cleared := false;
      connections := Closed;
    }

    /** Marks the room visited; nothing else changes, and visiting twice is
        the same as visiting once. */
    method Visit()
      modifies this`visited
      ensures visited
    {
      visited := true;
    }

    method Clear()
      modifies this`cleared
      ensures cleared
    {
      cleared := true;
    }

    /** Opens or closes one passage; a name that is not a direction is
        ignored. */
    method SetConnection(direction: string, canTravel: bool)
      requires Valid()
      modifies this`connections
      ensures Valid()
      ensures direction in DirectionSet ==> connections == old(connections)[direction := canTravel]
      ensures direction !in DirectionSet ==> connections == old(connections)
    {
      if direction in connections {
        connections := connections[direction := canTravel];
      }
    }

    /** The glyph the map shows for the room: an unvisited room hides what it
        is (even when cleared), a visited room shows whether it was cleared. */
    function GetEmoji(): (r: string)
      reads this
      ensures !visited ==> r == config.emojiUnvisited
      ensures visited && cleared ==> r == config.emojiCleared
      ensures visited && !cleared ==> r == config.emojiVisited
    {
      if !visited then config.emojiUnvisited
      else if cleared then config.emojiCleared
      else config.emojiVisited
    }
  }
}

=== FILE: dungeon_view.dfy ===
/** The exploration screen of SwordSong/view/dungeonView.py: the short log of
    recent actions, and what interacting with the player's room does to the
    character, the room and the log. Embeds and messages are not modelled;
    only the state they report is. */
module DungeonScreen {
  import opened Basics
  import opened Store
  import opened DungeonModels
  import opened MiniDungeons

  /** The log keeps this many entries. */
  const LogCapacity := 4

  /** Every log entry starts with a bullet and a space. */
  const Bullet := "\U{2022} "

  /** The last `n` entries of `s` (all of them when there are fewer). */
  function Newest(s: seq<string>, n: nat): (r: seq<string>)
    ensures |r| == Min(|s|, n)
    ensures r == s[|s| - |r|..]
  {
    if |s| <= n then s else s[|s| - n..]
  }

  /** The log after one entry was appended, or the same log when the handler
      logs nothing. */
  function Logged(log: seq<string>, message: Option<string>): seq<string>
  {
    if message.Some? then Newest(log + [Bullet + message.value], LogCapacity) else log
  }

  function Bulleted(messages: seq<string>): (r: seq<string>)
    ensures |r| == |messages|
    ensures forall i | 0 <= i < |messages| :: r[i] == Bullet + messages[i]
  {
    if |messages| == 0 then [] else Bulleted(messages[..|messages| - 1]) + [Bullet + messages[|messages| - 1]]
  }

  /** The log that a run of messages leaves behind, starting empty. */
  function LogAfter(messages: seq<string>): seq<string>
  {
    if |messages| == 0 then []
    else Logged(LogAfter(messages[..|messages| - 1]), Some(messages[|messages| - 1]))
  }

  /** Trimming before appending keeps the same newest entries as appending to
      the whole sequence. */
  lemma NewestAppend(s: seq<string>, x: string, n: nat)
    requires n > 0
    ensures Newest(Newest(s, n) + [x], n) == Newest(s + [x], n)
  {
    var t := Newest(s, n);
    var a := Newest(t + [x], n);
    var b := Newest(s + [x], n);
    assert |a| == |b|;
    forall i | 0 <= i < |a|
      ensures a[i] == b[i]
    {
      if i == |a| - 1 {
      } else {
        assert a[i] == t[|t| + 1 - |a| + i];
        assert b[i] == s[|s| + 1 - |b| + i];
      }
    }
  }

  /** However many actions happen, the log holds the bulleted messages of the
      four most recent ones, oldest first. */
  lemma {:induction false} LogKeepsNewest(messages: seq<string>)
    ensures LogAfter(messages) == Newest(Bulleted(messages), LogCapacity)
    ensures |LogAfter(messages)| <= LogCapacity
  {
    if |messages| > 0 {
      var init := messages[..|messages| - 1];
      var last := messages[|messages| - 1];
      LogKeepsNewest(init);
      NewestAppend(Bulleted(init), Bullet + last, LogCapacity);
    }
  }

  /** What interacting with a room ends in. */
  datatype RoomOutcome =
    | NoRoom                  // the player stands outside every room
    | AlreadyExplored         // the room was cleared before
    | TreasureFound(coins: int)
    | MonsterEncounter
    | AlreadyFighting         // the user is in a fight elsewhere
    | TrapAvoided
    | TrapTriggered(damage: int)
    | Healed(amount: int)     // an amount of 0 or less: the spring has no effect
    | MerchantMet
    | PuzzleSolved(reward: int)
    | PuzzleFailed
    | EmptyRoom
    | UnknownRoom             // the entrance and the boss room have no handler
    | HandlerFailed                 // the handler read a character that does not exist

  /** The rolls of the room handlers: the treasure, whether a trap is
      avoided, its damage, the puzzle's answer and the player's guess, and the
      puzzle's reward. */
  datatype RoomDice = RoomDice(
    treasureRoll: nat, trapRoll: nat, damageRoll: nat,
    answerRoll: nat, guessRoll: nat, rewardRoll: nat)

  /** What a handler does: the outcome, the character update it sends to the
      store, whether it clears the room, and the line it logs. */
  datatype RoomEffect = RoomEffect(
    outcome: RoomOutcome, update: Option<CharacterPatch>, clears: bool, message: Option<string>)

  function NoEffect(outcome: RoomOutcome): RoomEffect
  {
    RoomEffect(outcome, None, false, None)
  }

  /** The treasure chest: 20 to 100 coins. */
  function TreasureEffect(c: Option<Character>, dice: RoomDice): RoomEffect
  {
    var found := Draw(20, 100, dice.treasureRoll);
    if c.None? then NoEffect(HandlerFailed)
    else RoomEffect(TreasureFound(found), Some(CharacterPatch(coins := Some(c.value.coins + found))), true,
                    Some("Found " + DecimalText(found) + " coins in a treasure chest!"))
  }

  /** The trap: avoided on 1 to 30 out of 100, otherwise 5 to 15 damage. */
  function TrapEffect(c: Option<Character>, dice: RoomDice): RoomEffect
  {
    if Draw(1, 100, dice.trapRoll) <= 30 then
      RoomEffect(TrapAvoided, None, true, Some("You successfully avoided the traps!"))
    else
      var damage := Draw(5, 15, dice.damageRoll);
      if c.None? then NoEffect(HandlerFailed)
      else RoomEffect(TrapTriggered(damage), Some(CharacterPatch(health := Some(Max(1, c.value.health - damage)))), true,
                      Some("You triggered a trap! You lost " + DecimalText(damage) + " health!"))
  }

  /** The spring: up to 30 points, never past the maximum. */
  function HealingEffect(c: Option<Character>): RoomEffect
  {
    if c.None? then NoEffect(HandlerFailed)
    else
      var heal := Min(30, c.value.maxHealth - c.value.health);
      if heal > 0 then
        RoomEffect(Healed(heal), Some(CharacterPatch(health := Some(c.value.health + heal))), true,
                   Some("You healed for " + DecimalText(heal) + " health at the spring!"))
      else RoomEffect(Healed(heal), None, true, None)
  }

  /** The puzzle: a guess from 1 to 3 against an answer from 1 to 3; a right
      guess pays 10 to 30 coins. */
  function PuzzleEffect(c: Option<Character>, dice: RoomDice): RoomEffect
  {
    if Draw(1, 3, dice.answerRoll) == Draw(1, 3, dice.guessRoll) then
      var reward := Draw(10, 30, dice.rewardRoll);
      if c.None? then NoEffect(HandlerFailed)
      else RoomEffect(PuzzleSolved(reward), Some(CharacterPatch(coins := Some(c.value.coins + reward))), true,
                      Some("You solved the puzzle! You gained " + DecimalText(reward) + " coins."))
    else RoomEffect(PuzzleFailed, None, true, None)
  }

  /** The handler of an uncleared room of the given kind, for the user's
      character `c` (None when it does not exist). */
  function ResolveRoom(kind: RoomType, c: Option<Character>, inCombat: bool, dice: RoomDice): RoomEffect
  {
    match kind
    case Treasure => TreasureEffect(c, dice)
    case CombatRoom => NoEffect(if inCombat then AlreadyFighting else MonsterEncounter)
    case Trap => TrapEffect(c, dice)
    case Healing => HealingEffect(c)
    case Shop => NoEffect(MerchantMet)
    case Puzzle => PuzzleEffect(c, dice)
    case Empty => NoEffect(EmptyRoom)
    case Entrance => NoEffect(UnknownRoom)
    case BossRoom => NoEffect(UnknownRoom)
  }

  /** What the room handlers promise. A handler that fails, or a room
      without a handler, changes nothing; the treasure, trap, healing and
      puzzle rooms are cleared whenever their handler does not fail; coins and
      health move only within the ranges of their rolls, and a spring never
      heals past the maximum. */
  lemma RoomEffects(kind: RoomType, c: Option<Character>, inCombat: bool, dice: RoomDice)
    ensures var eff := ResolveRoom(kind, c, inCombat, dice);
      (eff.outcome == HandlerFailed ==> eff == NoEffect(HandlerFailed)) &&
      (kind == CombatRoom || kind == Shop || kind == Empty || kind == Entrance || kind == BossRoom ==>
        !eff.clears && eff.update == None && eff.message == None) &&
      (eff.clears <==> (kind == Treasure || kind == Trap || kind == Healing || kind == Puzzle) && eff.outcome != HandlerFailed) &&
      (eff.update.Some? ==> c.Some?)
    ensures var eff := ResolveRoom(kind, c, inCombat, dice);
      eff.outcome.TreasureFound? ==>
        c.Some? && eff.update.Some? && 20 <= eff.outcome.coins <= 100 &&
        ApplyPatch(c.value, eff.update.value) == c.value.(coins := c.value.coins + eff.outcome.coins)
    ensures var eff := ResolveRoom(kind, c, inCombat, dice);
      (eff.outcome == TrapAvoided <==> kind == Trap && Draw(1, 100, dice.trapRoll) <= 30) &&
      (eff.outcome == TrapAvoided ==> eff.update == None)
    ensures var eff := ResolveRoom(kind, c, inCombat, dice);
      eff.outcome.TrapTriggered? ==>
        c.Some? && eff.update.Some? && 5 <= eff.outcome.damage <= 15 &&
        ApplyPatch(c.value, eff.update.value) == c.value.(health := Max(1, c.value.health - eff.outcome.damage))
    ensures var eff := ResolveRoom(kind, c, inCombat, dice);
      eff.outcome.Healed? ==>
        c.Some? && eff.outcome.amount == Min(30, c.value.maxHealth - c.value.health) &&
        (eff.update.Some? <==> eff.outcome.amount > 0) &&
        (eff.update.Some? ==>
          ApplyPatch(c.value, eff.update.value) == c.value.(health := c.value.health + eff.outcome.amount) &&
          c.value.health + eff.outcome.amount <= c.value.maxHealth)
    ensures var eff := ResolveRoom(kind, c, inCombat, dice);
      (eff.outcome.PuzzleSolved? || eff.outcome == PuzzleFailed ==>
        (eff.outcome.PuzzleSolved? <==> Draw(1, 3, dice.answerRoll) == Draw(1, 3, dice.guessRoll))) &&
      (eff.outcome.PuzzleSolved? ==>
        c.Some? && eff.update.Some? && 10 <= eff.outcome.reward <= 30 &&
        ApplyPatch(c.value, eff.update.value) == c.value.(coins := c.value.coins + eff.outcome.reward)) &&
      (eff.outcome == PuzzleFailed ==> eff.update == None)
  {
  }

  /** The character table after a handler's update; an update for a missing
      character changes nothing. */
  function Patched(chars: map<UserId, Character>, u: UserId, update: Option<CharacterPatch>): map<UserId, Character>
  {
    if update.Some? && u in chars then chars[u := ApplyPatch(chars[u], update.value)] else chars
  }

  class DungeonView {
    const userID: UserId
    const dungeon: MiniDungeon
    const db: CharacterStore
    var actionLog: seq<string>

    ghost predicate Valid()
      reads this, dungeon, dungeon.rooms.Values`connections, db
    {
      |actionLog| <= LogCapacity && dungeon.Valid() && db.Valid()
    }

    constructor(userID: UserId, dungeon: MiniDungeon, db: CharacterStore)
      requires dungeon.Valid() && db.Valid()
      ensures Valid()
      ensures this.userID == userID && this.dungeon == dungeon && this.db == db
      ensures actionLog == []
    {
      this.userID := userID;
      this.dungeon := dungeon;
      this.db := db;
      actionLog := [];
    }

    /** Appends a bulleted entry and drops the oldest one once there are more
        than four. */
    method AddToActionLog(message: string)
      requires |actionLog| <= LogCapacity
      modifies this`actionLog
      ensures actionLog == Logged(old(actionLog), Some(message))
      ensures |actionLog| <= LogCapacity && actionLog[|actionLog| - 1] == Bullet + message
    {
      actionLog := actionLog + [Bullet + message];
      if |actionLog| > LogCapacity {
        actionLog := actionLog[1..];
      }
    }

    /** The step the handlers share: the character's columns are written,
        then the message is logged. */
    method UpdateAndLog(update: CharacterPatch, message: string)
      requires |actionLog| <= LogCapacity && db.Valid()
      modifies this`actionLog, db`characters
      ensures |actionLog| <= LogCapacity && db.Valid()
      ensures db.characters == Patched(old(db.characters), userID, Some(update))
      ensures actionLog == Logged(old(actionLog), Some(message))
    {
      var _ := db.UpdateCharacter(userID, update);
      AddToActionLog(message);
    }

    /** A handler's effect has reached the store, the room and the log. */
    twostate predicate Applied(room: Room, eff: RoomEffect)
      reads this, db, room
    {
      db.characters == Patched(old(db.characters), userID, eff.update) &&
      room.cleared == (old(room.cleared) || eff.clears) &&
      actionLog == Logged(old(actionLog), eff.message)
    }

    /** The Interact button: nothing happens in a room explored before;
        otherwise the handler of the room's kind runs. Only the player's room
        can be cleared. */
    method InteractWithRoom(inCombat: bool, dice: RoomDice) returns (out: RoomOutcome)
      requires Valid()
      modifies this`actionLog, db`characters, dungeon.rooms.Values`cleared
      ensures Valid()
      ensures out == NoRoom <==> dungeon.playerPos !in dungeon.rooms
      ensures out == NoRoom || out == AlreadyExplored ==>
        db.characters == old(db.characters) && actionLog == old(actionLog)
      ensures out == AlreadyExplored ==> dungeon.rooms[dungeon.playerPos].cleared
      ensures dungeon.playerPos in dungeon.rooms ==>
        var room := dungeon.rooms[dungeon.playerPos];
        (out == AlreadyExplored <==> old(room.cleared)) &&
        (!old(room.cleared) ==>
          var eff := ResolveRoom(room.roomType, old(db.GetCharacter(userID)), inCombat, dice);
          out == eff.outcome && Applied(room, eff))
      ensures forall p | p in dungeon.rooms && p != dungeon.playerPos ::
        dungeon.rooms[p].cleared == old(dungeon.rooms[p].cleared)
    {
      if dungeon.playerPos !in dungeon.rooms {
        return NoRoom;
      }
      var room := dungeon.rooms[dungeon.playerPos];
      var character := db.GetCharacter(userID);
      if room.cleared {
        return AlreadyExplored;
      }
      out := RunHandler(room, character, inCombat, dice);
    }

    /** Runs the handler of the room's kind; combat, the merchant, empty
        rooms and kinds without a handler only report. */
    method RunHandler(room: Room, character: Option<Character>, inCombat: bool, dice: RoomDice) returns (out: RoomOutcome)
      requires |actionLog| <= LogCapacity && db.Valid() && character == db.GetCharacter(userID)
      modifies this`actionLog, db`characters, room`cleared
      ensures |actionLog| <= LogCapacity && db.Valid()
      ensures out != NoRoom && out != AlreadyExplored
      ensures out == ResolveRoom(room.roomType, character, inCombat, dice).outcome
      ensures Applied(room, ResolveRoom(room.roomType, character, inCombat, dice))
    {
      match room.roomType {
        case Treasure =>
          out := HandleTreasureRoom(room, character, dice);
        case CombatRoom =>
          out := if inCombat then AlreadyFighting else MonsterEncounter;
        case Trap =>
          out := HandleTrapRoom(room, character, dice);
        case Healing =>
          out := HandleHealingRoom(room, character);
        case Shop =>
          out := MerchantMet;
        case Puzzle =>
          out := HandlePuzzleRoom(room, character, dice);
        case Empty =>
          out := EmptyRoom;
        case Entrance =>
          out := UnknownRoom;
        case BossRoom =>
          out := UnknownRoom;
      }
    }

    /** Coins from a chest, then the room is cleared and the find logged. */
    method HandleTreasureRoom(room: Room, character: Option<Character>, dice: RoomDice) returns (out: RoomOutcome)
      requires |actionLog| <= LogCapacity && db.Valid() && room.roomType == Treasure && character == db.GetCharacter(userID)
      modifies this`actionLog, db`characters, room`cleared
      ensures |actionLog| <= LogCapacity && db.Valid()
      ensures out == TreasureEffect(character, dice).outcome && Applied(room, TreasureEffect(character, dice))
    {
      ghost var eff := TreasureEffect(character, dice);
      var coinsFound := Draw(20, 100, dice.treasureRoll);
      if character.None? {
        return HandlerFailed;
      }
      var update := CharacterPatch(coins := Some(character.value.coins + coinsFound));
      var message := "Found " + DecimalText(coinsFound) + " coins in a treasure chest!";
      assert eff == RoomEffect(TreasureFound(coinsFound), Some(update), true, Some(message));
      var _ := db.UpdateCharacter(userID, update);
      room.Clear();
      AddToActionLog(message);
      return TreasureFound(coinsFound);
    }

    /** Three traps in ten are avoided; otherwise the damage leaves at least
        one health point. The room is cleared either way. */
    method HandleTrapRoom(room: Room, character: Option<Character>, dice: RoomDice) returns (out: RoomOutcome)
      requires |actionLog| <= LogCapacity && db.Valid() && room.roomType == Trap && character == db.GetCharacter(userID)
      modifies this`actionLog, db`characters, room`cleared
      ensures |actionLog| <= LogCapacity && db.Valid()
      ensures out == TrapEffect(character, dice).outcome && Applied(room, TrapEffect(character, dice))
    {
      ghost var eff := TrapEffect(character, dice);
      if Draw(1, 100, dice.trapRoll) <= 30 {
        assert eff == RoomEffect(TrapAvoided, None, true, Some("You successfully avoided the traps!"));
        AddToActionLog("You successfully avoided the traps!");
        out := TrapAvoided;
      } else {
        var damage := Draw(5, 15, dice.damageRoll);
        if character.None? {
          return HandlerFailed;
        }
        var newHealth := Max(1, character.value.health - damage);
        var update := CharacterPatch(health := Some(newHealth));
        var message := "You triggered a trap! You lost " + DecimalText(damage) + " health!";
        assert eff == RoomEffect(TrapTriggered(damage), Some(update), true, Some(message));
        UpdateAndLog(update, message);
        out := TrapTriggered(damage);
      }
      room.Clear();
    }

    /** The spring heals up to 30 points without passing the maximum, and the
        room is cleared. */
    method HandleHealingRoom(room: Room, character: Option<Character>) returns (out: RoomOutcome)
      requires |actionLog| <= LogCapacity && db.Valid() && room.roomType == Healing && character == db.GetCharacter(userID)
      modifies this`actionLog, db`characters, room`cleared
      ensures |actionLog| <= LogCapacity && db.Valid()
      ensures out == HealingEffect(character).outcome && Applied(room, HealingEffect(character))
    {
      if character.None? {
        return HandlerFailed;
      }
      ghost var eff := HealingEffect(character);
      var healAmount := Min(30, character.value.maxHealth - character.value.health);
      if healAmount > 0 {
        var newHealth := character.value.health + healAmount;
        var update := CharacterPatch(health := Some(newHealth));
        var message := "You healed for " + DecimalText(healAmount) + " health at the spring!";
        assert eff == RoomEffect(Healed(healAmount), Some(update), true, Some(message));
        UpdateAndLog(update, message);
      } else {
        assert eff == RoomEffect(Healed(healAmount), None, true, None);
      }
      room.Clear();
      return Healed(healAmount);
    }

    /** The player's guess against the puzzle's answer, both from 1 to 3; a
        right guess pays 10 to 30 coins. The room is cleared either way. */
    method HandlePuzzleRoom(room: Room, character: Option<Character>, dice: RoomDice) returns (out: RoomOutcome)
      requires |actionLog| <= LogCapacity && db.Valid() && room.roomType == Puzzle && character == db.GetCharacter(userID)
      modifies this`actionLog, db`characters, room`cleared
      ensures |actionLog| <= LogCapacity && db.Valid()
      ensures out == PuzzleEffect(character, dice).outcome && Applied(room, PuzzleEffect(character, dice))
    {
      ghost var eff := PuzzleEffect(character, dice);
      var correctAnswer := Draw(1, 3, dice.answerRoll);
      var userGuess := Draw(1, 3, dice.guessRoll);
      if userGuess == correctAnswer {
        var reward := Draw(10, 30, dice.rewardRoll);
        if character.None? {
          return HandlerFailed;
        }
        var update := CharacterPatch(coins := Some(character.value.coins + reward));
        var message := "You solved the puzzle! You gained " + DecimalText(reward) + " coins.";
        assert eff == RoomEffect(PuzzleSolved(reward), Some(update), true, Some(message));
        UpdateAndLog(update, message);
        out := PuzzleSolved(reward);
      } else {
        assert eff == RoomEffect(PuzzleFailed, None, true, None);
        out := PuzzleFailed;
      }
      room.Clear();
    }
  }
}

=== FILE: mini_dungeon.dfy ===
/** The small dungeon of SwordSong/services/dungeon/miniTest.py: a square grid
    with an entrance on the west edge, a treasure room on the east edge and a
    block of randomly typed rooms between them; passages open exactly between
    neighbouring rooms, and the player walks through them. */
module MiniDungeons {
  import opened Basics
  import opened DungeonModels

  /** The glyph of the player's cell and of a cell the map does not show, as
      the source file stores them: the UTF-8 bytes of the bust and brown
      square emoji read back as Windows-1252, so each is four characters. */
  const PlayerGlyph := "\U{00F0}\U{0178}\U{2018}\U{00A4}"
  const BlankGlyph := "\U{00F0}\U{0178}\U{0178}\U{00AB}"

  /** The kind of an interior room: combat, trap, puzzle or empty with weights
      40, 15, 10 and 35 out of 100. */
  function RoomKind(roll: nat): (r: RoomType)
    ensures r == CombatRoom || r == Trap || r == Puzzle || r == Empty
  {
    var w := roll % 100;
    if w < 40 then CombatRoom
    else if w < 55 then Trap
    else if w < 65 then Puzzle
    else Empty
  }

  /** Each kind is drawn on a run of rolls as long as its weight. */
  lemma RoomKindWeights(roll: nat)
    ensures RoomKind(roll) == CombatRoom <==> roll % 100 < 40
    ensures RoomKind(roll) == Trap <==> 40 <= roll % 100 < 55
    ensures RoomKind(roll) == Puzzle <==> 55 <= roll % 100 < 65
    ensures RoomKind(roll) == Empty <==> 65 <= roll % 100
  {
  }

  /** The cells strictly inside the border. */
  predicate Interior(size: int, p: Position)
  {
    1 <= p.x < size - 1 && 1 <= p.y < size - 1
  }

  /** The dungeon configuration has display data for every kind of room. */
  predicate Complete(roomData: map<RoomType, RoomData>)
  {
    forall t: RoomType :: t in roomData
  }

  /** The passages of the room at `p` once the rooms occupy `cells`: open
      exactly towards the occupied neighbours. */
  function Passages(cells: set<Position>, p: Position): (r: map<string, bool>)
    ensures r.Keys == DirectionSet
    ensures forall d | d in DirectionSet :: r[d] == (Neighbors(p)[d] in cells)
  {
    map d | d in DirectionSet :: Neighbors(p)[d] in cells
  }

  datatype MoveResult =
    | Moved
    | Stayed
    | Crashed   // the position was changed, then the lookup of the new room raised

  class MiniDungeon {
    const size: nat
    const roomData: map<RoomType, RoomData>
    var rooms: map<Position, Room>
    var playerPos: Position

    /** Every room sits under its own position and knows the four directions. */
    ghost predicate Valid()
      reads this, rooms.Values`connections
    {
      Complete(roomData) &&
      forall p | p in rooms :: rooms[p].position == p && rooms[p].Valid()
    }

    /** A passage is open exactly when a room lies beyond it. */
    ghost predicate Wired()
      requires Valid()
      reads this, rooms.Values`connections
    {
      forall p, d | p in rooms && d in DirectionSet :: rooms[p].connections[d] == (Neighbors(p)[d] in rooms)
    }

    /** The layout `generateGrid` produces from its rolls. */
    ghost predicate Generated(y0Roll: nat, y1Roll: nat, kindRoll: Position -> nat)
      requires Complete(roomData) && size >= 3
      reads this, rooms.Values`visited, rooms.Values`cleared
    {
      var entrance := Position(0, Draw(1, size - 2, y0Roll));
      var treasure := Position(size - 1, Draw(1, size - 2, y1Roll));
      (forall p :: p in rooms <==> p == entrance || p == treasure || Interior(size, p)) &&
      playerPos == entrance &&
      rooms[entrance].roomType == Entrance &&
      rooms[treasure].roomType == Treasure &&
      (forall p | Interior(size, p) :: rooms[p].roomType == RoomKind(kindRoll(p))) &&
      (forall p | p in rooms ::
         rooms[p].config == roomData[rooms[p].roomType] && !rooms[p].cleared &&
         (rooms[p].visited <==> p == entrance))
    }

    /** The dataclass initialiser followed by `__post_init__`, which generates
        the grid. */
    constructor(size: nat, roomData: map<RoomType, RoomData>, y0Roll: nat, y1Roll: nat, kindRoll: Position -> nat)
      requires size >= 3 && Complete(roomData)
      ensures this.size == size && this.roomData == roomData
      ensures Valid() && Wired() && Generated(y0Roll, y1Roll, kindRoll)
    {
      this.size := size;
      this.roomData := roomData;
      rooms := map[];
      playerPos := Position(0, 0);
      new;
      GenerateGrid(y0Roll, y1Roll, kindRoll);
    }

    /** Builds a fresh grid: the entrance and the treasure room on opposite
        edges, away from the corners, the player in the visited entrance, a
        typed room in every interior cell, and passages between neighbours. */
    method GenerateGrid(y0Roll: nat, y1Roll: nat, kindRoll: Position -> nat)
      requires size >= 3 && Complete(roomData)
      modifies this`rooms, this`playerPos
      ensures Valid() && Wired() && Generated(y0Roll, y1Roll, kindRoll)
    {
      var entrance := Position(0, Draw(1, size - 2, y0Roll));
      var treasure := Position(size - 1, Draw(1, size - 2, y1Roll));
      PlaceEnds(entrance, treasure);
      PlaceInterior(kindRoll);
      LaidOut(y0Roll, y1Roll, kindRoll);
      ConnectRooms();
    }

    /** The first step of `GenerateGrid`: a new grid holding only the
        entrance, where the player stands and which is visited, and the
        treasure room. */
    method PlaceEnds(entrance: Position, treasure: Position)
      requires Complete(roomData) && entrance != treasure
      modifies this`rooms, this`playerPos
      ensures forall p :: p in rooms <==> p == entrance || p == treasure
      ensures playerPos == entrance
      ensures fresh(rooms[entrance]) && IsPlaced(rooms[entrance], entrance, Entrance) && rooms[entrance].visited
      ensures fresh(rooms[treasure]) && IsPlaced(rooms[treasure], treasure, Treasure) && !rooms[treasure].visited
    {
      var first := new Room(Entrance, entrance, roomData[Entrance]);
      var last := new Room(Treasure, treasure, roomData[Treasure]);
      rooms := map[entrance := first, treasure := last];
      playerPos := entrance;
      first.Visit();
    }

    /** The rooms placed by the first two steps of `GenerateGrid` form the
        generated layout. */
    lemma LaidOut(y0Roll: nat, y1Roll: nat, kindRoll: Position -> nat)
      requires size >= 3 && Complete(roomData)
      requires var entrance := Position(0, Draw(1, size - 2, y0Roll));
               var treasure := Position(size - 1, Draw(1, size - 2, y1Roll));
               (forall p :: p in rooms <==> p == entrance || p == treasure || Interior(size, p)) &&
               playerPos == entrance &&
               IsPlaced(rooms[entrance], entrance, Entrance) && rooms[entrance].visited &&
               IsPlaced(rooms[treasure], treasure, Treasure) && !rooms[treasure].visited &&
               (forall p | Interior(size, p) :: IsPlaced(rooms[p], p, RoomKind(kindRoll(p))) && !rooms[p].visited)
      ensures Generated(y0Roll, y1Roll, kindRoll)
      ensures forall p | p in rooms :: rooms[p].position == p && rooms[p].connections == Closed
    {
      var entrance := Position(0, Draw(1, size - 2, y0Roll));
      forall p | p in rooms
        ensures rooms[p].config == roomData[rooms[p].roomType] && !rooms[p].cleared
        ensures rooms[p].visited <==> p == entrance
      {
      }
    }

    /** A room as its constructor leaves it, at `p` and of the given kind,
        save possibly for the visited flag. */
    ghost predicate IsPlaced(r: Room, p: Position, kind: RoomType)
      requires Complete(roomData)
      reads r
    {
      r.position == p && r.roomType == kind && r.config == roomData[kind] && !r.cleared && r.connections == Closed
    }

    /** The nested loop over the interior cells: one new, unvisited room per
        cell, of the kind its roll picks; the rooms already there stay. */
    method PlaceInterior(kindRoll: Position -> nat)
      requires Complete(roomData)
      requires forall p | p in rooms :: !Interior(size, p)
      modifies this`rooms
      ensures forall p :: p in rooms <==> p in old(rooms) || Interior(size, p)
      ensures forall p | p in old(rooms) :: rooms[p] == old(rooms[p])
      ensures forall p | Interior(size, p) :: fresh(rooms[p]) && IsPlaced(rooms[p], p, RoomKind(kindRoll(p))) && !rooms[p].visited
    {
      var x := 1;
      while x < size - 1
        invariant 1 <= x
        invariant forall p :: p in rooms <==> p in old(rooms) || Before(p, x, 1)
        invariant forall p | p in old(rooms) :: rooms[p] == old(rooms[p])
        invariant forall p | p in rooms && p !in old(rooms) ::
          fresh(rooms[p]) && IsPlaced(rooms[p], p, RoomKind(kindRoll(p))) && !rooms[p].visited
      {
        var y := 1;
        while y < size - 1
          invariant 1 <= y
          invariant forall p :: p in rooms <==> p in old(rooms) || Before(p, x, y)
          invariant forall p | p in old(rooms) :: rooms[p] == old(rooms[p])
          invariant forall p | p in rooms && p !in old(rooms) ::
            fresh(rooms[p]) && IsPlaced(rooms[p], p, RoomKind(kindRoll(p))) && !rooms[p].visited
        {
          var pos := Position(x, y);
          var kind := RoomKind(kindRoll(pos));
          var room := new Room(kind, pos, roomData[kind]);
          rooms := rooms[pos := room];
          y := y + 1;
        }
        x := x + 1;
      }
    }

    /** The interior cells the nested loop has filled before reaching (x, y). */
    predicate Before(p: Position, x: int, y: int)
    {
      Interior(size, p) && (p.x < x || (p.x == x && p.y < y))
    }

    /** The loop over every room and its four neighbours: a passage opens
        towards each neighbouring cell that holds a room. */
    method ConnectRooms()
      requires Complete(roomData)
      requires forall p | p in rooms :: rooms[p].position == p && rooms[p].connections == Closed
      modifies rooms.Values`connections
      ensures Valid() && Wired()
    {
      var todo := rooms.Keys;
      while todo != {}
        invariant todo <= rooms.Keys
        invariant forall p | p in rooms :: rooms[p].connections == if p in todo then Closed else Passages(rooms.Keys, p)
        decreases todo
      {
        var pos :| pos in todo;
        var room := rooms[pos];
        assert forall p | p in rooms && p != pos :: rooms[p] != room;
        OpenPassages(room);
        todo := todo - {pos};
      }
      PassagesWired();
    }

    /** Every room's passages open exactly towards the occupied cells. */
    ghost predicate AllPassages()
      reads this, rooms.Values`connections
    {
      forall p | p in rooms :: rooms[p].connections == Passages(rooms.Keys, p)
    }

    lemma PassagesWired()
      requires Complete(roomData)
      requires forall p | p in rooms :: rooms[p].position == p
      requires AllPassages()
      ensures Valid() && Wired()
    {
      forall p, d | p in rooms && d in DirectionSet
        ensures rooms[p].connections[d] == (Neighbors(p)[d] in rooms)
      {
        assert rooms[p].connections == Passages(rooms.Keys, p);
      }
    }

    /** The inner loop over the four neighbours of one room. */
    method OpenPassages(room: Room)
      requires room.connections == Closed
      modifies room`connections
      ensures room.connections == Passages(rooms.Keys, room.position)
    {
      var pos := room.position;
      var i := 0;
      while i < |Directions|
        invariant 0 <= i <= |Directions|
        invariant room.Valid()
        invariant forall d | d in DirectionSet :: room.connections[d] == (DirectionIndex(d) < i && Neighbors(pos)[d] in rooms)
      {
        var direction := Directions[i];
        if Neighbors(pos)[direction] in rooms {
          room.SetConnection(direction, true);
        }
        i := i + 1;
      }
    }

    /** Passages are two-way: an open passage leads to a room whose passage
        in the opposite direction is open too. */
    lemma ConnectionsSymmetric(p: Position, d: string)
      requires Valid() && Wired()
      requires p in rooms && d in DirectionSet && rooms[p].connections[d]
      ensures Neighbors(p)[d] in rooms
      ensures rooms[Neighbors(p)[d]].connections[Opposite(d)]
    {
      NeighborRoundTrip(p, d);
    }

    /** Whether the player's room has an open passage in `direction`
        (`connections.get(direction, False)`). */
    predicate PassageOpen(direction: string)
      reads this, rooms.Values
    {
      playerPos in rooms && direction in rooms[playerPos].connections && rooms[playerPos].connections[direction]
    }

    /** `movePlayer` as written: the test on the target cell is inverted, so a
        target that holds a room is refused, and a target without one is
        entered before its lookup raises. In a generated dungeon every open
        passage leads to a room, so the player never moves. */
    method MovePlayerAsWritten(direction: string) returns (r: MoveResult)
      requires Valid()
      modifies this`playerPos
      ensures !old(PassageOpen(direction)) ==> r == Stayed && playerPos == old(playerPos)
      ensures old(PassageOpen(direction)) ==>
        var target := Neighbors(old(playerPos))[direction];
        (target in rooms ==> r == Stayed && playerPos == old(playerPos)) &&
        (target !in rooms ==> r == Crashed && playerPos == target)
      ensures Wired() ==> r == Stayed && playerPos == old(playerPos)
      ensures r != Moved
    {
      if !PassageOpen(direction) {
        return Stayed;
      }
      var target := Neighbors(playerPos)[direction];
      if target !in rooms {
        playerPos := target;
        return Crashed;
      }
      return Stayed;
    }

    /** `movePlayer` with the target test the right way round: the player
        steps through an open passage into the room beyond and visits it;
        otherwise nothing changes. */
    method MovePlayer(direction: string) returns (moved: bool)
      requires Valid()
      modifies this`playerPos, rooms.Values`visited
      ensures Valid()
      ensures moved <==> old(PassageOpen(direction)) && Neighbors(old(playerPos))[direction] in rooms
      ensures moved ==> playerPos == Neighbors(old(playerPos))[direction] && rooms[playerPos].visited
      ensures !moved ==> playerPos == old(playerPos)
      ensures forall p | p in rooms && (p != playerPos || !moved) :: rooms[p].visited == old(rooms[p].visited)
      ensures old(Wired()) ==> Wired() && (moved <==> old(PassageOpen(direction)))
    {
      if !PassageOpen(direction) {
        return false;
      }
      var target := Neighbors(playerPos)[direction];
      if target in rooms {
        playerPos := target;
        rooms[target].Visit();
        return true;
      }
      return false;
    }

    /** What the map shows in one cell. */
    function CellGlyph(p: Position): string
      reads this, rooms.Values
    {
      if p == playerPos then PlayerGlyph
      else if p in rooms && rooms[p].visited then rooms[p].GetEmoji()
      else BlankGlyph
    }

    /** Right after generation the map shows the player at the entrance and
        nothing else: no other room has been visited. */
    lemma FreshMapShowsOnlyPlayer(y0Roll: nat, y1Roll: nat, kindRoll: Position -> nat, p: Position)
      requires Valid() && size >= 3 && Generated(y0Roll, y1Roll, kindRoll)
      ensures CellGlyph(p) == if p == playerPos then PlayerGlyph else BlankGlyph
    {
    }

    /** The map, row by row from north to south, each row west to east. */
    method CurrentRoom() returns (grid: seq<seq<string>>)
      ensures |grid| == size
      ensures forall y | 0 <= y < size :: |grid[y]| == size
      ensures forall y, x | 0 <= y < size && 0 <= x < size :: grid[y][x] == CellGlyph(Position(x, y))
    {
      grid := [];
      var y := 0;
      while y < size
        invariant 0 <= y <= size
        invariant |grid| == y
        invariant forall j | 0 <= j < y :: |grid[j]| == size
        invariant forall j, x | 0 <= j < y && 0 <= x < size :: grid[j][x] == CellGlyph(Position(x, j))
      {
        var line := [];
        var x := 0;
        while x < size
          invariant 0 <= x <= size
          invariant |line| == x
          invariant forall i | 0 <= i < x :: line[i] == CellGlyph(Position(i, y))
        {
          var pos := Position(x, y);
          if pos == playerPos {
            line := line + [PlayerGlyph];
          } else if pos in rooms && rooms[pos].visited {
            line := line + [rooms[pos].GetEmoji()];
          } else {
            line := line + [BlankGlyph];
          }
          x := x + 1;
        }
        grid := grid + [line];
        y := y + 1;
      }
    }
  }
}

=== FILE: shop.dfy ===
/** The guild shop: the paged shop screen and its purchase form
    (SwordSong/view/shopView.py) and the `shop` text command, which cuts the
    catalogue into pages and turns them with two arrow reactions
    (SwordSong/cogs/shop.py). */
module Shop {
  import opened Basics
  import opened Store

  /** An entry of the shop catalogue. */
  datatype ShopItem = ShopItem(name: string, buyPrice: int, itemType: string, effect: string, description: string)

  const ItemsPerPage: nat := 6

  /** The number of pages a catalogue of `n` items fills: the ceiling of
      n / 6. */
  function PageCount(n: nat): (r: nat)
    ensures r * ItemsPerPage >= n
    ensures r > 0 ==> (r - 1) * ItemsPerPage < n
    ensures r == 0 <==> n == 0
  {
    (n + ItemsPerPage - 1) / ItemsPerPage
  }

  // ---------------------------------------------------------------------
  // Slices and pages

  /** How a slice bound is read: a negative bound counts from the end, and
      every bound is clamped to the sequence. */
  function SliceBound(n: nat, i: int): (r: nat)
    ensures r <= n
    ensures 0 <= i <= n ==> r == i
  {
    if i < 0 then (if i + n < 0 then 0 else i + n)
    else if i > n then n
    else i
  }

  /** `s[start:end]` with the slicing rules of the source language: never
      out of range, empty when the bounds cross. */
  function Slice<T>(s: seq<T>, start: int, end: int): (r: seq<T>)
    ensures 0 <= end <= start ==> r == []
    ensures start >= |s| ==> r == []
    ensures 0 <= start <= end ==> r == s[Min(start, |s|)..Min(end, |s|)]
  {
    var a := SliceBound(|s|, start);
    var b := SliceBound(|s|, end);
    if a < b then s[a..b] else []
  }

  /** The catalogue cut, in order, into pages of six; only the last page
      may be shorter. */
  function Chunks<T>(s: seq<T>): seq<seq<T>>
    decreases |s|
  {
    if |s| == 0 then []
    else if |s| <= ItemsPerPage then [s]
    else [s[..ItemsPerPage]] + Chunks(s[ItemsPerPage..])
  }

  function Flatten<T>(ss: seq<seq<T>>): seq<T>
  {
    if |ss| == 0 then [] else ss[0] + Flatten(ss[1..])
  }

  /** Putting the pages back together gives the catalogue: nothing is lost,
      repeated or reordered. */
  lemma {:induction false} ChunksFlatten<T>(s: seq<T>)
    ensures Flatten(Chunks(s)) == s
    decreases |s|
  {
    if |s| == 0 {
    } else if |s| <= ItemsPerPage {
      calc {
        Flatten(Chunks(s));
        == { assert Chunks(s) == [s]; }
        s + Flatten([s][1..]);
        == { assert [s][1..] == []; }
        s;
      }
    } else {
      var rest := s[ItemsPerPage..];
      ChunksFlatten(rest);
      assert Chunks(s)[1..] == Chunks(rest);
      assert s == s[..ItemsPerPage] + rest;
    }
  }

  /** There are ceil(n / 6) pages, each holding one to six items. */
  lemma {:induction false} ChunkSizes<T>(s: seq<T>)
    ensures |Chunks(s)| == PageCount(|s|)
    ensures forall k | 0 <= k < |Chunks(s)| :: 1 <= |Chunks(s)[k]| <= ItemsPerPage
    decreases |s|
  {
    if |s| > ItemsPerPage {
      var rest := s[ItemsPerPage..];
      ChunkSizes(rest);
      assert Chunks(s) == [s[..ItemsPerPage]] + Chunks(rest);
      assert PageCount(|s|) == PageCount(|rest|) + 1;
      forall k | 1 <= k < |Chunks(s)|
        ensures 1 <= |Chunks(s)[k]| <= ItemsPerPage
      {
        assert Chunks(s)[k] == Chunks(rest)[k - 1];
      }
    }
  }

  /** Page k (counted from 0) is the slice [6k : 6k + 6] of the catalogue. */
  lemma {:induction false} ChunkIsSlice<T>(s: seq<T>, k: nat)
    requires k < |Chunks(s)|
    ensures k * ItemsPerPage < |s|
    ensures Chunks(s)[k] == Slice(s, k * ItemsPerPage, k * ItemsPerPage + ItemsPerPage)
    decreases |s|
  {
    if |s| <= ItemsPerPage {
      assert Chunks(s) == [s];
    } else {
      var rest := s[ItemsPerPage..];
      if k > 0 {
        assert Chunks(s)[k] == Chunks(rest)[k - 1];
        ChunkIsSlice(rest, k - 1);
        var a := (k - 1) * ItemsPerPage;
        var b := Min(a + ItemsPerPage, |rest|);
        assert Chunks(rest)[k - 1] == rest[a..b];
        assert a + ItemsPerPage == k * ItemsPerPage;
        assert b + ItemsPerPage == Min(k * ItemsPerPage + ItemsPerPage, |s|);
        assert forall i | 0 <= i < b - a :: rest[a..b][i] == s[a + ItemsPerPage + i];
        assert rest[a..b] == s[a + ItemsPerPage..b + ItemsPerPage];
      }
    }
  }

  // ---------------------------------------------------------------------
  // Page turning of the `shop` command

  datatype Arrow = Left | Right

  /** One reaction: the right arrow goes to the next page and the left arrow
      to the previous one, wrapping around at both ends. The source's `%`
      floors, which for a positive page count agrees with Dafny's `%`. */
  function Turn(n: nat, p: int, a: Arrow): (r: nat)
    requires n > 0
    ensures r < n
  {
    match a
    case Right => (p + 1) % n
    case Left => (p - 1) % n
  }

  /** The page shown after a run of reactions, starting on page `start`. */
  function PageAfter(n: nat, start: int, reactions: seq<Arrow>): int
    requires n > 0
  {
    if |reactions| == 0 then start
    else Turn(n, PageAfter(n, start, reactions[..|reactions| - 1]), reactions[|reactions| - 1])
  }

  /** On a page in range, the right arrow moves one page on and wraps from
      the last page to the first. */
  lemma TurnRight(n: nat, p: nat)
    requires p < n
    ensures Turn(n, p, Right) == if p + 1 < n then p + 1 else 0
  {
    if p + 1 == n {
      assert n % n == 0;
    } else {
      assert (p + 1) % n == p + 1;
    }
  }

  /** On a page in range, the left arrow moves one page back and wraps from
      the first page to the last. */
  lemma TurnLeft(n: nat, p: nat)
    requires p < n
    ensures Turn(n, p, Left) == if p > 0 then p - 1 else n - 1
  {
    if p == 0 {
      assert (-1) % n == n - 1;
    } else {
      assert (p - 1) % n == p - 1;
    }
  }

  /** Turning one way and then back returns to the same page. */
  lemma TurnBack(n: nat, p: nat)
    requires p < n
    ensures Turn(n, Turn(n, p, Right), Left) == p
    ensures Turn(n, Turn(n, p, Left), Right) == p
  {
    TurnRight(n, p);
    TurnLeft(n, Turn(n, p, Right));
    TurnLeft(n, p);
    TurnRight(n, Turn(n, p, Left));
  }

  function Rights(k: nat): (r: seq<Arrow>)
    ensures |r| == k && forall i | 0 <= i < k :: r[i] == Right
  {
    seq(k, _ => Right)
  }

  /** Up to n presses of the right arrow move that many pages on, wrapping
      past the last page; so n presses come back to the starting page. */
  lemma {:induction false} RightsAdvance(n: nat, p: nat, k: nat)
    requires p < n && k <= n
    ensures PageAfter(n, p, Rights(k)) == if p + k < n then p + k else p + k - n
  {
    if k > 0 {
      assert Rights(k)[..k - 1] == Rights(k - 1);
      RightsAdvance(n, p, k - 1);
      var q := PageAfter(n, p, Rights(k - 1));
      assert PageAfter(n, p, Rights(k)) == Turn(n, q, Right);
      TurnRight(n, q);
    }
  }

  /** The reaction loop of the `shop` command: each arrow pressed before
      the minute of silence turns the page. */
  method Browse(n: nat, reactions: seq<Arrow>) returns (page: nat)
    requires n > 0
    ensures page < n
    ensures page == PageAfter(n, 0, reactions)
  {
    page := 0;
    var i := 0;
    while i < |reactions|
      invariant 0 <= i <= |reactions|
      invariant page < n
      invariant page == PageAfter(n, 0, reactions[..i])
    {
      assert reactions[..i + 1][..i] == reactions[..i];
      page := Turn(n, page, reactions[i]);
      i := i + 1;
    }
    assert reactions[..i] == reactions;
  }

  /** The pages loop of the `shop` command: range(0, len(items), 6), one
      page per step. */
  method BuildPages(items: seq<ShopItem>) returns (pages: seq<seq<ShopItem>>)
    ensures pages == Chunks(items)
  {
    pages := [];
    var i := 0;
    while i < |items|
      invariant 0 <= i && i % ItemsPerPage == 0
      invariant i <= |items| ==> Chunks(items) == pages + Chunks(items[i..])
      invariant i > |items| ==> Chunks(items) == pages
      decreases |items| - i
    {
      var page := Slice(items, i, i + ItemsPerPage);
      var rest := items[i..];
      if |rest| <= ItemsPerPage {
        assert page == rest;
        assert Chunks(rest) == [rest];
      } else {
        assert page == rest[..ItemsPerPage];
        assert rest[ItemsPerPage..] == items[i + ItemsPerPage..];
      }
      pages := pages + [page];
      i := i + ItemsPerPage;
      if i >= |items| {
        assert Chunks(items) == pages by {
          assert Chunks(items[|items|..]) == [];
        }
      }
    }
  }

  /** How the `shop` command ends. */
  datatype ShopSession =
    | NotInGuild
    | EmptyCatalogue  // no pages are built, and showing the first one raises
    | Browsing(pages: seq<seq<ShopItem>>, arrows: bool, page: nat)

  class ShopCog {
    const db: CharacterStore
    const shopItems: seq<ShopItem>

    constructor(db: CharacterStore, shopItems: seq<ShopItem>)
      ensures this.db == db && this.shopItems == shopItems
    {
      this.db := db;
      this.shopItems := shopItems;
    }

    /** Only a guild member gets pages; the arrows are offered only when
        there is more than one page, and the page left on screen is the one
        the reactions lead to. */
    method ShopCommand(userID: UserId, reactions: seq<Arrow>) returns (out: ShopSession)
      ensures out.NotInGuild? <==> userID !in db.characters
      ensures out.EmptyCatalogue? <==> userID in db.characters && |shopItems| == 0
      ensures out.Browsing? ==>
        out.pages == Chunks(shopItems) && 0 < |out.pages| && out.page < |out.pages| &&
        (out.arrows <==> |out.pages| > 1) &&
        out.page == if out.arrows then PageAfter(|out.pages|, 0, reactions) else 0
    {
      var character := db.GetCharacter(userID);
      if character.None? {
        return NotInGuild;
      }
      var pages := BuildPages(shopItems);
      if |pages| == 0 {
        return EmptyCatalogue;
      }
      ChunksFlatten(shopItems);
      var currentPage := 0;
      var arrows := |pages| > 1;
      if arrows {
        currentPage := Browse(|pages|, reactions);
      }
      return Browsing(pages, arrows, currentPage);
    }
  }

  // ---------------------------------------------------------------------
  // The shop screen

  /** A catalogue line of the shop screen. */
  datatype ItemLine = ItemLine(name: string, price: int, itemType: string, description: string)

  /** The screen: a refusal for non-members, else the page header, the
      member's coins and one line per item of the current page. */
  datatype ShopEmbed =
    | NotInGuildEmbed
    | Listing(page: int, totalPages: nat, coins: int, lines: seq<ItemLine>)

  /** The line as the screen builds it: the price is read under a key the
      catalogue entries do not have, so the default 0 is shown. */
  function ListedAsWritten(item: ShopItem): (r: ItemLine)
    ensures r.name == item.name && r.price == 0
  {
    ItemLine(item.name, 0, item.itemType, item.description)
  }

  /** The line with the item's buying price. */
  function Listed(item: ShopItem): (r: ItemLine)
    ensures r.name == item.name && r.price == item.buyPrice
  {
    ItemLine(item.name, item.buyPrice, item.itemType, item.description)
  }

  /** A page step backwards: only above the first page. */
  function PageBack(page: int): (r: int)
    ensures page > 1 ==> r == page - 1
    ensures page <= 1 ==> r == page
    ensures 1 <= page ==> 1 <= r <= page
  {
    if page > 1 then page - 1 else page
  }

  /** A page step forwards: only below the last page. */
  function PageForward(page: int, totalPages: nat): (r: int)
    ensures page < totalPages ==> r == page + 1
    ensures page >= totalPages ==> r == page
    ensures page <= Max(1, totalPages) ==> r <= Max(1, totalPages)
  {
    if page < totalPages then page + 1 else page
  }

  /** The page after `k` presses of Next. */
  function PressNext(page: int, totalPages: nat, k: nat): int
  {
    if k == 0 then page else PageForward(PressNext(page, totalPages, k - 1), totalPages)
  }

  /** The page after `k` presses of Previous. */
  function PressPrevious(page: int, k: nat): int
  {
    if k == 0 then page else PageBack(PressPrevious(page, k - 1))
  }

  /** From a page in range, Next walks one page at a time and stays on the
      last page, so no page is skipped and none lies beyond the last. */
  lemma {:induction false} NextWalksToLastPage(page: int, totalPages: nat, k: nat)
    requires 1 <= page <= totalPages
    ensures PressNext(page, totalPages, k) == Min(page + k, totalPages)
  {
    if k > 0 {
      NextWalksToLastPage(page, totalPages, k - 1);
    }
  }

  /** From a page in range, Previous walks back one page at a time and stays
      on the first page. */
  lemma {:induction false} PreviousWalksToFirstPage(page: int, k: nat)
    requires 1 <= page
    ensures PressPrevious(page, k) == Max(page - k, 1)
  {
    if k > 0 {
      PreviousWalksToFirstPage(page, k - 1);
    }
  }

  class ShopView {
    const userID: UserId
    const db: CharacterStore
    const shopItems: seq<ShopItem>
    const totalPages: nat
    var page: int

    /** The page stays between the first and the last (page 1 of an empty
        catalogue counts as in range). */
    ghost predicate InRange()
      reads this`page
    {
      1 <= page <= Max(1, totalPages)
    }

    constructor(userID: UserId, db: CharacterStore, shopItems: seq<ShopItem>, page: int := 1)
      ensures this.userID == userID && this.db == db && this.shopItems == shopItems
      ensures this.page == page && totalPages == PageCount(|shopItems|)
    {
      this.userID := userID;
      this.db := db;
      this.shopItems := shopItems;
      this.page := page;
      totalPages := PageCount(|shopItems|);
    }

    /** The items of the current page: on a page in range exactly the
        catalogue's page of that number, which holds one to six items; past
        the last page nothing. */
    function GetCurrentItems(): (r: seq<ShopItem>)
      reads this`page
      ensures totalPages == PageCount(|shopItems|) && 1 <= page <= totalPages ==>
        |Chunks(shopItems)| == totalPages && r == Chunks(shopItems)[page - 1] && 1 <= |r| <= ItemsPerPage
      ensures totalPages == PageCount(|shopItems|) && page > totalPages ==> r == []
    {
      var startIdx := (page - 1) * ItemsPerPage;
      var endIdx := startIdx + ItemsPerPage;
      if totalPages == PageCount(|shopItems|) && 1 <= page <= totalPages then
        ChunkSizes(shopItems);
        ChunkIsSlice(shopItems, page - 1);
        Slice(shopItems, startIdx, endIdx)
      else
        Slice(shopItems, startIdx, endIdx)
    }

    /** The screen as built by the source: the prices all read 0. */
    function CreateEmbedAsWritten(): (r: ShopEmbed)
      reads this`page, db
      ensures r == NotInGuildEmbed <==> userID !in db.characters
      ensures r.Listing? ==>
        |r.lines| == |GetCurrentItems()| &&
        forall i | 0 <= i < |r.lines| :: r.lines[i].name == GetCurrentItems()[i].name && r.lines[i].price == 0
    {
      var character := db.GetCharacter(userID);
      if character.None? then NotInGuildEmbed
      else
        var items := GetCurrentItems();
        Listing(page, totalPages, character.value.coins, seq(|items|, i requires 0 <= i < |items| => ListedAsWritten(items[i])))
    }

    /** The screen with each item's buying price: a member sees the page
        number, the page count, their coins and the current page's items, in
        catalogue order. */
    function CreateEmbed(): (r: ShopEmbed)
      reads this`page, db
      ensures r == NotInGuildEmbed <==> userID !in db.characters
      ensures r.Listing? ==>
        r.page == page && r.totalPages == totalPages && r.coins == db.characters[userID].coins &&
        |r.lines| == |GetCurrentItems()| &&
        forall i | 0 <= i < |r.lines| ::
          r.lines[i].name == GetCurrentItems()[i].name && r.lines[i].price == GetCurrentItems()[i].buyPrice
    {
      var character := db.GetCharacter(userID);
      if character.None? then NotInGuildEmbed
      else
        var items := GetCurrentItems();
        Listing(page, totalPages, character.value.coins, seq(|items|, i requires 0 <= i < |items| => Listed(items[i])))
    }

    /** The Previous button. */
    method PreviousPage()
      modifies this`page
      ensures page == PageBack(old(page))
      ensures old(InRange()) ==> InRange()
    {
      if page > 1 {
        page := page - 1;
      }
    }

    /** The Next button. */
    method NextPage()
      modifies this`page
      ensures page == PageForward(old(page), totalPages)
      ensures old(InRange()) ==> InRange()
    {
      if page < totalPages {
        page := page + 1;
      }
    }
  }

  /** A catalogue item priced at 25 coins is listed at 0 coins. */
  lemma ListedPriceAsWritten()
    ensures var item := ShopItem("Potion", 25, "consumable", "heal", "");
      ListedAsWritten(item).price != item.buyPrice && Listed(item).price == item.buyPrice
  {
  }

  // ---------------------------------------------------------------------
  // The purchase form

  /** ASCII case folding. */
  function LowerChar(c: char): (r: char)
    ensures 'A' <= c <= 'Z' ==> 'a' <= r <= 'z'
    ensures !('A' <= c <= 'Z') ==> r == c
  {
    if 'A' <= c <= 'Z' then (c as int - 'A' as int + 'a' as int) as char else c
  }

  function Lower(s: string): (r: string)
    ensures |r| == |s|
    ensures forall i | 0 <= i < |s| :: r[i] == LowerChar(s[i])
  {
    seq(|s|, i requires 0 <= i < |s| => LowerChar(s[i]))
  }

  /** Folding twice is folding once. */
  lemma LowerIdempotent(s: string)
    ensures Lower(Lower(s)) == Lower(s)
  {
    assert forall i | 0 <= i < |s| :: LowerChar(LowerChar(s[i])) == LowerChar(s[i]);
  }

  predicate NameMatches(item: ShopItem, name: string)
  {
    Lower(item.name) == Lower(name)
  }

  /** The first catalogue entry whose name equals `name` ignoring case. */
  function FindItem(items: seq<ShopItem>, name: string): (r: Option<nat>)
    ensures r.Some? ==>
      r.value < |items| && NameMatches(items[r.value], name) &&
      forall j | 0 <= j < r.value :: !NameMatches(items[j], name)
    ensures r.None? <==> forall j | 0 <= j < |items| :: !NameMatches(items[j], name)
  {
    if |items| == 0 then None
    else if NameMatches(items[0], name) then Some(0)
    else
      var rest := FindItem(items[1..], name);
      if rest.None? then None else Some(rest.value + 1)
  }

  /** Typing the name in another case finds the same entry. */
  lemma LookupIgnoresCase(items: seq<ShopItem>, name: string)
    ensures FindItem(items, Lower(name)) == FindItem(items, name)
  {
    LowerIdempotent(name);
    assert forall it: ShopItem :: NameMatches(it, Lower(name)) == NameMatches(it, name);
    FindSameMatches(items, Lower(name), name);
  }

  lemma {:induction false} FindSameMatches(items: seq<ShopItem>, a: string, b: string)
    requires Lower(a) == Lower(b)
    ensures FindItem(items, a) == FindItem(items, b)
  {
    if |items| > 0 {
      FindSameMatches(items[1..], a, b);
    }
  }

  datatype BuyOutcome =
    | NotAMember
    | NotStocked
    | CannotAfford(price: int, coins: int)
    | Bought(item: ShopItem)

  class BuyItemModal {
    const userID: UserId
    const db: CharacterStore
    const shopItems: seq<ShopItem>

    constructor(userID: UserId, db: CharacterStore, shopItems: seq<ShopItem>)
      ensures this.userID == userID && this.db == db && this.shopItems == shopItems
    {
      this.userID := userID;
      this.db := db;
      this.shopItems := shopItems;
    }

    /** The form's submission: a non-member, an item not sold here and a
        price above the member's coins change nothing; otherwise one unit of
        the item is added and exactly its price is taken from the coins. */
    method Submit(itemName: string) returns (out: BuyOutcome)
      requires db.Valid()
      modifies db`characters, db`inventory
      ensures db.Valid()
      ensures out == NotAMember <==> userID !in old(db.characters)
      ensures out == NotStocked <==> userID in old(db.characters) && FindItem(shopItems, itemName).None?
      ensures !out.Bought? ==> db.characters == old(db.characters) && db.inventory == old(db.inventory)
      ensures out.CannotAfford? ==> out.coins < out.price
      ensures out.Bought? || out.CannotAfford? ==>
        userID in old(db.characters) && FindItem(shopItems, itemName).Some? &&
        var item := shopItems[FindItem(shopItems, itemName).value];
        var coins := old(db.characters[userID]).coins;
        (out.Bought? <==> coins >= item.buyPrice) &&
        (out.Bought? ==>
          out.item == item &&
          db.inventory == AddStack(old(db.inventory), userID, item.name, 1) &&
          db.characters == old(db.characters)[userID := old(db.characters[userID]).(coins := coins - item.buyPrice)])
    {
      var character := db.GetCharacter(userID);
      if character.None? {
        return NotAMember;
      }
      var found := FindItem(shopItems, itemName);
      if found.None? {
        return NotStocked;
      }
      var item := shopItems[found.value];
      if character.value.coins < item.buyPrice {
        return CannotAfford(item.buyPrice, character.value.coins);
      }
      var added := db.AddItem(userID, item.name, 1);
      var newCoins := character.value.coins - item.buyPrice;
      var _ := db.UpdateCharacter(userID, CharacterPatch(coins := Some(newCoins)));
      return Bought(item);
    }
  }
}

=== FILE: store.dfy ===
/** The character store of SwordSong/database.py. Its SQLite tables are keyed
    maps here: characters by user, inventory stacks by (user, item), equipment
    by (user, slot), fight statistics by user and skill cooldowns by
    (user, skill). */
module Store {
  import opened Basics

  type UserId = string
  type ItemName = string
  type SkillName = string
  type Slot = string

  /** A row of the characters table, including the mana columns added by the
      migration. Mana is a real: a cost of 1.5 leaves a fractional value. */
  datatype Character = Character(
    userID: UserId, name: string,
    level: int, xp: int, xpToLevel: int,
    health: int, maxHealth: int,
    attack: int, defense: int, coins: int,
    currentArea: string,
    mana: real, maxMana: int)

  /** The row `createCharacter` inserts: the id and the name, every other
      column at its declared default. */
  function NewCharacter(userID: UserId, name: string): Character
  {
    Character(userID, name, 1, 0, 100, 100, 100, 10, 5, 0, "Starter Village", 50.0, 50)
  }

  /** The `updates` dictionary of `updateCharacter`: each present entry names
      a column and its new value; absent entries leave the column alone. */
  datatype CharacterPatch = CharacterPatch(
    name: Option<string> := None, level: Option<int> := None, xp: Option<int> := None,
    xpToLevel: Option<int> := None, health: Option<int> := None, maxHealth: Option<int> := None,
    attack: Option<int> := None, defense: Option<int> := None, coins: Option<int> := None,
    currentArea: Option<string> := None, mana: Option<real> := None, maxMana: Option<int> := None)
  {
    predicate IsEmpty() {
      name.None? && level.None? && xp.None? && xpToLevel.None? && health.None? &&
      maxHealth.None? && attack.None? && defense.None? && coins.None? &&
      currentArea.None? && mana.None? && maxMana.None?
    }
  }

  function ApplyPatch(c: Character, p: CharacterPatch): (r: Character)
    ensures r.userID == c.userID
    ensures p.IsEmpty() ==> r == c
  {
    c.(name := p.name.GetOr(c.name), level := p.level.GetOr(c.level), xp := p.xp.GetOr(c.xp),
       xpToLevel := p.xpToLevel.GetOr(c.xpToLevel), health := p.health.GetOr(c.health),
       maxHealth := p.maxHealth.GetOr(c.maxHealth), attack := p.attack.GetOr(c.attack),
       defense := p.defense.GetOr(c.defense), coins := p.coins.GetOr(c.coins),
       currentArea := p.currentArea.GetOr(c.currentArea), mana := p.mana.GetOr(c.mana),
       maxMana := p.maxMana.GetOr(c.maxMana))
  }

  /** Applying the same updates twice is the same as applying them once. */
  lemma ApplyPatchIdempotent(c: Character, p: CharacterPatch)
    ensures ApplyPatch(ApplyPatch(c, p), p) == ApplyPatch(c, p)
  {
  }

  // ---------------------------------------------------------------------
  // Inventory stacks

  type Inventory = map<(UserId, ItemName), int>

  /** The quantity a user holds of an item; no row means none. */
  function StackOf(inv: Inventory, u: UserId, item: ItemName): int
  {
    if (u, item) in inv then inv[(u, item)] else 0
  }

  predicate PositiveStacks(inv: Inventory)
  {
    forall k | k in inv :: inv[k] > 0
  }

  /** The stack update of `addItem`: an existing row grows by the quantity,
      otherwise a new row holds it. */
  function AddStack(inv: Inventory, u: UserId, item: ItemName, quantity: int): (r: Inventory)
    ensures StackOf(r, u, item) == StackOf(inv, u, item) + quantity
    ensures (u, item) in r
    ensures forall k | k in inv :: k in r
    ensures forall k | k in r && k != (u, item) :: k in inv && r[k] == inv[k]
  {
    inv[(u, item) := StackOf(inv, u, item) + quantity]
  }

  /** The stack update of `removeItem` once its checks pass: subtract, and
      delete the row when nothing is left. */
  function TakeStack(inv: Inventory, u: UserId, item: ItemName, quantity: int): (r: Inventory)
    requires (u, item) in inv
    ensures StackOf(r, u, item) == Max(inv[(u, item)] - quantity, 0)
    ensures (u, item) in r <==> inv[(u, item)] - quantity > 0
    ensures forall k | k in r && k != (u, item) :: k in inv && r[k] == inv[k]
    ensures forall k | k in inv && k != (u, item) :: k in r
  {
    var left := inv[(u, item)] - quantity;
    if left <= 0 then inv - {(u, item)} else inv[(u, item) := left]
  }

  /** Removing what was just added restores the inventory, provided every
      stack was positive, as the store keeps them. */
  lemma TakeUndoesAdd(inv: Inventory, u: UserId, item: ItemName, quantity: int)
    requires PositiveStacks(inv) && quantity > 0
    ensures TakeStack(AddStack(inv, u, item, quantity), u, item, quantity) == inv
  {
    var r := TakeStack(AddStack(inv, u, item, quantity), u, item, quantity);
    assert forall k | k in inv :: k in r;
  }

  /** The rows of one user's inventory, as item name to quantity. */
  function InventoryOf(inv: Inventory, u: UserId): (r: map<ItemName, int>)
    ensures forall item :: item in r <==> (u, item) in inv
    ensures forall item | item in r :: r[item] == inv[(u, item)]
  {
    map k | k in inv && k.0 == u :: k.1 := inv[k]
  }

  /** Every entry of a (user, name)-keyed table except the given user's. */
  function WithoutUser<V>(m: map<(UserId, string), V>, u: UserId): (r: map<(UserId, string), V>)
    ensures forall k :: k in r <==> k in m && k.0 != u
    ensures forall k | k in r :: r[k] == m[k]
  {
    map k | k in m && k.0 != u :: m[k]
  }

  // ---------------------------------------------------------------------
  // The inventory insert as written (database.py line 193)

  /** A cell of an SQLite row; type affinity keeps text in an INTEGER column. */
  datatype Cell = IntCell(i: int) | TextCell(s: string)

  datatype InventoryRow = InventoryRow(userID: string, itemName: string, quantity: Cell)

  function DigitChar(d: nat): char
    requires d < 10
  {
    "0123456789"[d]
  }

  /** The text SQLite stores when an integer is bound to a TEXT column. */
  function DecimalText(n: nat): string
  {
    if n < 10 then [DigitChar(n)] else DecimalText(n / 10) + [DigitChar(n % 10)]
  }

  /** The row the new-item branch of `addItem` inserts as written: the values
      (quantity, userID, itemName) bound to the columns (userID, itemName,
      quantity). */
  function InsertedRowAsWritten(u: UserId, item: ItemName, quantity: nat): InventoryRow
  {
    InventoryRow(DecimalText(quantity), u, TextCell(item))
  }

  /** The row the branch evidently means to insert. */
  function InsertedRow(u: UserId, item: ItemName, quantity: nat): InventoryRow
  {
    InventoryRow(u, item, IntCell(quantity))
  }

  /** As written, a first unit of "Health Potion" bought by user "42" lands in
      a row owned by user "1" and named "42", so the user's own lookup of the
      item, which selects on (userID, itemName), never finds it. */
  lemma AddItemRowAsWritten()
    ensures InsertedRowAsWritten("42", "Health Potion", 1) == InventoryRow("1", "42", TextCell("Health Potion"))
    ensures InsertedRowAsWritten("42", "Health Potion", 1).userID != "42"
    ensures InsertedRow("42", "Health Potion", 1) == InventoryRow("42", "Health Potion", IntCell(1))
  {
    assert DecimalText(1) == "1";
  }

  // ---------------------------------------------------------------------
  // Fight statistics

  datatype FightStats = FightStats(totalFights: int, fightsSinceBoss: int, lastFightTimestap: int)

  /** The row `initializeFightStats` inserts: every column at its default. */
  const DefaultFightStats := FightStats(0, 0, 0)

  /** The `updates` dictionary of `updateFightStats`. */
  datatype FightStatsPatch = FightStatsPatch(totalFights: Option<int> := None, fightsSinceBoss: Option<int> := None)
  {
    predicate IsEmpty() { totalFights.None? && fightsSinceBoss.None? }
  }

  function ApplyStatsPatch(s: FightStats, p: FightStatsPatch): FightStats
  {
    s.(totalFights := p.totalFights.GetOr(s.totalFights), fightsSinceBoss := p.fightsSinceBoss.GetOr(s.fightsSinceBoss))
  }

  /** The statistics of a user, or the defaults when there is no row yet. */
  function StatsOrDefault(table: map<UserId, FightStats>, u: UserId): FightStats
  {
    if u in table then table[u] else DefaultFightStats
  }

  /** The columns of the fightStats table (the timestamp column is spelled
      lastFightTimestap in the schema). */
  const FightStatsColumns: set<string> := {"userID", "totalFights", "fightsSinceBoss", "lastFightTimestap"}

  /** The columns `getFightStats` selects as written, and as the schema names them. */
  const FightStatsQueryAsWritten: seq<string> := ["totalFights", "fightsSinceBoss", "lastFightTimestamp"]
  const FightStatsQuery: seq<string> := ["totalFights", "fightsSinceBoss", "lastFightTimestap"]

  /** The SELECT of `getFightStats`: naming a column the table lacks raises an
      sqlite3 error, which the method catches and answers with None. */
  function SelectFightStats(table: map<UserId, FightStats>, columns: seq<string>, u: UserId): Option<FightStats>
  {
    if forall c | c in columns :: c in FightStatsColumns then
      (if u in table then Some(table[u]) else None)
    else None
  }

  /** As written, `getFightStats` answers None for every user and every table. */
  lemma GetFightStatsAsWritten(table: map<UserId, FightStats>, u: UserId)
    ensures SelectFightStats(table, FightStatsQueryAsWritten, u) == None
  {
    assert FightStatsQueryAsWritten[2] !in FightStatsColumns;
  }

  /** With the schema's column name, the query finds exactly the stored row. */
  lemma GetFightStatsCorrected(table: map<UserId, FightStats>, u: UserId)
    ensures SelectFightStats(table, FightStatsQuery, u) == if u in table then Some(table[u]) else None
  {
  }

  // ---------------------------------------------------------------------
  // Skill cooldowns

  type Cooldowns = map<(UserId, SkillName), int>

  /** The turns left on a skill; a missing row reads as 0. */
  function CooldownOf(m: Cooldowns, u: UserId, s: SkillName): int
  {
    if (u, s) in m then m[(u, s)] else 0
  }

  /** `updateSkillCooldown`: every positive entry of the user loses one turn,
      then every entry of the user at or below zero is deleted. */
  function TickCooldowns(m: Cooldowns, u: UserId): (r: Cooldowns)
    ensures forall s :: CooldownOf(r, u, s) == Max(CooldownOf(m, u, s) - 1, 0)
    ensures forall k | k in r && k.0 == u :: r[k] > 0
    ensures forall k: (UserId, SkillName) | k.0 != u :: (k in r <==> k in m) && (k in r ==> r[k] == m[k])
  {
    map k | k in m && (k.0 != u || m[k] > 1) :: if k.0 == u then m[k] - 1 else m[k]
  }

  /** The cooldown table after `n` completed monster turns. */
  function TickTimes(m: Cooldowns, u: UserId, n: nat): Cooldowns
  {
    if n == 0 then m else TickCooldowns(TickTimes(m, u, n - 1), u)
  }

  /** Each completed monster turn takes one turn off a cooldown, never going
      below zero. */
  lemma {:induction false} CooldownAfterTicks(m: Cooldowns, u: UserId, s: SkillName, n: nat)
    requires n > 0 || CooldownOf(m, u, s) >= 0
    ensures CooldownOf(TickTimes(m, u, n), u, s) == Max(CooldownOf(m, u, s) - n, 0)
  {
    if n > 1 {
      CooldownAfterTicks(m, u, s, n - 1);
    }
  }

  /** A cooldown set to `n` turns is over after exactly `n` monster turns and
      not before. */
  lemma CooldownExpiresAfterItsTurns(m: Cooldowns, u: UserId, s: SkillName, n: nat, j: nat)
    ensures CooldownOf(TickTimes(m[(u, s) := n], u, n), u, s) == 0
    ensures j < n ==> CooldownOf(TickTimes(m[(u, s) := n], u, j), u, s) == n - j
  {
    CooldownAfterTicks(m[(u, s) := n], u, s, n);
    CooldownAfterTicks(m[(u, s) := n], u, s, j);
  }

  // ---------------------------------------------------------------------
  // The store

  class CharacterStore {
    var characters: map<UserId, Character>
    var inventory: Inventory
    var equipment: map<(UserId, Slot), ItemName>
    var fightStats: map<UserId, FightStats>
    var skillCooldowns: Cooldowns

    /** Rows are keyed by their own user id and no stack is empty. */
    ghost predicate Valid()
      reads this`characters, this`inventory
    {
      (forall u | u in characters :: characters[u].userID == u) &&
      PositiveStacks(inventory)
    }

    constructor()
      ensures Valid()
      ensures characters == map[] && inventory == map[] && equipment == map[]
      ensures fightStats == map[] && skillCooldowns == map[]
    {
      characters, inventory, equipment := map[], map[], map[];
      fightStats, skillCooldowns := map[], map[];
    }

    /** A duplicate user id violates the primary key: False, nothing changes. */
    method CreateCharacter(userID: UserId, name: string) returns (ok: bool)
      requires Valid()
      modifies this`characters
      ensures Valid()
      ensures ok <==> userID !in old(characters)
      ensures characters == if ok then old(characters)[userID := NewCharacter(userID, name)] else old(characters)
    {
      if userID in characters {
        return false;
      }
      characters := characters[userID := NewCharacter(userID, name)];
      return true;
    }

    function GetCharacter(userID: UserId): (r: Option<Character>)
      reads this
      ensures r == None <==> userID !in characters
      ensures r.Some? ==> r.value == characters[userID]
    {
      if userID in characters then Some(characters[userID]) else None
    }

    /** Empty updates succeed without touching the table; otherwise only the
        named columns of that user change, and the answer says whether a row
        matched. */
    method UpdateCharacter(userID: UserId, updates: CharacterPatch) returns (ok: bool)
      requires Valid()
      modifies this`characters
      ensures Valid()
      ensures updates.IsEmpty() ==> ok
      ensures !updates.IsEmpty() ==> (ok <==> userID in old(characters))
      ensures characters == if userID in old(characters)
                            then old(characters)[userID := ApplyPatch(old(characters)[userID], updates)]
                            else old(characters)
    {
      if updates.IsEmpty() {
        return true;
      }
      if userID !in characters {
        return false;
      }
      characters := characters[userID := ApplyPatch(characters[userID], updates)];
      return true;
    }

    /** Deletes the character, inventory and equipment rows of the user; the
        fight statistics and skill cooldowns stay behind. */
    method DeleteCharacter(userID: UserId) returns (ok: bool)
      requires Valid()
      modifies this`characters, this`inventory, this`equipment
      ensures Valid()
      ensures ok
      ensures characters == old(characters) - {userID}
      ensures inventory == WithoutUser(old(inventory), userID)
      ensures equipment == WithoutUser(old(equipment), userID)
    {
      characters := characters - {userID};
      inventory := WithoutUser(inventory, userID);
      equipment := WithoutUser(equipment, userID);
      return true;
    }

    /** The user's (item, quantity) rows, as item name to quantity. */
    function GetInventory(userID: UserId): (r: map<ItemName, int>)
      reads this
      ensures forall item :: item in r <==> (userID, item) in inventory
      ensures forall item | item in r :: r[item] == inventory[(userID, item)]
    {
      InventoryOf(inventory, userID)
    }

    /** Rejects a non-positive quantity and an unknown character without
        change; otherwise adds the quantity to the user's stack. */
    method AddItem(userID: UserId, itemName: ItemName, quantity: int) returns (ok: bool)
      requires Valid()
      modifies this`inventory
      ensures Valid()
      ensures ok <==> quantity > 0 && userID in characters
      ensures inventory == if ok then AddStack(old(inventory), userID, itemName, quantity) else old(inventory)
    {
      if quantity <= 0 {
        return false;
      }
      if GetCharacter(userID).None? {
        return false;
      }
      inventory := AddStack(inventory, userID, itemName, quantity);
      return true;
    }

    /** Rejects a non-positive quantity, a missing item and a short stack
        without change; otherwise subtracts, deleting an emptied row. */
    method RemoveItem(userID: UserId, itemName: ItemName, quantity: int) returns (ok: bool)
      requires Valid()
      modifies this`inventory
      ensures Valid()
      ensures ok <==> quantity > 0 && (userID, itemName) in old(inventory) && old(inventory)[(userID, itemName)] >= quantity
      ensures inventory == if ok then TakeStack(old(inventory), userID, itemName, quantity) else old(inventory)
    {
      if quantity <= 0 {
        return false;
      }
      if (userID, itemName) !in inventory {
        return false;
      }
      var currentQuantity := inventory[(userID, itemName)];
      if currentQuantity < quantity {
        return false;
      }
      inventory := TakeStack(inventory, userID, itemName, quantity);
      return true;
    }

    /** INSERT OR REPLACE on the (user, slot) key: one item per slot. */
    method EquipItem(userID: UserId, slot: Slot, itemName: ItemName) returns (ok: bool)
      modifies this`equipment
      ensures ok
      ensures equipment == old(equipment)[(userID, slot) := itemName]
    {
      equipment := equipment[(userID, slot) := itemName];
      return true;
    }

    method UnequipItem(userID: UserId, slot: Slot) returns (ok: bool)
      modifies this`equipment
      ensures ok
      ensures equipment == old(equipment) - {(userID, slot)}
    {
      equipment := equipment - {(userID, slot)};
      return true;
    }

    function GetEquipment(userID: UserId): (r: map<Slot, ItemName>)
      reads this
      ensures forall slot :: slot in r <==> (userID, slot) in equipment
      ensures forall slot | slot in r :: r[slot] == equipment[(userID, slot)]
    {
      map k | k in equipment && k.0 == userID :: k.1 := equipment[k]
    }

    /** INSERT OR IGNORE: an existing row is never overwritten. */
    method InitializeFightStats(userID: UserId) returns (ok: bool)
      modifies this`fightStats
      ensures ok
      ensures fightStats == old(fightStats)[userID := StatsOrDefault(old(fightStats), userID)]
      ensures userID in old(fightStats) ==> fightStats == old(fightStats)
    {
      if userID !in fightStats {
        fightStats := fightStats[userID := DefaultFightStats];
      }
      return true;
    }

    /** The statistics row of the user, selecting the columns the schema has
        (see SelectFightStats for the query as written). */
    function GetFightStats(userID: UserId): (r: Option<FightStats>)
      reads this
      ensures r == None <==> userID !in fightStats
      ensures r.Some? ==> r.value == fightStats[userID]
    {
      GetFightStatsCorrected(fightStats, userID);
      SelectFightStats(fightStats, FightStatsQuery, userID)
    }

    /** Empty updates succeed at once; otherwise the row is created if
        missing and only the named columns change. */
    method UpdateFightStats(userID: UserId, updates: FightStatsPatch) returns (ok: bool)
      modifies this`fightStats
      ensures ok
      ensures updates.IsEmpty() ==> fightStats == old(fightStats)
      ensures !updates.IsEmpty() ==>
        fightStats == old(fightStats)[userID := ApplyStatsPatch(StatsOrDefault(old(fightStats), userID), updates)]
    {
      if updates.IsEmpty() {
        return true;
      }
      var _ := InitializeFightStats(userID);
      fightStats := fightStats[userID := ApplyStatsPatch(fightStats[userID], updates)];
      return true;
    }

    /** INSERT OR REPLACE: the new value replaces any earlier one. */
    method SetSkillCooldown(userID: UserId, skillName: SkillName, turns: int) returns (ok: bool)
      modifies this`skillCooldowns
      ensures ok
      ensures skillCooldowns == old(skillCooldowns)[(userID, skillName) := turns]
    {
      skillCooldowns := skillCooldowns[(userID, skillName) := turns];
      return true;
    }

    function GetSkillCooldown(userID: UserId, skillName: SkillName): (r: int)
      reads this
      ensures (userID, skillName) !in skillCooldowns ==> r == 0
      ensures (userID, skillName) in skillCooldowns ==> r == skillCooldowns[(userID, skillName)]
    {
      CooldownOf(skillCooldowns, userID, skillName)
    }

    function IsSkillOnCooldown(userID: UserId, skillName: SkillName): (b: bool)
      reads this
      ensures b <==> (userID, skillName) in skillCooldowns && skillCooldowns[(userID, skillName)] > 0
    {
      GetSkillCooldown(userID, skillName) > 0
    }

    /** One turn off every running cooldown of the user, pruning the finished
        ones; other users' rows stay as they are. */
    method UpdateSkillCooldown(userID: UserId) returns (ok: bool)
      modifies this`skillCooldowns
      ensures ok
      ensures skillCooldowns == TickCooldowns(old(skillCooldowns), userID)
    {
      skillCooldowns := TickCooldowns(skillCooldowns, userID);
      return true;
    }

    /** The user's running cooldowns, skill by skill: the rows with turns
        left. */
    function GetAllSkillCooldowns(userID: UserId): (r: map<SkillName, int>)
      reads this
      ensures forall s :: s in r <==> IsSkillOnCooldown(userID, s)
      ensures forall s | s in r :: r[s] == GetSkillCooldown(userID, s) && r[s] > 0
    {
      map k | k in skillCooldowns && k.0 == userID && skillCooldowns[k] > 0 :: k.1 := skillCooldowns[k]
    }
  }
}
